=== FILE: README.md ===
# Polar codes: a verified model of the construction, encoding and decoder-tree core

This project models the sequential, deterministic core of a polar-code library. Polar codes are error-correcting codes built on the
butterfly transform `x = u · G_N` over GF(2). The model covers these parts:

- **Channel construction** (`channel_construction.py`). It models:
  - the Bhattacharyya doubling recursion in the linear domain and in the log domain;
  - the rule that picks between the two estimates;
  - the argsort ordering of channels and frozen-bit selection;
  - the in-place schedule of the Gaussian approximation.

  It also models `pcc` in `PolarCode.cpp`: information-set selection and the heap-indexed roll-up of the simplified decoder tree.
- **Polar transform and SC helpers** (`PolarCode.cpp`). It models:
  - n-bit reversal;
  - the butterfly used by `encode` and `transform`, and its self-inverse property;
  - how information bits are inserted and extracted;
  - the hard-decision node rules `Combine`, `SPC` and `Repetition`.
- **Tracking sorter and bit packing** (`ArrayFuncs.cpp`). It models:
  - heap sort, insertion ("stable") sort, Hoare partition, quicksort and partial quicksort, each moving a value array and an index array together;
  - MSB-first `Bits2Bytes` / `Bytes2Bits`.
- **Decoder trees** (`fastssc_avx_float.cpp`, `depth_first.cpp`). It models:
  - node classification by frozen-bit count and the order of precedence among the tests;
  - the output windows a fast-SSC tree writes;
  - the special-node decode rules (Rate-0, Rate-1, Repetition, SPC, Zero-SPC);
  - the weak-LLR selection of the depth-first decoder;
  - its configuration queue (`Manager::decode`/`decodeNext`) and the systematic trial loop of `DepthFirst::decode`.
- **Helpers**. It models:
  - the 4- and 8-lane minimum-index and XOR-sign reductions of `avxconvenience.h`;
  - the packed/information round trip of `BitContainer` (`bitcontainer.h`);
  - the LTE sub-block interleaver, the interleaver/padding validation and the frame error rate of `polar_code_simulation.py`;
  - the level mapping, padding and output lengths of ASK modulation (`ask.cpp`).

Conventions:

- Bits carried in float sign bits are `bool`. A float is a sign plus a magnitude: finite non-negative `real` or infinity (module `Floats`).
- Reals are exact.
- Transcendental functions (`exp`, `log`, `phi`, `invPhi`, `sqrt`) are function parameters. Where a proof needs their laws, they are assumed through a predicate in the lemma's `requires`.
- Arrays changed in place are `seq` values returned by methods.

One module per source file:

| module | file | source |
|---|---|---|
| `Floats` | floats.dfy | the sign/magnitude float |
| `Powers`, `Seqs`, `Outcomes` | powers.dfy, seqs.dfy, outcomes.dfy | shared arithmetic, sequence lemmas, `Result`/`Option` |
| `InfoBits`, `Parities` | infobits.dfy, parities.dfy | scatter/gather under a mask, parity |
| `ChannelConstruction` | channel_construction.dfy | channel_construction.py |
| `BitReversal`, `PolarTransform`, `PolarCode`, `PolarEncoding`, `PolarNodes` | bit_reversal.dfy, polar_transform.dfy, polar_code.dfy, polar_encoding.dfy, polar_nodes.dfy | PolarCode.cpp |
| `TrackingSorter`, `BitPacking` | tracking_sorter.dfy, bit_packing.dfy | ArrayFuncs.cpp |
| `FastSscTree`, `FastSscNodes` | fast_ssc_tree.dfy, fast_ssc_nodes.dfy | src/polarcode/decoding/fastssc_avx_float.cpp |
| `DepthFirstNodes`, `DepthFirstManager` | depth_first_nodes.dfy, depth_first_manager.dfy | src/polarcode/decoding/depth_first.cpp |
| `AvxConvenience` | avx.dfy | include/polarcode/avxconvenience.h |
| `BitContainers` | bit_container.dfy | include/polarcode/bitcontainer.h |
| `LteInterleaver` | interleaver.dfy | polar_code_simulation.py |
| `AskModulation` | ask.dfy | src/signalprocessing/modulation/ask.cpp |

## Model

| member | source | states |
|---|---|---|
| ChannelConstruction.BlockSize | channel_construction.py:13-14 | The block size is a power of two b with b ≤ N < 2b, so a non-power-of-two N is truncated down. |
| ChannelConstruction.ConstructorBlockSize | channel_construction.py:13-14 | InfiniteLog (Python's OverflowError) exactly for N = 0, where the log is −∞; NanLog (Python's ValueError) exactly for N < 0, where the log is NaN, otherwise a power of two b with b ≤ N < 2b. |
| ChannelConstruction.BlockSizeKeepsPow2 | channel_construction.py:13-14 | N is kept unchanged exactly when N is a power of two. |
| ChannelConstruction.StepParent | channel_construction.py:84-88 | After one doubling step, entry k is the degrade child (k even) or the upgrade child (k odd) of parent k/2. |
| ChannelConstruction.StepPair | channel_construction.py:115-119 | Entry 2j is the degrade child of v[j] and entry 2j+1 is its upgrade child. |
| ChannelConstruction.LinearTwo | channel_construction.py:115-127 | For N = 2 the linear estimate is `[(1−η)², 2(1−η)−(1−η)²]`. |
| ChannelConstruction.LinPoint | channel_construction.py:109-113 | For z in [0,1], 0 ≤ z² ≤ 2z−z² ≤ 1, strictly inside (0,1) when z is. |
| ChannelConstruction.LinearBounds | channel_construction.py:109-127 | When 0 ≤ 1−η ≤ 1, every linear value lies in [0,1], and from N = 4 on, each upgrade child is ≥ its degrade sibling. |
| ChannelConstruction.IterateLinPairs | channel_construction.py:115-127 | Every level of the linear recursion keeps sibling pairs ordered. |
| ChannelConstruction.StepLogOf | channel_construction.py:76-88 | Under exact exp/log laws, one log-domain step maps to one linear step. |
| ChannelConstruction.IterateLogOf | channel_construction.py:84-97 | exp of the log-domain recursion is the linear recursion at every level. |
| ChannelConstruction.LogIsReversedComplement | channel_construction.py:90-97 | The log estimator returns `1 − linear` in reversed order: its entry i is 1 − linear[N−1−i]. |
| ChannelConstruction.LogDomainOf | channel_construction.py:90-97 | Whatever the log recursion converts to, the returned vector is its reversed complement. |
| ChannelConstruction.Distinct | channel_construction.py:56-57 | `np.unique(v).size` lies between 1 and the length for a non-empty vector. |
| ChannelConstruction.Combine | channel_construction.py:52-64 | The result is one of the two estimates, has the larger distinct-value count, and on a tie is the log estimate. |
| ChannelConstruction.ComplementCard | channel_construction.py:52-64 | Complementing the values keeps the number of distinct values. |
| ChannelConstruction.BhattacharyyaIsLogExactly | channel_construction.py:52-64 | With exact arithmetic the two estimates tie on distinct values, so the combined construction is always the log estimate. |
| ChannelConstruction.SortedChannels | channel_construction.py:26-27 | The order is an argsort: a permutation of [0,N) along which the capacities do not decrease. No tie order is promised. |
| ChannelConstruction.SliceEnd | channel_construction.py:29-30 | The end of the slice `[0:k]`: k clamped to N, and N+k (at least 0) for a negative k. |
| ChannelConstruction.FrozenBitPositions | channel_construction.py:29-30 | The frozen set has the slice's length and holds distinct in-range channels in ascending capacity, each with capacity ≤ that of every channel left out. |
| ChannelConstruction.FrozenIsOrderPrefix | channel_construction.py:29-30 | The frozen set is exactly a prefix of the sorted channels, and it grows monotonically with k. |
| ChannelConstruction.GaSlots | channel_construction.py:237-248 | For level l and block t, the slots `t·o1` and `t·o1+o2` are distinct and lie inside block t of the 2^m vector. |
| ChannelConstruction.RoundWrites | channel_construction.py:242-247 | One inner iteration writes check(z[a]) at a and 2·z[a] at a+o2, and nothing else. |
| ChannelConstruction.GaRound | channel_construction.py:237-248 | Each inner iteration moves the vector one block further from level l−1 to level l. |
| ChannelConstruction.GaEnd | channel_construction.py:237-248 | The fully written in-place vector equals the doubling recursion with check-node and bit-node (2x) children. |
| ChannelConstruction.GaLevel | channel_construction.py:237-248 | One pass of the outer loop turns level l−1 into level l. |
| ChannelConstruction.GaussianApproximation | channel_construction.py:216-250 | The in-place loop computes the doubling recursion from the initial value, with the check node as a parameter and the bit node as exact doubling. |
| BitReversal.Reverse32Bits | PolarCode.cpp:264-273 | The five swap rounds move bit k to bit 31−k. |
| BitReversal.BitReversed | PolarCode.cpp:264-273 | For n < 32, the n-bit reversal of j is below 2^n. |
| BitReversal.BitReversedBits | PolarCode.cpp:264-273 | Bit k of the n-bit reversal is bit n−1−k of j. |
| BitReversal.BitReversedInvolution | PolarCode.cpp:264-273 | Applying the reversal twice to an n-bit index returns it. |
| PolarTransform.XorSeq | PolarCode.cpp:103-113 | Pointwise XOR of two equal-length bit vectors. |
| PolarTransform.CombineHalvesBits | PolarCode.cpp:103-113 | `Combine`: out[i] = l[i] XOR r[i] and out[size+i] = r[i]. |
| PolarTransform.CombineInvolution | PolarCode.cpp:103-113 | Combining the two halves of a combined word restores the original halves. |
| PolarTransform.TransformXor | PolarCode.cpp:375-387 | The transform is linear over GF(2). |
| PolarTransform.TransformInvolution | PolarCode.cpp:375-387 | The transform is its own inverse. |
| PolarTransform.TransformOfHalves | PolarCode.cpp:375-387 | The transform of l+r combines the transforms of the halves. |
| PolarTransform.CombineBlock | PolarCode.cpp:382-385 | The innermost loop XORs the right half of one block into its left half and leaves every other position alone. |
| PolarTransform.ButterflyStage | PolarCode.cpp:379-386 | One stage combines every block of width 2B from its two halves. |
| PolarTransform.ButterflyRound | PolarCode.cpp:375-387 | If blocks of size 2^s hold transformed sub-words before a stage, blocks of size 2^(s+1) do after it. |
| PolarTransform.Butterfly | PolarCode.cpp:373-387 | The in-place butterfly loop computes the recursive polar transform. |
| PolarCode.Leaf | PolarCode.cpp:303-312 | A leaf is RateOne exactly when its bit carries information, and RateZero otherwise. |
| PolarCode.RollUpRates | PolarCode.cpp:323-346 | A parent is RateZero iff both children are, RateOne iff both are, and RateHalf only at the bottom level. |
| PolarCode.ShapeCases | PolarCode.cpp:314-348 | Each node kind corresponds to exactly one shape of its frozen mask. |
| PolarCode.ShapeRollUp | PolarCode.cpp:319-347 | The shape of a block follows from its halves' shapes by the roll-up rule. |
| PolarCode.KindIsShape | PolarCode.cpp:314-348 | The kind computed bottom-up for a block is the shape of the block's mask. |
| PolarCode.TreeOf | PolarCode.cpp:314-348 | The heap-indexed tree has 2N−1 nodes. |
| PolarCode.KindAtSplit | PolarCode.cpp:319-347 | Node idx is the roll-up of nodes 2idx+1 and 2idx+2, with the bottom flag exactly at the last inner level. |
| PolarCode.TreeMeaning | PolarCode.cpp:314-348 | Node 2^l−1+j classifies the mask of the j-th block of size N/2^l. |
| PolarCode.RollUpLevel | PolarCode.cpp:316-347 | One level of the roll-up loop fills that level's nodes with the tree's values and keeps the levels below. |
| PolarCode.RollUpTree | PolarCode.cpp:314-348 | From the leaves, the roll-up loop builds the whole tree. |
| PolarCode.MarkInfo | PolarCode.cpp:303-307 | The first K sorted positions are marked information with RateOne leaves, and nothing else is marked. |
| PolarCode.MarkFrozen | PolarCode.cpp:308-312 | The remaining positions get RateZero leaves, and the information mask is unchanged. |
| PolarCode.Pcc | PolarCode.cpp:300-348 | Exactly K positions carry information, none with a larger z than any frozen position, and the tree is the roll-up of that mask. |
| PolarEncoding.InsertInfo | PolarCode.cpp:361-371 | Data bits go, in order, into the information positions. Frozen positions stay false. |
| PolarEncoding.Encode | PolarCode.cpp:351-391 | The codeword is the transform of the word with the data inserted. |
| PolarEncoding.TransformBits | PolarCode.cpp:393-416 | `transform` takes the sign bits and applies the polar transform. |
| PolarEncoding.ExtractInfo | PolarCode.cpp:452-462 | The decoded data is the information positions of the word, in ascending order. |
| PolarEncoding.DecodeOnePath | PolarCode.cpp:430-475 | The decoded data has K bits, taken from the transformed hard decisions. Success is always reported. |
| PolarEncoding.DecodeEncoded | PolarCode.cpp:351-462 | Transforming an encoded word and extracting the information positions returns the data. |
| PolarNodes.SpcDecisionEven | PolarCode.cpp:115-159 | The SPC decision has even parity and differs from the input signs only at the chosen index, where it is flipped iff the input parity is odd. |
| PolarNodes.Spc | PolarCode.cpp:115-159 | The flipped index is the first of minimal magnitude, and the bits are the SPC decision at it. |
| PolarNodes.Repetition | PolarCode.cpp:172-184 | Every output bit is the sign of the LLR sum. |
| PolarNodes.RepetitionUnanimous | PolarCode.cpp:172-184 | When all LLRs agree in sign, the repetition decision is that sign. |
| InfoBits.GatherScatter | PolarCode.cpp:361-371 | Extracting after inserting returns the first Count(mask) data bits. |
| InfoBits.ScatterGather | PolarCode.cpp:452-462 | Inserting the extracted bits back into a word leaves it unchanged. |
| InfoBits.GatherIgnoresFrozen | PolarCode.cpp:452-462 | Extraction does not depend on the frozen positions. |
| Parities.ParityFlip | PolarCode.cpp:115-159 | Flipping one bit flips the parity. |
| Parities.ParityConcat | include/polarcode/avxconvenience.h:27-36 | The parity of a concatenation is the XOR of the parities. |
| Floats.Add | PolarCode.cpp:172-184 | Finite addition is exact, and an exact zero is negative only when both operands are. |
| Floats.SumFromPosZero | PolarCode.cpp:172-184 | Summing from +0.0 yields the exact sum as a float. |
| TrackingSorter.Load | ArrayFuncs.cpp:22-32 | `set` copies the values and sets the indices to [0..size). |
| TrackingSorter.LoadTracks | ArrayFuncs.cpp:22-32 | Right after `set`, entry i holds the original value at its index. |
| TrackingSorter.TracksMeaning | ArrayFuncs.cpp:57-67 | While tracking holds, sorted[i] == original[permuted[i]] and the indices form a permutation. |
| TrackingSorter.TracksRearranged | ArrayFuncs.cpp:57-245 | Any rearrangement of the entries keeps the tracking relation, so mirrored swaps preserve it. |
| TrackingSorter.Swap | ArrayFuncs.cpp:234-239 | A swap exchanges two entries (value and index together) and keeps the multiset. |
| TrackingSorter.InsertionSortSorts | ArrayFuncs.cpp:69-87 | Insertion sort is ascending, a permutation, and keeps equal values in their original order. |
| TrackingSorter.StableSort | ArrayFuncs.cpp:69-87 | The in-place insertion loop is ascending, a permutation, and stable. |
| TrackingSorter.Versenke | ArrayFuncs.cpp:219-245 | Sinking node i restores the heap property from i down, leaving the outside untouched. |
| TrackingSorter.GenerateMaxHeap | ArrayFuncs.cpp:211-217 | The result is a max-heap (every element ≥ children 2i+1, 2i+2) and a permutation. |
| TrackingSorter.HeapRootMax | ArrayFuncs.cpp:211-245 | The root of a max-heap is its maximum. |
| TrackingSorter.HeapSort | ArrayFuncs.cpp:57-67 | Heap sort yields an ascending permutation. |
| TrackingSorter.Partition | ArrayFuncs.cpp:167-187 | For lo < hi it returns lo ≤ j < hi with entries lo..j ≤ pivot ≤ entries j+1..hi, and leaves the outside alone. |
| TrackingSorter.Quicksort | ArrayFuncs.cpp:121-129 | The range lo..hi ends up ascending, as a permutation, and the outside is unchanged. |
| TrackingSorter.PartialQuicksort | ArrayFuncs.cpp:141-152 | The range is partially sorted: the first n positions hold the n smallest values in ascending order. |
| TrackingSorter.Sort | ArrayFuncs.cpp:57-67 | `sort()` yields an ascending order with `sorted[i] == original[permuted[i]]`, and `permuted` is a permutation of [0,size). |
| TrackingSorter.StableSortFresh | ArrayFuncs.cpp:69-87 | `set` then `stableSort`: sorted, tracked, and equal values keep ascending original indices. |
| TrackingSorter.PartialSort | ArrayFuncs.cpp:89-92 | `partialSort(n)`: the n smallest values come first in ascending order, and tracking holds. |
| BitPacking.PackByteBits | ArrayFuncs.cpp:252-259 | Bit k of a group lands in bit 7−k of its byte (MSB first). |
| BitPacking.UnpackPackByte | ArrayFuncs.cpp:247-275 | Unpacking a packed byte returns its eight bits. |
| BitPacking.PackUnpackByte | ArrayFuncs.cpp:247-275 | Packing an unpacked byte returns the byte. |
| BitPacking.UnpackAllBits | ArrayFuncs.cpp:264-275 | Bit 8i+k of the output is bit 7−k of byte i. |
| BitPacking.PackUnpackAll | ArrayFuncs.cpp:247-275 | `Bits2Bytes(Bytes2Bits(b)) == b`. |
| BitPacking.UnpackPackAll | ArrayFuncs.cpp:247-275 | `Bytes2Bits(Bits2Bytes(bits))` returns the first 8·nBytes bits. |
| BitPacking.Bits2Bytes | ArrayFuncs.cpp:247-262 | The loop packs each group of eight bits MSB-first. |
| BitPacking.Bytes2Bits | ArrayFuncs.cpp:264-275 | The loop unpacks each byte MSB-first. |
| BitContainers.InfoMask | include/polarcode/bitcontainer.h:40-47 | Position i carries information iff it is not in the frozen set. |
| BitContainers.PackedRoundTrip | include/polarcode/bitcontainer.h:29-59 | `insertPacked` then `getPacked` returns the same N/8 bytes. |
| BitContainers.InsertPackedInformation | include/polarcode/bitcontainer.h:40-47 | Inserting information leaves the frozen positions untouched. |
| BitContainers.InformationRoundTrip | include/polarcode/bitcontainer.h:40-74 | `insertPackedInformation` then `getPackedInformation` with the same frozen set returns the information bytes. |
| BitContainers.InformationIgnoresFrozen | include/polarcode/bitcontainer.h:61-74 | The frozen bits never affect the extracted information. |
| BitContainers.ResetFrozenBitsMeaning | include/polarcode/bitcontainer.h:76-80 | Exactly the frozen positions become zero, the others are unchanged, and the information is unaffected. |
| BitContainers.ResetFrozenBitsIdempotent | include/polarcode/bitcontainer.h:76-80 | Resetting twice is the same as resetting once. |
| BitContainers.FloatCellsZero | include/polarcode/bitcontainer.h:83-94 | Every cell is ±0.0, and its sign is the stored bit. |
| BitContainers.FirstByteFrozenExample | test/polarcode/bitcontainertest.cpp:32-37 | With bits 0..7 frozen in a 64-bit container, the round trip recovers the first 7 bytes. |
| AvxConvenience.MinPs | include/polarcode/avxconvenience.h:61-62 | The lane minimum is one of the operands and no larger than either. |
| AvxConvenience.MinVec4Least | include/polarcode/avxconvenience.h:59-65 | The two permute-min steps broadcast the minimum of the 4 lanes to every lane. |
| AvxConvenience.MinIdx4 | include/polarcode/avxconvenience.h:59-65 | The result is the lowest lane holding the minimum of the 4 lanes. |
| AvxConvenience.MinIdx8 | include/polarcode/avxconvenience.h:67-79 | The index is in [0,8), `minVal == x[idx]` is the minimum of all 8 lanes, and idx is the first minimum within its half. |
| AvxConvenience.MinIdx8Lower | include/polarcode/avxconvenience.h:73-78 | The lower half wins iff it holds a value strictly below every upper lane. |
| AvxConvenience.MinIdx8Tie | include/polarcode/avxconvenience.h:73-78 | When the halves tie at the minimum, the upper-half index is returned. |
| AvxConvenience.MinIdx8SingleLow | test/polarcode/polarcodetest.cpp:185-200 | A single 4.0 among 5.0s is found at its lane, with minVal 4.0. |
| AvxConvenience.ReduceXorSign | include/polarcode/avxconvenience.h:27-36 | The sign of the XOR reduction is the parity of the 8 sign bits. |
| AvxConvenience.ParityXorSeq | include/polarcode/avxconvenience.h:27-36 | The parity of a lanewise XOR is the XOR of the parities. |
| FastSscTree.CreateDecoder | src/polarcode/decoding/fastssc_avx_float.cpp:396-436 | The decoder built for a mask has the mask's length. |
| FastSscTree.CreateDecoderAccounts | src/polarcode/decoding/fastssc_avx_float.cpp:396-436 | The tree accounts for every frozen bit, and every split halves the block. |
| FastSscTree.CreateDecoderSpecial | src/polarcode/decoding/fastssc_avx_float.cpp:396-413 | Precedence: all frozen → RateZero; none → RateOne; N−1 → Repetition; 1 (N ≥ 4) → SPC; N ≤ 8 → ShortRateR. |
| FastSscTree.LengthTwoIsRepetition | src/polarcode/decoding/fastssc_avx_float.cpp:404-409 | A length-2 node with one frozen bit becomes Repetition, never SPC. |
| FastSscTree.CreateDecoderLong | src/polarcode/decoding/fastssc_avx_float.cpp:414-436 | For N > 8 the order is: left all frozen and right exactly one → ZeroSpc; else right none → ROne; else left all frozen → ZeroR; else RateR. |
| FastSscTree.WritesTile | src/polarcode/decoding/fastssc_avx_float.cpp:96-144 | The windows first written by a tree's steps tile its output block: each position is first written by exactly one step, the left child at the base and the right at base + N/2. |
| FastSscTree.CreateDecoderTiles | src/polarcode/decoding/fastssc_avx_float.cpp:396-436 | The first writes of every constructed tree tile [0,N). |
| FastSscNodes.RateZeroDecode | src/polarcode/decoding/fastssc_avx_float.cpp:237-245 | The output is +∞ everywhere, so every hard decision is zero. |
| FastSscNodes.RateOneDecode | src/polarcode/decoding/fastssc_avx_float.cpp:247-257 | The output equals the input. |
| FastSscNodes.RepetitionDecode | src/polarcode/decoding/fastssc_avx_float.cpp:269-282 | Every output entry is the LLR sum, so every decision is its sign. |
| FastSscNodes.ChunkMin | src/polarcode/decoding/fastssc_avx_float.cpp:315-320 | The 8-lane minimum search returns a lane holding the chunk's least magnitude. Every lane it prefers on a tie (upper half first, then lowest lane) is strictly larger. |
| FastSscNodes.Scan | src/polarcode/decoding/fastssc_avx_float.cpp:310-321 | The loop leaves the XOR of the sign parities and a least-magnitude index, chosen as the source does. Within a vector a tie goes to the upper half, then to the lowest lane; across vectors the earlier vector keeps it; all-infinite input leaves 0. |
| FastSscNodes.SearchChoiceUnique | src/polarcode/decoding/fastssc_avx_float.cpp:310-321 | The search's tie rule picks one position only, so the index the loop flips is fully determined. |
| FastSscNodes.TieExampleChoice | src/polarcode/decoding/fastssc_avx_float.cpp:310-321 | With the least magnitude at positions 0, 4 and 8, the search settles on 4 and on nothing else. |
| FastSscNodes.FlipAtIsSpcDecision | src/polarcode/decoding/fastssc_avx_float.cpp:323-328 | XOR-ing the parity into the sign at the weakest index gives the SPC decision. |
| FastSscNodes.SpcDecode | src/polarcode/decoding/fastssc_avx_float.cpp:299-329 | The output is the input with the sign flipped iff the parity is odd, at the least-magnitude position the search chooses (upper half first on an in-vector tie, earlier vector across vectors). So the output parity is even. |
| FastSscNodes.ZeroSpcSums | src/polarcode/decoding/fastssc_avx_float.cpp:355-357 | The parity LLRs are left[i]+right[i]. |
| FastSscNodes.ZeroSpcDecodeAsWritten | src/polarcode/decoding/fastssc_avx_float.cpp:345-387 | As written, both output halves are the right input, with the same position in each flipped by the parity of the sums. |
| FastSscNodes.ZeroSpcAsWrittenParity | src/polarcode/decoding/fastssc_avx_float.cpp:345-387 | As written, each output half's parity is the right input's parity XOR the parity of the sums, which need not be even. |
| FastSscNodes.ZeroSpcAsWrittenOdd | src/polarcode/decoding/fastssc_avx_float.cpp:360-361 | On the example both output halves have odd parity. |
| FastSscNodes.ZeroSpcDecode | src/polarcode/decoding/fastssc_avx_float.cpp:345-387 | Corrected: both halves are the SPC decision on the sums, so each has even parity. |
| DepthFirstNodes.CreateDecoder | src/polarcode/decoding/depth_first.cpp:511-536 | The node built for a mask has its length. |
| DepthFirstNodes.AgreesWithFastSsc | src/polarcode/decoding/depth_first.cpp:511-536 | The same tests in the same precedence as the fast-SSC classifier. A long block is always a general split. |
| DepthFirstNodes.DecidersBound | src/polarcode/decoding/depth_first.cpp:511-536 | There are at most K decision nodes (RateOne, Repetition, SPC), K being the number of information bits, and at least one when K > 0. |
| DepthFirstNodes.SelectLeast | src/polarcode/decoding/depth_first.cpp:343-348 | One selection pass finds the first least entry from `bit` on. |
| DepthFirstNodes.FindWeakLlrs | src/polarcode/decoding/depth_first.cpp:334-352 | `temp[0]` is the minimum, `flip[0]` is the first index attaining it, the sorted prefix is ascending, and the index array tracks the swaps. |
| DepthFirstNodes.RateOneDecode | src/polarcode/decoding/depth_first.cpp:354-385 | Option 0 keeps the hard decisions and option 1 flips the weakest one. The reliability is its magnitude and the option is reset. |
| DepthFirstNodes.RateOneAlternative | src/polarcode/decoding/depth_first.cpp:354-385 | The alternative differs from the hard decision exactly at the weakest position. |
| DepthFirstNodes.RepetitionDecode | src/polarcode/decoding/depth_first.cpp:401-433 | The decision is the sign of the sum, inverted for option 1. The reliability is the absolute sum and the option is reset. |
| DepthFirstNodes.RepetitionOptionsComplement | src/polarcode/decoding/depth_first.cpp:401-433 | The two options are complementary repetition words. |
| DepthFirstNodes.FindTwoWeakest | src/polarcode/decoding/depth_first.cpp:451-467 | `temp[0] ≤ temp[1] ≤ temp[i]` for i ≥ 2, with the flip indices pointing at those entries. |
| DepthFirstNodes.SpcDecodeAsWritten | src/polarcode/decoding/depth_first.cpp:469-509 | The SPC rule as written, with the weakest two found. |
| DepthFirstNodes.SpcAsWrittenOddParity | src/polarcode/decoding/depth_first.cpp:495-498 | With odd input parity, either option gives an even-parity output. |
| DepthFirstNodes.SpcAsWrittenEvenOption | src/polarcode/decoding/depth_first.cpp:499-502 | With even input parity, option 1 as written produces an odd-parity output. |
| DepthFirstNodes.SpcAsWrittenExample | src/polarcode/decoding/depth_first.cpp:499-502 | For positive LLRs [1,2,3,4], option 1 yields odd parity. |
| DepthFirstNodes.SpcOutputEven | src/polarcode/decoding/depth_first.cpp:469-509 | Corrected: every option's output has even parity, changes only the two weakest positions, and option 0 is the SPC decision. |
| DepthFirstNodes.SpcDecode | src/polarcode/decoding/depth_first.cpp:469-509 | Corrected SPC node: even parity. The reliability is the second-weakest magnitude when the parity is odd and the weakest otherwise. |
| DepthFirstManager.Refresh | src/polarcode/decoding/depth_first.cpp:72-77 | Every hint gets its node's current reliability. |
| DepthFirstManager.SortHints | src/polarcode/decoding/depth_first.cpp:39-40 | Sorting hints is a permutation. |
| DepthFirstManager.SortHintsAscending | src/polarcode/decoding/depth_first.cpp:39-40 | Sorted hints ascend by reliability. |
| DepthFirstManager.TotalPermutation | src/polarcode/decoding/depth_first.cpp:32-38 | The metric sum does not depend on the order of the nodes. |
| DepthFirstManager.ApplyMeaning | src/polarcode/decoding/depth_first.cpp:114-122 | Applying a configuration sets node i of its list to option i and leaves the others at 0. |
| DepthFirstManager.Fanout | src/polarcode/decoding/depth_first.cpp:85-95 | One child per option, each extending the option prefix by that option. |
| DepthFirstManager.InitialDecode | src/polarcode/decoding/depth_first.cpp:26-62 | The queue holds one configuration per option, and the best is the first of them. |
| DepthFirstManager.InitialDecodeValid | src/polarcode/decoding/depth_first.cpp:26-62 | The initial queue is valid (options = depth+1), at depth 0 with options [i], sorted ascending, and the best metric is the run's total. |
| DepthFirstManager.InitialAssignment | src/polarcode/decoding/depth_first.cpp:26-62 | The first run decodes with every option 0. |
| DepthFirstManager.DecodeNext | src/polarcode/decoding/depth_first.cpp:65-112 | `decodeNext` succeeds exactly when the current configuration has a next node. |
| DepthFirstManager.DecodeNextValid | src/polarcode/decoding/depth_first.cpp:65-112 | `decodeNext` keeps the queue valid: breadth-first, options = depth+1, every node listed once. |
| DepthFirstManager.DecodeNextChildren | src/polarcode/decoding/depth_first.cpp:85-95 | The head is dequeued and its children at depth+1 are appended, with the re-sorted hint list. |
| DepthFirstManager.ResortedOrder | src/polarcode/decoding/depth_first.cpp:80 | Only `hintList[depth+1..]` is re-sorted ascending, and the prefix keeps its nodes. |
| DepthFirstManager.WeakestNext | src/polarcode/decoding/depth_first.cpp:80-95 | The node after the prefix is the least reliable of the rest. |
| DepthFirstManager.DecodeNextBest | src/polarcode/decoding/depth_first.cpp:98-101 | The best metric never decreases, and it is replaced exactly when the new metric is strictly greater. |
| DepthFirstManager.Start | src/polarcode/decoding/depth_first.cpp:586-587 | The first run applies all-zero options, and the best is that run's configuration and metric. |
| DepthFirstManager.Retry | src/polarcode/decoding/depth_first.cpp:598-600 | One `decodeNext` inside the trial loop: valid again, and the best is the last run's configuration iff its metric is strictly greater. |
| DepthFirstManager.Decode | src/polarcode/decoding/depth_first.cpp:577-620 | The loop stops at the first passing run or the trial limit. After a failure with limit > 1, it restores the first run with the greatest metric among all runs but the last. |
| LteInterleaver.PatternPermutation | polar_code_simulation.py:69 | The column pattern is a permutation of 0..31 (an involution). |
| LteInterleaver.RowLen | polar_code_simulation.py:72 | `row_len = ceil(L/32)`. |
| LteInterleaver.DummyLen | polar_code_simulation.py:73 | `dummy_len` lies in [0,32), and padding makes the length a multiple of 32. |
| LteInterleaver.Padded | polar_code_simulation.py:76 | The dummies come first, then the block. |
| LteInterleaver.ReadOut | polar_code_simulation.py:78-82 | Column-wise read-out: `out[k] = padded[(k mod R)·32 + pattern[k div R]]`. |
| LteInterleaver.ReadInjective | polar_code_simulation.py:78-82 | The read-out visits each padded slot at most once. |
| LteInterleaver.InterleaveIsPick | polar_code_simulation.py:78-84 | After dropping dummies, the output picks the block at a fixed position sequence. |
| LteInterleaver.PositionsPermutation | polar_code_simulation.py:78-85 | Those positions are a permutation of [0,L). |
| LteInterleaver.PositionsOneRow | polar_code_simulation.py:69-84 | For L = 32 the positions are the column pattern itself. |
| LteInterleaver.InterleaverIndices | polar_code_simulation.py:67-86 | A successful result is a permutation of its own range. |
| LteInterleaver.InterleaverIndicesCheck | polar_code_simulation.py:67-86 | The final assert passes iff the input block is a permutation of [0,L), and the result is then the block picked at the positions. |
| LteInterleaver.InterleaveRange | polar_code_simulation.py:67-86 | For `arange(L)` the result is the position permutation itself. |
| LteInterleaver.GatherScatter | polar_code_simulation.py:93-97 | For a permutation, scattering the gathered values restores the vector. |
| LteInterleaver.ValidateCombo | polar_code_simulation.py:89-98 | Success requires N ≤ length and in-range indices. Otherwise the matching Python error is returned. |
| LteInterleaver.ValidatePermutation | polar_code_simulation.py:89-98 | Every permutation passes validation for every N ≤ length. |
| LteInterleaver.ValidateRepeated | polar_code_simulation.py:96-98 | A repeated index ([0,0], N=2) fails the assert. |
| LteInterleaver.InterleaverValidates | polar_code_simulation.py:67-98 | The interleaver of `arange(L)` passes validation for every N ≤ L. |
| LteInterleaver.CountCorrectEnds | polar_code_simulation.py:48-50 | All frames are correct iff the count is the frame count, and none is iff it is 0. |
| LteInterleaver.CalculateFer | polar_code_simulation.py:48-50 | Yields numpy's `nan` exactly for no frames (a float64 divided by zero does not raise), and a number otherwise. |
| LteInterleaver.FerRange | polar_code_simulation.py:48-50 | The FER lies in [0,1]. It is 0 iff every frame is correct and 1 iff none is. |
| AskModulation.ConstellationPower | src/signalprocessing/modulation/ask.cpp:34-38 | The power loop sums the odd squares below 2^b to 2^b(4^b−1)/6. |
| AskModulation.ConstellationMeanPower | src/signalprocessing/modulation/ask.cpp:34-39 | `2·power/limit`, the square of the normal magnitude, is the mean constellation power (M²−1)/3 with M = 2^b levels. |
| AskModulation.SetBitsPerSymbol | src/signalprocessing/modulation/ask.cpp:27-45 | Without normalisation both factors are 1. Otherwise magnitude × normaliser = 1. |
| AskModulation.PadMeaning | src/signalprocessing/modulation/ask.cpp:57-63 | The sequence is padded with +1 to the next multiple of b, adding fewer than b entries and none when already aligned. |
| AskModulation.ModulateLength | src/signalprocessing/modulation/ask.cpp:65-66 | The output has padded length / b symbols. |
| AskModulation.GroupSymbol | src/signalprocessing/modulation/ask.cpp:73-78 | The inner loop computes the weighted running product of one group. |
| AskModulation.LevelRange | src/signalprocessing/modulation/ask.cpp:72-79 | For ±1 inputs the level is an odd integer with |s| ≤ 2^b − 1. |
| AskModulation.ModulateLevels | src/signalprocessing/modulation/ask.cpp:57-80 | Each symbol is the scaled odd level of its group. |
| AskModulation.DemodulateAt | src/signalprocessing/modulation/ask.cpp:83-101 | Output b·i+r is soft value r of symbol i. |
| AskModulation.DemodulateLength | src/signalprocessing/modulation/ask.cpp:85-87 | `demodulate` emits exactly b values per symbol. |
| AskModulation.DemodLevel | src/signalprocessing/modulation/ask.cpp:92-99 | Demodulating a level gives soft values with the signs of its ±1 inputs. |
| AskModulation.ModulateDemodulate | src/signalprocessing/modulation/ask.cpp:49-101 | Demodulating the modulated signal recovers the sign of every input. |

## Left out

- PolarNodes.Repetition: sums over exact reals, not float32 left to right. On `[1e8, -1.0, -1e8]` float32 gives 0.0 (decision 0) while the exact sum −1 gives 1. The same holds for FastSscNodes.RepetitionDecode, DepthFirstNodes.RepetitionDecode and DepthFirstManager.MagAdd / DepthFirstManager.Total.
- FastSscNodes.RepetitionDecode: the AVX accumulation order of `reduce_add_ps` is not modelled (exact sum, see above).
- DepthFirstManager.MagAdd: reliabilities add exactly, with ∞ absorbing. Rounding is not modelled.
- Floats.Add: no NaN. The float model has only finite magnitudes and ∞, so NaN ordering in argsort, in the `<` of `findWeakLlrs` and in the sorters is not covered.
- PolarEncoding.DecodeOnePath: the `#ifdef CRCSIZE` paths (CRC8 checksum in `encode`, check in `decodeOnePath`) are not modelled, and `success` is always true. CRC8 is not part of this model.
- ChannelConstruction.GaussianApproximation: the phi/invPhi retry with the infinity fallback (channel_construction.py:242-246) and the NaN `ValueError` (channel_construction.py:222-235) are folded into the `check` parameter. The erf-based `_capacities` conversion is dropped.
- PolarCode.Pcc: the log-domain z computation (PolarCode.cpp:277-298, `logdomain_diff`, `pow`, bit-reversed reading) is not modelled. `Pcc` takes z as a parameter.
- DepthFirstManager.Decode: only the systematic path. The non-systematic path declares a second `encoder` in an inner scope (depth_first.cpp:582), leaves the outer pointer null and dereferences it (depth_first.cpp:591). The error detector's `check` is an input (`passed`) per run.
- FastSscNodes.SpcDecode: requires at least 8 LLRs, a multiple of 8, because the loop reads whole 8-lane vectors. `createDecoder` also yields length-4 SPC nodes, whose upper four lanes come from `SpcPrepare`, and its body is not shown; `RepetitionPrepare` likewise.
- FastSscNodes.ZeroSpcDecode: likewise needs blocks of 16 or more, a multiple of 16, one 8-lane vector per half.
- ChannelConstruction.SortedChannels: numpy's argsort is not stable. The contract (`IsArgsort`) leaves the tie order open, and the function gives one admissible order (a stable insertion sort).
- DepthFirstManager.SortHints: `std::sort` at depth_first.cpp:40 and :80 leaves the order of equal reliabilities unspecified. The model fixes one admissible result, a stable insertion sort that keeps list order on ties. `InitialDecodeValid`, `DecodeNextChildren` and `ResortedOrder` state the exact queue for that choice, so another standard library's tie order could give a different queue when two nodes have the same reliability.
- TrackingSorter: the descending variants (`partialSortDescending`, `sortDescending`, `quicksortDescending`, `partialQuicksortDescending`, `partitionDescending`, ArrayFuncs.cpp:94-119, 131-139, 154-165, 189-209) mirror the ascending ones and are not modelled. The `aligned_float_vector` overload of `set` (ArrayFuncs.cpp:34-48) and `unset` are memory plumbing.
- ChannelConstruction.BlockSize: a non-power-of-two N is truncated, as the code does, rather than rejected. `block_power` is the exact floor of log2 N. `np.log2` is a float64 logarithm, which can round up to the next integer for N just below a large power of two (such as 2^50 − 1). There the source's block size exceeds N, and the model does not follow. The N ≤ 0 exceptions are in `ConstructorBlockSize`; the RuntimeWarning numpy emits with them is not modelled.
- BitContainers: the `.cpp` of `FloatContainer`/`CharContainer` is not part of this model. The round-trip contract of the header's doc comments is modelled with MSB-first packing as in `Bits2Bytes`.
- AskModulation.SetBitsPerSymbol: `sqrt` is a parameter (the magnitude), reals are exact, `1 << b` is taken as 2^b without overflow, and the BPSK pre-modulation is taken as producing ±1.
- AskModulation.DemodulateAt: `fabs` and the halving shift are exact, and floating-point rounding is not modelled.
- FastSscTree.CreateDecoder: `splitFrozenBits` is not part of this model. Frozen masks are split at blockLength/2.
- BitReversal.BitReversed: n ≥ 1 only. For a single-channel code (n = 0) the source shifts a 32-bit value by 32, which C++ leaves undefined, so there is nothing to model.
- Transcendentals (`exp`, `log`, `pow`, `erf`, `phi`, `invPhi`, `sqrt`) and `_design_snr2eta`: they are parameters. `eta` is a parameter in (0,1).
- LteInterleaver.InterleaverIndices: the block is a sequence of integers, so NaN entries in `block_indices` are not modelled. The final `sort == arange` assert is stated as "is a permutation of [0,L)".
- LteInterleaver.CalculateFer: for an empty result list numpy returns `nan` and also emits a RuntimeWarning. The model returns `NotANumber` and does not model the warning.
- LteInterleaver.ValidateCombo: N is a natural number, so a negative N is not modelled.
- `calculate_ber` (polar_code_simulation.py:43-45), the simulation loops, plotting and timing: not modelled; they drive pypolar and random channels.
- PolarCode.cpp `F_function`/`G_function` and their vectorised twins, `Rate0`/`Rate1` on float buffers, `decodeOnePathRecursive` and `decodeMultiPath` (a stub returning false), and `SpecialDecoder.cpp`: not modelled. The node rules are modelled on their hard decisions, and the rest is float arithmetic or code that is not shown.
- main.cpp (threads, CSV output), the AVX vectorised decoders, DataPool allocation, python/bindings/encoder_python.cc, src/polarcode/encoding/encoder.cpp, adaptive_mixed.cpp and adaptive_char.h: these are plumbing or thin wrappers over classes that are not shown.

## Findings

| source | as written | input that shows it | evidently intended | confidence | as-written member | corrected member |
|---|---|---|---|---|---|---|
| src/polarcode/decoding/fastssc_avx_float.cpp:360-361 | The Zero-SPC node stores the right-half input `right` as both output halves, then flips one position by the parity of `left+right`. | `ZeroSpcExample` (fast_ssc_nodes.dfy): LLR −5 at 0 and +1 elsewhere in 16. The sums have odd parity, the right half has even parity, and both output halves end up with odd parity. | Store the sums `llr = left+right` (the G-function output with frozen left bits) so that both halves carry the SPC decision on the sums, which has even parity. | not executed | FastSscNodes.ZeroSpcDecodeAsWritten, FastSscNodes.ZeroSpcAsWrittenOdd | FastSscNodes.ZeroSpcDecode |
| src/polarcode/decoding/depth_first.cpp:499-502 | With even input parity, option 1 flips only the weakest bit `mFlipIndices[0]`. | Positive LLRs [1,2,3,4] with option 1: the output has odd parity, which is not a codeword of the SPC node. | Flip the two weakest bits together so the alternative keeps even parity. | not executed | DepthFirstNodes.SpcAsWrittenEvenOption, DepthFirstNodes.SpcAsWrittenExample | DepthFirstNodes.SpcDecode, DepthFirstNodes.SpcOutputEven |

=== FILE: ask.dfy ===
/** Amplitude-shift keying of ask.cpp.  The input is the BPSK signal the
    modulator produces first (+1.0 and -1.0 per bit); groups of
    `bitsPerSymbol` entries become one amplitude, and the demodulator turns
    each amplitude back into `bitsPerSymbol` soft values.  Amplitudes are
    exact reals here; `sqrt` of the power normalisation is a parameter. */
module AskModulation {
  import opened Powers
  import opened Seqs

  /** The modem's state: bits per symbol, and the factors that scale
      amplitudes on the way out and back in. */
  datatype Ask = Ask(bitsPerSymbol: nat, normalMagnitude: real, powerNormalizer: real)

  // ---------------------------------------------------------------------
  // setBitsPerSymbol

  /** The power loop of `setBitsPerSymbol`: the sum of the squares of the
      odd amplitudes below 2^bps, i.e. one half of the constellation. */
  method ConstellationPower(bps: nat) returns (power: int)
    ensures 6 * power == Pow2(bps) * (Pow2(bps) * Pow2(bps) - 1)
  {
    var limit := Pow2(bps);
    power := 0;
    var symbol := 1;
    while symbol < limit
      invariant symbol % 2 == 1 && symbol <= limit + 1
      invariant power == OddSquaresBelow(symbol)
    {
      power := power + symbol * symbol;
      symbol := symbol + 2;
    }
    if bps == 0 {
      assert symbol == 1;
    } else {
      assert limit == 2 * Pow2(bps - 1);
      assert symbol == limit + 1;
      PowerClosedForm(Pow2(bps - 1));
    }
  }

  /** The sum of the squares of the odd numbers below `s`. */
  function OddSquaresBelow(s: nat): (total: nat)
    decreases s
  {
    if s <= 1 then 0 else OddSquaresBelow(s - 2) + (s - 2) * (s - 2)
  }

  /** The sum of the first j odd squares is j (2j - 1) (2j + 1) / 3. */
  lemma {:induction false} OddSquaresClosed(j: nat)
    ensures 3 * OddSquaresBelow(2 * j + 1) == j * (2 * j - 1) * (2 * j + 1)
  {
    if j > 0 {
      var k: nat := j - 1;
      OddSquaresClosed(k);
      assert OddSquaresBelow(2 * j + 1) == OddSquaresBelow(2 * k + 1) + (2 * k + 1) * (2 * k + 1);
      OddSquareStep(k);
    }
  }

  /** With M = 2h levels, six times the half-constellation power is
      M (M^2 - 1). */
  lemma PowerClosedForm(h: nat)
    ensures 6 * OddSquaresBelow(2 * h + 1) == 2 * h * (2 * h * (2 * h) - 1)
  {
    OddSquaresClosed(h);
    assert (2 * h - 1) * (2 * h + 1) == 2 * h * (2 * h) - 1;
  }

  /** The sum of the first j odd squares, one more term. */
  lemma OddSquareStep(j: int)
    ensures (j + 1) * (2 * (j + 1) - 1) * (2 * (j + 1) + 1) == j * (2 * j - 1) * (2 * j + 1) + 3 * ((2 * j + 1) * (2 * j + 1))
  {
  }

  /** The mean power of the 2^bps amplitudes, `2 * power / limit`: with M
      levels it is (M^2 - 1) / 3. */
  function MeanPower(bps: nat): (p: real)
    ensures 3.0 * p == (Pow2(bps) * Pow2(bps) - 1) as real
  {
    var m := Pow2(bps);
    (m * m - 1) as real / 3.0
  }

  /** The loop's power over the limit 2^bps, doubled for the negative
      half of the constellation, is the mean power: the square of the
      normal magnitude `setBitsPerSymbol` takes the root of. */
  lemma ConstellationMeanPower(bps: nat, power: int)
    requires 6 * power == Pow2(bps) * (Pow2(bps) * Pow2(bps) - 1)
    ensures 2.0 * power as real / Pow2(bps) as real == MeanPower(bps)
  {
    var m := Pow2(bps);
    var k := m * m - 1;
    assert 3 * (2 * power) == m * k;
    RealQuotient(2 * power, m, k);
  }

  /** Exact division: 3x = m k with m > 0 gives x / m = k / 3. */
  lemma RealQuotient(x: int, m: int, k: int)
    requires m > 0 && 3 * x == m * k
    ensures x as real / m as real == k as real / 3.0
  {
    assert 3.0 * x as real == m as real * k as real;
  }

  /** `setBitsPerSymbol(bps, normalizeOutput)`.  Without normalisation both
      factors are 1; with it, the magnitude is the square root of the mean
      power, supplied as `magnitude`, and the normaliser its reciprocal. */
  function SetBitsPerSymbol(bps: nat, normalizeOutput: bool, magnitude: real): (a: Ask)
    requires normalizeOutput ==> magnitude > 0.0
    ensures a.bitsPerSymbol == bps
    ensures !normalizeOutput ==> a.normalMagnitude == 1.0 && a.powerNormalizer == 1.0
    ensures normalizeOutput ==> a.normalMagnitude == magnitude
    ensures a.normalMagnitude * a.powerNormalizer == 1.0
  {
    if normalizeOutput then Ask(bps, magnitude, 1.0 / magnitude) else Ask(bps, 1.0, 1.0)
  }

  // ---------------------------------------------------------------------
  // modulate

  /** Padding of the BPSK signal with +1.0 up to a multiple of the group
      size. */
  function Pad(x: seq<real>, b: nat): (r: seq<real>)
    requires b >= 1
  {
    var padding := |x| % b;
    if padding == 0 then x else x + Filled(1.0, b - padding)
  }

  /** The padded signal keeps the input in front, adds fewer than `b`
      entries, all +1.0, none when the length is already a multiple, and
      ends on a group boundary. */
  lemma PadMeaning(x: seq<real>, b: nat)
    requires b >= 1
    ensures var r := Pad(x, b);
      && r[..|x|] == x
      && |x| <= |r| < |x| + b
      && (|x| % b == 0 ==> r == x)
      && |r| % b == 0
      && forall i :: |x| <= i < |r| ==> r[i] == 1.0
  {
    var padding := |x| % b;
    if padding != 0 {
      var q := |x| / b;
      assert |x| == q * b + padding;
      assert |x| + (b - padding) == (q + 1) * b;
      DivModUnique((q + 1) * b, b, q + 1, 0);
    }
  }

  /** 2^k as a real. */
  function RPow2(k: nat): (r: real)
    ensures r >= 1.0
  {
    Pow2(k) as real
  }

  /** The amplitude of a group with running product `m` before it: each
      entry multiplies the product, and the product after entry t weighs
      2^(k - 1 - t), k being the group length. */
  function Weighted(m: real, g: seq<real>): real
    decreases |g|
  {
    if |g| == 0 then 0.0 else m * g[0] * RPow2(|g| - 1) + Weighted(m * g[0], g[1..])
  }

  /** The inner loop of `modulate`: `memory *= bit; symbol = 2 * symbol +
      memory` over one group computes its weighted amplitude. */
  method GroupSymbol(g: seq<real>) returns (symbol: real)
    ensures symbol == Weighted(1.0, g)
  {
    symbol := 0.0;
    var memory := 1.0;
    var k: nat := 0;
    while k < |g|
      invariant k <= |g|
      invariant Pending(symbol, memory, g[k..]) == Weighted(1.0, g)
    {
      var rest := g[k..];
      SymbolStep(symbol, memory, rest);
      assert rest[1..] == g[k + 1..];
      memory := memory * rest[0];
      symbol := 2.0 * symbol + memory;
      k := k + 1;
    }
    assert g[k..] == [];
  }

  /** The amplitude a group ends with when `symbol` and `memory` have been
      accumulated and `rest` is still to be read. */
  function Pending(symbol: real, memory: real, rest: seq<real>): real {
    symbol * RPow2(|rest|) + Weighted(memory, rest)
  }

  lemma WeightedFront(m: real, g: seq<real>)
    requires |g| > 0
    ensures Weighted(m, g) == m * g[0] * RPow2(|g| - 1) + Weighted(m * g[0], g[1..])
  {
  }

  /** One round of the loop moves the next entry from the unread rest into
      the accumulated symbol. */
  lemma SymbolStep(symbol: real, memory: real, rest: seq<real>)
    requires |rest| > 0
    ensures var m := memory * rest[0];
      Pending(2.0 * symbol + m, m, rest[1..]) == Pending(symbol, memory, rest)
  {
    var k: nat := |rest| - 1;
    var w := RPow2(k);
    assert RPow2(|rest|) == 2.0 * w;
    var m := memory * rest[0];
    WeightedFront(memory, rest);
    assert Weighted(memory, rest) == m * w + Weighted(m, rest[1..]);
    assert (2.0 * symbol + m) * w == symbol * (2.0 * w) + m * w;
  }

  /** Group i of the padded signal: the b entries from `BlockStart(i, b)`,
      which is i * b. */
  function Group(p: seq<real>, b: nat, i: nat): (g: seq<real>)
    requires b >= 1 && BlockStart(i, b) + b <= |p|
    ensures |g| == b
  {
    p[BlockStart(i, b) .. BlockStart(i, b) + b]
  }

  /** q whole groups of b fit in n with fewer than b entries left over
      exactly when q is the quotient n / b; the left-over is n % b. */
  lemma Quotient(n: nat, b: nat, q: nat)
    requires b >= 1 && BlockStart(q, b) <= n < BlockStart(q, b) + b
    ensures q == n / b && n - BlockStart(q, b) == n % b
  {
    BlockStartIsProduct(q, b);
    DivModUnique(n, b, q, n - BlockStart(q, b));
  }
  /** The outer loop of `modulate` before scaling: the input counter reads
      `b` entries per symbol; a tail shorter than `b` is not read. */
  function Amplitudes(p: seq<real>, b: nat): (y: seq<real>)
    requires b >= 1
    ensures BlockStart(|y|, b) <= |p| < BlockStart(|y|, b) + b
    decreases |p|
  {
    if |p| < b then [] else [Weighted(1.0, p[..b])] + Amplitudes(p[b..], b)
  }

  /** Amplitude i is that of group i: the running counter stands at
      `i * b` when symbol i starts. */
  lemma {:induction false} AmplitudeAt(p: seq<real>, b: nat, i: nat)
    requires b >= 1 && i < |Amplitudes(p, b)|
    ensures BlockStart(i, b) + b <= |p|
    ensures Amplitudes(p, b)[i] == Weighted(1.0, Group(p, b, i))
    decreases |p|
  {
    if i > 0 {
      var rest := p[b..];
      assert Amplitudes(p, b)[i] == Amplitudes(rest, b)[i - 1];
      AmplitudeAt(rest, b, i - 1);
      assert Group(rest, b, i - 1) == Group(p, b, i);
    }
  }

  /** An amplitude multiplied by a scale factor. */
  function Scale(l: real, f: real): real {
    l * f
  }

  /** Every entry multiplied by `f`. */
  function Scaled(v: seq<real>, f: real): (w: seq<real>)
    ensures |w| == |v|
  {
    seq(|v|, i requires 0 <= i < |v| => Scale(v[i], f))
  }

  /** Entry i of a scaled sequence, for an entry known to be `l`. */
  lemma ScaledAt(v: seq<real>, f: real, i: nat, l: real)
    requires i < |v| && v[i] == l
    ensures Scaled(v, f)[i] == Scale(l, f)
  {
  }

  /** Scaling by the normaliser and then by the magnitude is the identity. */
  lemma ScaleBack(l: real, normalizer: real, magnitude: real)
    requires magnitude * normalizer == 1.0
    ensures Scale(Scale(l, normalizer), magnitude) == l
  {
    assert l * normalizer * magnitude == l * (magnitude * normalizer);
  }

  lemma ScaledBack(v: seq<real>, normalizer: real, magnitude: real)
    requires magnitude * normalizer == 1.0
    ensures Scaled(Scaled(v, normalizer), magnitude) == v
  {
    forall i | 0 <= i < |v| ensures Scaled(Scaled(v, normalizer), magnitude)[i] == v[i] {
      ScaledAt(v, normalizer, i, v[i]);
      ScaledAt(Scaled(v, normalizer), magnitude, i, Scale(v[i], normalizer));
      ScaleBack(v[i], normalizer, magnitude);
    }
  }

  /** `modulate`: the signal padded to whole groups, one amplitude per
      group scaled by the normaliser, `size / bitsPerSymbol` of them. */
  function Modulate(x: seq<real>, a: Ask): (y: seq<real>)
    requires a.bitsPerSymbol >= 1
  {
    Scaled(Amplitudes(Pad(x, a.bitsPerSymbol), a.bitsPerSymbol), a.powerNormalizer)
  }

  /** `symbolCount = size / bitsPerSymbol`, and the groups cover the padded
      signal exactly. */
  lemma ModulateLength(x: seq<real>, a: Ask)
    requires a.bitsPerSymbol >= 1
    ensures |Modulate(x, a)| == |Pad(x, a.bitsPerSymbol)| / a.bitsPerSymbol
    ensures BlockStart(|Modulate(x, a)|, a.bitsPerSymbol) == |Pad(x, a.bitsPerSymbol)|
  {
    var b := a.bitsPerSymbol;
    var p := Pad(x, b);
    var amplitudes := Amplitudes(p, b);
    PadMeaning(x, b);
    Quotient(|p|, b, |amplitudes|);
  }

  // ---------------------------------------------------------------------
  // Amplitudes of a +1/-1 signal

  predicate Bipolar(x: seq<real>) {
    forall i :: 0 <= i < |x| ==> x[i] == 1.0 || x[i] == -1.0
  }

  /** The amplitude of a +1/-1 group as an integer: the first entry gives
      the sign, the rest decide where in that half the level lies. */
  function Level(g: seq<real>): int
    requires Bipolar(g)
  {
    if |g| == 0 then 0
    else (if g[0] == 1.0 then 1 else -1) * (Pow2(|g| - 1) + Level(g[1..]))
  }

  /** The levels of a group of k entries are odd and lie in
      [-(2^k - 1), 2^k - 1]; the first entry's half is never left. */
  lemma {:induction false} LevelRange(g: seq<real>)
    requires Bipolar(g) && |g| >= 1
    ensures Level(g) % 2 == 1
    ensures -(Pow2(|g|) - 1) <= Level(g) <= Pow2(|g|) - 1
    ensures 1 <= Pow2(|g| - 1) + Level(g[1..])
  {
    var k: nat := |g| - 1;
    var t := g[1..];
    var inner := Pow2(k) + Level(t);
    assert Pow2(k + 1) == 2 * Pow2(k);
    if k >= 1 {
      LevelRange(t);
      assert Pow2(k) == 2 * Pow2(k - 1);
    } else {
      assert t == [];
    }
    assert 1 <= inner <= Pow2(k + 1) - 1 && inner % 2 == 1;
    if g[0] == 1.0 {
      assert Level(g) == inner;
    } else {
      assert Level(g) == -inner;
    }
  }

  /** A product before the group scales its amplitude. */
  lemma {:induction false} WeightedScale(m: real, g: seq<real>)
    ensures Weighted(m, g) == m * Weighted(1.0, g)
    decreases |g|
  {
    if |g| > 0 {
      WeightedScale(m * g[0], g[1..]);
      WeightedScale(g[0], g[1..]);
      assert Weighted(1.0, g) == g[0] * RPow2(|g| - 1) + g[0] * Weighted(1.0, g[1..]);
      assert Weighted(m, g) == m * g[0] * RPow2(|g| - 1) + (m * g[0]) * Weighted(1.0, g[1..]);
    }
  }

  /** The loop's amplitude of a +1/-1 group is its level. */
  lemma {:induction false} WeightedLevel(g: seq<real>)
    requires Bipolar(g)
    ensures Weighted(1.0, g) == Level(g) as real
  {
    if |g| > 0 {
      var t := g[1..];
      WeightedLevel(t);
      WeightedScale(g[0], t);
      assert Weighted(1.0, g) == g[0] * (RPow2(|g| - 1) + Weighted(1.0, t));
    }
  }

  /** An odd integer of absolute value at most 2^b - 1: a level of the
      b-bit constellation. */
  predicate OddLevel(v: real, b: nat) {
    v == v.Floor as real && v.Floor % 2 == 1 && -(Pow2(b) - 1) <= v.Floor <= Pow2(b) - 1
  }

  /** With +1/-1 input, amplitude i is the level of group i, one of the
      2^b odd constellation levels. */
  lemma AmplitudeLevel(p: seq<real>, b: nat, i: nat)
    requires b >= 1 && Bipolar(p) && i < |Amplitudes(p, b)|
    ensures BlockStart(i, b) + b <= |p|
    ensures Bipolar(Group(p, b, i))
    ensures Amplitudes(p, b)[i] == Level(Group(p, b, i)) as real
    ensures OddLevel(Level(Group(p, b, i)) as real, b)
  {
    AmplitudeAt(p, b, i);
    var g := Group(p, b, i);
    GroupBipolar(p, b, i);
    WeightedLevel(g);
    LevelOdd(g);
  }

  /** With +1/-1 input, symbol i is the level of group i scaled by the
      normaliser, and that level is one of the 2^bps odd constellation
      levels. */
  lemma ModulateLevels(x: seq<real>, a: Ask, i: nat)
    requires a.bitsPerSymbol >= 1 && Bipolar(x)
    requires i < |Modulate(x, a)|
    ensures BlockStart(i, a.bitsPerSymbol) + a.bitsPerSymbol <= |Pad(x, a.bitsPerSymbol)|
    ensures Bipolar(Group(Pad(x, a.bitsPerSymbol), a.bitsPerSymbol, i))
    ensures Modulate(x, a)[i] == Scale(Level(Group(Pad(x, a.bitsPerSymbol), a.bitsPerSymbol, i)) as real, a.powerNormalizer)
    ensures OddLevel(Level(Group(Pad(x, a.bitsPerSymbol), a.bitsPerSymbol, i)) as real, a.bitsPerSymbol)
  {
    var b := a.bitsPerSymbol;
    var p := Pad(x, b);
    var v := Amplitudes(p, b);
    assert Modulate(x, a) == Scaled(v, a.powerNormalizer);
    PadBipolar(x, b);
    AmplitudeLevel(p, b, i);
    var g := Group(p, b, i);
    var l := Level(g) as real;
    ScaledAt(v, a.powerNormalizer, i, l);
  }

  /** A level of a group of b entries is a level of the b-bit
      constellation. */
  lemma LevelOdd(g: seq<real>)
    requires Bipolar(g) && |g| >= 1
    ensures OddLevel(Level(g) as real, |g|)
  {
    LevelRange(g);
    assert (Level(g) as real).Floor == Level(g);
  }

  /** Padding with +1.0 keeps a signal +1/-1. */
  lemma PadBipolar(x: seq<real>, b: nat)
    requires b >= 1 && Bipolar(x)
    ensures Bipolar(Pad(x, b))
  {
    var p := Pad(x, b);
    PadMeaning(x, b);
    forall j | 0 <= j < |p| ensures p[j] == 1.0 || p[j] == -1.0 {
      if j < |x| {
        assert p[j] == p[..|x|][j];
      }
    }
  }

  lemma GroupBipolar(p: seq<real>, b: nat, i: nat)
    requires b >= 1 && BlockStart(i, b) + b <= |p| && Bipolar(p)
    ensures Bipolar(Group(p, b, i))
  {
    var g := Group(p, b, i);
    assert forall j :: 0 <= j < b ==> g[j] == p[BlockStart(i, b) + j];
  }

  // ---------------------------------------------------------------------
  // demodulate

  /** The inner loop of `demodulate` for one amplitude: emit it, then fold
      it onto its absolute value less the current shift, halving the shift
      each time. */
  function DemodSymbol(amplitude: real, shift: real, k: nat): (out: seq<real>)
    ensures |out| == k
    decreases k
  {
    if k == 0 then []
    else [amplitude] + DemodSymbol(if amplitude >= 0.0 then amplitude - shift else -amplitude - shift, shift / 2.0, k - 1)
  }

  /** The blocks of `blocks` one after the other. */
  function Flatten<T>(blocks: seq<seq<T>>): (s: seq<T>)
    decreases |blocks|
  {
    if |blocks| == 0 then [] else blocks[0] + Flatten(blocks[1..])
  }

  /** With blocks of b entries each, entry r of block i is entry
      `i * b + r` of the flattened sequence. */
  lemma {:induction false} FlattenAt<T>(blocks: seq<seq<T>>, b: nat, i: nat, r: nat)
    requires forall k :: 0 <= k < |blocks| ==> |blocks[k]| == b
    requires i < |blocks| && r < b
    ensures |Flatten(blocks)| == BlockStart(|blocks|, b)
    ensures BlockStart(i, b) + r < |Flatten(blocks)|
    ensures Flatten(blocks)[BlockStart(i, b) + r] == blocks[i][r]
    decreases |blocks|
  {
    var rest := blocks[1..];
    var tail := Flatten(rest);
    if |rest| > 0 {
      FlattenAt(rest, b, if i > 0 then i - 1 else 0, r);
    }
    assert Flatten(blocks) == blocks[0] + tail && |blocks[0]| == b;
    if i > 0 {
      assert rest[i - 1] == blocks[i];
      assert Flatten(blocks)[b + BlockStart(i - 1, b) + r] == tail[BlockStart(i - 1, b) + r];
    }
  }

  /** The soft values of each amplitude, one block per amplitude. */
  function SoftBlocks(amplitudes: seq<real>, b: nat): (blocks: seq<seq<real>>)
    requires b >= 1
    ensures |blocks| == |amplitudes|
    ensures forall i :: 0 <= i < |amplitudes| ==> blocks[i] == DemodSymbol(amplitudes[i], RPow2(b - 1), b)
  {
    seq(|amplitudes|, i requires 0 <= i < |amplitudes| => DemodSymbol(amplitudes[i], RPow2(b - 1), b))
  }

  /** The first amplitude's soft values come first. */
  lemma SoftBlocksFront(amplitudes: seq<real>, b: nat)
    requires b >= 1 && |amplitudes| > 0
    ensures Flatten(SoftBlocks(amplitudes, b))
      == DemodSymbol(amplitudes[0], RPow2(b - 1), b) + Flatten(SoftBlocks(amplitudes[1..], b))
  {
    assert SoftBlocks(amplitudes, b)[1..] == SoftBlocks(amplitudes[1..], b);
  }

  /** `demodulate`: each amplitude is taken back by the magnitude, and the
      output counter writes its `bitsPerSymbol` soft values, in amplitude
      order. */
  function Demodulate(ys: seq<real>, a: Ask): (out: seq<real>)
    requires a.bitsPerSymbol >= 1
  {
    Flatten(SoftBlocks(Scaled(ys, a.normalMagnitude), a.bitsPerSymbol))
  }

  /** There are `bitsPerSymbol` soft values per amplitude, and soft value r
      of amplitude i sits at output position `i * b + r`, where the output
      counter stands after i amplitudes. */
  lemma DemodulateAt(ys: seq<real>, a: Ask, i: nat, r: nat)
    requires a.bitsPerSymbol >= 1 && i < |ys| && r < a.bitsPerSymbol
    ensures |Demodulate(ys, a)| == BlockStart(|ys|, a.bitsPerSymbol)
    ensures BlockStart(i, a.bitsPerSymbol) + r < |Demodulate(ys, a)|
    ensures Demodulate(ys, a)[BlockStart(i, a.bitsPerSymbol) + r]
      == DemodSymbol(Scale(ys[i], a.normalMagnitude), RPow2(a.bitsPerSymbol - 1), a.bitsPerSymbol)[r]
  {
    var amplitudes := Scaled(ys, a.normalMagnitude);
    var blocks := SoftBlocks(amplitudes, a.bitsPerSymbol);
    assert Demodulate(ys, a) == Flatten(blocks);
    FlattenAt(blocks, a.bitsPerSymbol, i, r);
    ScaledAt(ys, a.normalMagnitude, i, ys[i]);
    var amplitude := Scale(ys[i], a.normalMagnitude);
    assert amplitudes[i] == amplitude;
    assert blocks[i] == DemodSymbol(amplitude, RPow2(a.bitsPerSymbol - 1), a.bitsPerSymbol);
  }

  /** `bitCount = symbolCount * bitsPerSymbol`. */
  lemma DemodulateLength(ys: seq<real>, a: Ask)
    requires a.bitsPerSymbol >= 1
    ensures |Demodulate(ys, a)| == |ys| * a.bitsPerSymbol
  {
    if |ys| == 0 {
      assert SoftBlocks(Scaled(ys, a.normalMagnitude), a.bitsPerSymbol) == [];
    } else {
      DemodulateAt(ys, a, 0, 0);
      BlockStartIsProduct(|ys|, a.bitsPerSymbol);
    }
  }

  /** The soft values of a level keep the sign of each entry of its
      group: the first has the group's sign and the fold recovers the
      level of the rest. */
  lemma {:induction false} DemodLevel(g: seq<real>)
    requires Bipolar(g) && |g| >= 1
    ensures var out := DemodSymbol(Level(g) as real, RPow2(|g| - 1), |g|);
      forall t :: 0 <= t < |g| ==> out[t] * g[t] > 0.0
  {
    var k: nat := |g| - 1;
    var t := g[1..];
    var l := Level(g) as real;
    var out := DemodSymbol(l, RPow2(k), k + 1);
    LevelRange(g);
    var folded := if l >= 0.0 then l - RPow2(k) else -l - RPow2(k);
    assert folded == Level(t) as real;
    assert out[0] * g[0] > 0.0;
    if k >= 1 {
      DemodLevel(t);
      assert RPow2(k) / 2.0 == RPow2(k - 1);
      assert out[1..] == DemodSymbol(Level(t) as real, RPow2(k - 1), k);
      forall s | 1 <= s <= k ensures out[s] * g[s] > 0.0 {
        assert out[s] == out[1..][s - 1] && g[s] == t[s - 1];
      }
    }
  }

  /** The soft values of the amplitudes of a +1/-1 signal: one per entry of
      its whole groups, each with the sign of that entry. */
  lemma {:induction false} AmplitudesRoundTrip(p: seq<real>, b: nat)
    requires b >= 1 && Bipolar(p)
    ensures var y := Amplitudes(p, b);
      var out := Flatten(SoftBlocks(y, b));
      && |out| == BlockStart(|y|, b)
      && forall t :: 0 <= t < |out| ==> out[t] * p[t] > 0.0
    decreases |p|
  {
    var y := Amplitudes(p, b);
    if |p| >= b {
      var g, rest := p[..b], p[b..];
      WeightedLevel(g);
      var head := DemodSymbol(Level(g) as real, RPow2(b - 1), b);
      var tail := Flatten(SoftBlocks(Amplitudes(rest, b), b));
      assert Flatten(SoftBlocks(y, b)) == head + tail by {
        assert y[1..] == Amplitudes(rest, b);
        SoftBlocksFront(y, b);
      }
      DemodLevel(g);
      AmplitudesRoundTrip(rest, b);
      forall t | b <= t < b + |tail| ensures (head + tail)[t] * p[t] > 0.0 {
        assert (head + tail)[t] == tail[t - b] && p[t] == rest[t - b];
      }
    }
  }

  /** Demodulating the modulated +1/-1 signal gives one soft value per
      padded entry, and the first |x| of them have the signs of the input:
      hard decisions recover the bits. */
  lemma ModulateDemodulate(x: seq<real>, a: Ask)
    requires a.bitsPerSymbol >= 1 && Bipolar(x)
    requires a.normalMagnitude * a.powerNormalizer == 1.0
    ensures var out := Demodulate(Modulate(x, a), a);
      && |out| == |Pad(x, a.bitsPerSymbol)|
      && forall t :: 0 <= t < |x| ==> out[t] * x[t] > 0.0
  {
    var b := a.bitsPerSymbol;
    var p := Pad(x, b);
    var y := Amplitudes(p, b);
    PadMeaning(x, b);
    PadBipolar(x, b);
    ScaledBack(y, a.powerNormalizer, a.normalMagnitude);
    ModulateLength(x, a);
    assert Demodulate(Modulate(x, a), a) == Flatten(SoftBlocks(y, b));
    AmplitudesRoundTrip(p, b);
    forall t | 0 <= t < |x| ensures p[t] == x[t] {
      assert p[..|x|][t] == x[t];
    }
  }
}

=== FILE: avx.dfy ===
/** The lane helpers of avxconvenience.h, on vectors written as sequences:
    `_mm_minidx_ps` (4 lanes), `_mm256_minidx_ps` (8 lanes) and the sign
    part of `reduce_xor_ps`.  The decoders apply the index searches to
    magnitudes (`andnot(signMask, x)`), so lanes are `Mag`s here. */
module AvxConvenience {
  import opened Seqs
  import opened Floats
  import opened Parities
  import opened PolarTransform

  /** `_mm_min_ps(a, b)`: the first operand if it is smaller, else the
      second. */
  function MinPs(a: Mag, b: Mag): (m: Mag)
    ensures MagLe(m, a) && MagLe(m, b)
    ensures m == a || m == b
  {
    if MagLt(a, b) then a else b
  }

  /** `tzcnt` of a lane mask: the number of clear lanes before the first set
      one (the mask width when none is set). */
  function FirstSet(mask: seq<bool>): (k: nat)
    ensures k <= |mask|
    ensures k < |mask| ==> mask[k]
    ensures forall j :: 0 <= j < k ==> !mask[j]
  {
    if |mask| == 0 then 0
    else if mask[0] then 0
    else 1 + FirstSet(mask[1..])
  }

  /** A set lane bounds the count from above. */
  lemma {:induction false} FirstSetBelow(mask: seq<bool>, i: nat)
    requires i < |mask| && mask[i]
    ensures FirstSet(mask) <= i
  {
    if !mask[0] {
      FirstSetBelow(mask[1..], i - 1);
    }
  }

  /** The minimum of four lanes as `_mm_minidx_ps` forms it: a minimum with
      the halves swapped, then with the neighbours swapped, so that every
      lane holds the minimum of all four. */
  function MinVec4(x: seq<Mag>): (m: seq<Mag>)
    requires |x| == 4
    ensures |m| == 4
  {
    var h := [MinPs(x[0], x[2]), MinPs(x[1], x[3]), MinPs(x[2], x[0]), MinPs(x[3], x[1])];
    [MinPs(h[0], h[1]), MinPs(h[1], h[0]), MinPs(h[2], h[3]), MinPs(h[3], h[2])]
  }

  /** Every lane of the minimum vector holds the same least lane of `x`. */
  lemma MinVec4Least(x: seq<Mag>)
    requires |x| == 4
    ensures var m := MinVec4(x);
      && (forall j :: 0 <= j < 4 ==> MagLe(m[0], x[j]))
      && m[1] == m[0] && m[2] == m[0] && m[3] == m[0]
      && (x[0] == m[0] || x[1] == m[0] || x[2] == m[0] || x[3] == m[0])
  {
    var m := MinVec4(x);
    MagLeAntisym(m[0], m[1]);
    MagLeAntisym(m[2], m[3]);
    MagLeAntisym(m[0], m[2]);
  }

  lemma MagLeAntisym(a: Mag, b: Mag)
    requires MagLe(a, b) && MagLe(b, a)
    ensures a == b
  {
  }

  /** `_mm_minidx_ps(x)`: the lowest lane equal to the minimum, i.e. the
      first position of a least lane. */
  function MinIdx4(x: seq<Mag>): (k: nat)
    requires |x| == 4
    ensures k < 4
    ensures forall j :: 0 <= j < 4 ==> MagLe(x[k], x[j])
    ensures forall j :: 0 <= j < k ==> MagLt(x[k], x[j])
  {
    var m := MinVec4(x);
    var mask := [x[0] == m[0], x[1] == m[1], x[2] == m[2], x[3] == m[3]];
    MinVec4Least(x);
    var k := FirstSet(mask);
    assert k < 4 by {
      assert mask[0] || mask[1] || mask[2] || mask[3];
      var i :| 0 <= i < 4 && mask[i];
      FirstSetBelow(mask, i);
    }
    assert forall j :: 0 <= j < k ==> MagLt(x[k], x[j]) by {
      forall j | 0 <= j < k ensures MagLt(x[k], x[j]) {
        assert !mask[j];
      }
    }
    k
  }

  /** The result of `_mm256_minidx_ps`: the index, and the minimum written
      through `minVal`. */
  datatype MinResult = MinResult(idx: nat, val: Mag)

  /** `_mm256_minidx_ps(x, &minVal)`: the least lane of each half, then the
      lower one only if it is strictly smaller, so a tie goes to the upper
      half. */
  function MinIdx8(x: seq<Mag>): (r: MinResult)
    requires |x| == 8
    ensures r.idx < 8 && r.val == x[r.idx]
    ensures forall j :: 0 <= j < 8 ==> MagLe(r.val, x[j])
    ensures r.idx < 4 ==> forall j :: 4 <= j < 8 ==> MagLt(r.val, x[j])
    ensures r.idx < 4 ==> forall j :: 0 <= j < r.idx ==> MagLt(r.val, x[j])
    ensures r.idx >= 4 ==> forall j :: 4 <= j < r.idx ==> MagLt(r.val, x[j])
  {
    var a := MinIdx4(x[..4]);
    var b := MinIdx4(x[4..]) + 4;
    LowerHalfLeast(x);
    UpperHalfLeast(x);
    if MagLt(x[a], x[b]) then MinResult(a, x[a]) else MinResult(b, x[b])
  }

  /** The lower half's least lane, as a lane of the whole vector. */
  lemma LowerHalfLeast(x: seq<Mag>)
    requires |x| == 8
    ensures var a := MinIdx4(x[..4]);
      && (forall j :: 0 <= j < 4 ==> MagLe(x[a], x[j]))
      && (forall j :: 0 <= j < a ==> MagLt(x[a], x[j]))
  {
    var lo := x[..4];
    var a := MinIdx4(lo);
    assert x[a] == lo[a];
    assert forall j :: 0 <= j < 4 ==> x[j] == lo[j];
  }

  /** The upper half's least lane, shifted by four, as a lane of the whole
      vector. */
  lemma UpperHalfLeast(x: seq<Mag>)
    requires |x| == 8
    ensures var b := MinIdx4(x[4..]) + 4;
      && b < 8
      && (forall j :: 4 <= j < 8 ==> MagLe(x[b], x[j]))
      && (forall j :: 4 <= j < b ==> MagLt(x[b], x[j]))
  {
    var hi := x[4..];
    var b := MinIdx4(hi) + 4;
    assert x[b] == hi[b - 4];
    assert forall j :: 4 <= j < 8 ==> x[j] == hi[j - 4];
  }

  /** The index `_mm256_minidx_ps` picks lies in the lower half exactly when
      some lower lane is strictly smaller than every upper lane. */
  lemma MinIdx8Lower(x: seq<Mag>)
    requires |x| == 8
    ensures MinIdx8(x).idx < 4 <==> exists j :: 0 <= j < 4 && forall i :: 4 <= i < 8 ==> MagLt(x[j], x[i])
  {
    var r := MinIdx8(x);
    if r.idx >= 4 {
      forall j | 0 <= j < 4 ensures !forall i :: 4 <= i < 8 ==> MagLt(x[j], x[i]) {
        assert MagLe(r.val, x[j]);
      }
    }
  }

  /** When the least value occurs in both halves, the upper index wins. */
  lemma MinIdx8Tie(x: seq<Mag>, i: nat, j: nat)
    requires |x| == 8 && i < 4 <= j < 8 && x[i] == x[j]
    requires forall k :: 0 <= k < 8 ==> MagLe(x[i], x[k])
    ensures MinIdx8(x).idx >= 4
  {
    MinIdx8Lower(x);
  }

  /** The unit test of `_mm256_minidx_ps`: a single 4.0 among 5.0s is found,
      in every lane, and written to `minVal`. */
  lemma MinIdx8SingleLow(i: nat)
    requires i < 8
    ensures var x := seq(8, k requires 0 <= k < 8 => if k == i then Fin(4.0) else Fin(5.0));
      MinIdx8(x) == MinResult(i, Fin(4.0))
  {
    var x := seq(8, k requires 0 <= k < 8 => if k == i then Fin(4.0) else Fin(5.0));
    var r := MinIdx8(x);
    assert MagLe(r.val, x[i]);
    assert r.idx == i;
  }

  /** The sign bit of `reduce_xor_ps(x)`: upper and lower four lanes are
      XORed, then lanes 2,3 onto 0,1, then lane 1 onto lane 0. */
  function ReduceXorSign(bits: seq<bool>): (p: bool)
    requires |bits| == 8
    ensures p == Parity(bits)
  {
    var lo, hi := bits[..4], bits[4..];
    var x128 := XorSeq(hi, lo);
    var x64 := [x128[0] != x128[2], x128[1] != x128[3]];
    ParityXorSeq(hi, lo);
    ParityConcat(lo, hi);
    SplitAt(bits, 4);
    ParityOf4(x128);
    x64[0] != x64[1]
  }

  /** The parity of four bits written out. */
  lemma ParityOf4(b: seq<bool>)
    requires |b| == 4
    ensures Parity(b) == (((b[0] != b[1]) != b[2]) != b[3])
  {
    assert Parity(b) == (Parity(b[..3]) != b[3]);
    assert b[..3][..2] == b[..2] && b[..2][..1] == b[..1] && b[..1][..0] == [];
    assert Parity(b[..3]) == (Parity(b[..2]) != b[2]);
    assert Parity(b[..2]) == (Parity(b[..1]) != b[1]);
    assert Parity(b[..1]) == (Parity([]) != b[0]);
  }

  /** Lane-wise XOR of two vectors XORs their parities: accumulating
      vectors with `_mm256_xor_ps` keeps the parity of everything seen. */
  lemma {:induction false} ParityXorSeq(a: seq<bool>, b: seq<bool>)
    requires |a| == |b|
    ensures Parity(XorSeq(a, b)) == (Parity(a) != Parity(b))
  {
    if |a| > 0 {
      var k: nat := |a| - 1;
      var c := XorSeq(a, b);
      assert c[..k] == XorSeq(a[..k], b[..k]);
      ParityXorSeq(a[..k], b[..k]);
    }
  }
}

=== FILE: bit_container.dfy ===
/** The `BitContainer` contract of bitcontainer.h.  A container holds a
    fixed number of bits; `FloatContainer` keeps each one as the sign of a
    zero float, `CharContainer` as a 0/1 byte.  The header declares the
    operations and documents what they do; their bodies are not part of
    this model, so the operations below are that documented contract over
    the bits, with packed bytes in the most-significant-bit-first order of
    `Bits2Bytes`.

    A frozen-bit set becomes the information mask of InfoBits: position i
    holds an information bit when i is not in the set. */
module BitContainers {
  import opened Floats
  import opened InfoBits
  import opened BitPacking

  /** The information mask of a container of `n` bits. */
  function InfoMask(frozen: set<nat>, n: nat): (mask: seq<bool>)
    ensures |mask| == n
    ensures forall i :: 0 <= i < n ==> (mask[i] <==> i !in frozen)
  {
    seq(n, i requires 0 <= i < n => i !in frozen)
  }

  /** `insertPacked`: the first `n/8` bytes fill the first `8 * (n/8)`
      bits; bits of a trailing partial byte keep their value. */
  function InsertPacked(cells: seq<bool>, bytes: seq<bv8>): (r: seq<bool>)
    requires |bytes| >= |cells| / 8
    ensures |r| == |cells|
    ensures r[|r| / 8 * 8..] == cells[|cells| / 8 * 8..]
  {
    var whole := |cells| / 8;
    UnpackAll(bytes[..whole]) + cells[whole * 8..]
  }

  /** `getPacked`: the first `n/8` bytes of the container. */
  function GetPacked(cells: seq<bool>): (bytes: seq<bv8>)
    ensures |bytes| == |cells| / 8
  {
    PackAll(cells, |cells| / 8)
  }

  /** Storing packed bytes and reading them back returns the bytes the
      container was sized for. */
  lemma PackedRoundTrip(cells: seq<bool>, bytes: seq<bv8>)
    requires |bytes| >= |cells| / 8
    ensures GetPacked(InsertPacked(cells, bytes)) == bytes[..|cells| / 8]
  {
    var whole := |cells| / 8;
    var r := InsertPacked(cells, bytes);
    UnpackPackAll(r, whole);
    assert r[..8 * whole] == UnpackAll(bytes[..whole]);
    PackUnpackAll(bytes[..whole]);
    assert UnpackAll(PackAll(r, whole)) == UnpackAll(bytes[..whole]);
    UnpackAllInjective(PackAll(r, whole), bytes[..whole]);
  }

  /** Two byte strings with the same bits are equal. */
  lemma UnpackAllInjective(a: seq<bv8>, b: seq<bv8>)
    requires |a| == |b| && UnpackAll(a) == UnpackAll(b)
    ensures a == b
  {
    PackUnpackAll(a);
    PackUnpackAll(b);
  }

  /** `insertPackedInformation`: the information positions, in ascending
      order, take the bits of the first `k/8` bytes, where k is the number
      of information positions; frozen positions, and information positions
      past the last whole byte, keep their value. */
  function InsertPackedInformation(cells: seq<bool>, bytes: seq<bv8>, frozen: set<nat>): (r: seq<bool>)
    requires |bytes| >= Count(InfoMask(frozen, |cells|)) / 8
    ensures |r| == |cells|
    ensures forall i :: 0 <= i < |cells| && i in frozen ==> r[i] == cells[i]
  {
    var mask := InfoMask(frozen, |cells|);
    var whole := Count(mask) / 8;
    var data := UnpackAll(bytes[..whole]) + Gather(mask, cells)[whole * 8..];
    Scatter(cells, mask, data)
  }

  /** `getPackedInformation`: the information bits, in ascending position
      order, packed into `k/8` bytes. */
  function GetPackedInformation(cells: seq<bool>, frozen: set<nat>): (bytes: seq<bv8>)
    ensures |bytes| == Count(InfoMask(frozen, |cells|)) / 8
  {
    var mask := InfoMask(frozen, |cells|);
    PackAll(Gather(mask, cells), Count(mask) / 8)
  }

  /** Storing information bytes and reading them back with the same frozen
      set recovers the bytes. */
  lemma InformationRoundTrip(cells: seq<bool>, bytes: seq<bv8>, frozen: set<nat>)
    requires |bytes| >= Count(InfoMask(frozen, |cells|)) / 8
    ensures GetPackedInformation(InsertPackedInformation(cells, bytes, frozen), frozen) == bytes[..Count(InfoMask(frozen, |cells|)) / 8]
  {
    var mask := InfoMask(frozen, |cells|);
    var whole := Count(mask) / 8;
    var front := UnpackAll(bytes[..whole]);
    var data := front + Gather(mask, cells)[whole * 8..];
    var r := InsertPackedInformation(cells, bytes, frozen);
    assert r == Scatter(cells, mask, data);
    GatherScatter(cells, mask, data);
    assert Gather(mask, r) == data;
    UnpackPackAll(data, whole);
    assert data[..8 * whole] == front;
    PackUnpackAll(bytes[..whole]);
    UnpackAllInjective(PackAll(data, whole), bytes[..whole]);
  }

  /** Frozen bits never reach `getPackedInformation`: containers that agree
      on the information positions give the same bytes. */
  lemma InformationIgnoresFrozen(c1: seq<bool>, c2: seq<bool>, frozen: set<nat>)
    requires |c1| == |c2|
    requires forall i :: 0 <= i < |c1| && i !in frozen ==> c1[i] == c2[i]
    ensures GetPackedInformation(c1, frozen) == GetPackedInformation(c2, frozen)
  {
    GatherIgnoresFrozen(InfoMask(frozen, |c1|), c1, c2);
  }

  /** `resetFrozenBits`: every frozen position becomes 0. */
  function ResetFrozenBits(cells: seq<bool>, frozen: set<nat>): (r: seq<bool>)
    ensures |r| == |cells|
  {
    seq(|cells|, i requires 0 <= i < |cells| => if i in frozen then false else cells[i])
  }

  /** Exactly the frozen positions are cleared; the others are unchanged,
      so the information read from the container is unchanged too. */
  lemma ResetFrozenBitsMeaning(cells: seq<bool>, frozen: set<nat>)
    ensures var r := ResetFrozenBits(cells, frozen);
      && (forall i :: 0 <= i < |cells| && i in frozen ==> !r[i])
      && (forall i :: 0 <= i < |cells| && i !in frozen ==> r[i] == cells[i])
      && GetPackedInformation(r, frozen) == GetPackedInformation(cells, frozen)
  {
    InformationIgnoresFrozen(ResetFrozenBits(cells, frozen), cells, frozen);
  }

  /** Resetting twice is resetting once. */
  lemma ResetFrozenBitsIdempotent(cells: seq<bool>, frozen: set<nat>)
    ensures ResetFrozenBits(ResetFrozenBits(cells, frozen), frozen) == ResetFrozenBits(cells, frozen)
  {
  }

  // ---------------------------------------------------------------------
  // FloatContainer: bits as signed zeros

  /** The storage of a `FloatContainer` holding `cells`. */
  function FloatCells(cells: seq<bool>): (fs: seq<Float>)
    ensures |fs| == |cells|
    ensures forall i :: 0 <= i < |cells| ==> fs[i] == BitFloat(cells[i])
  {
    seq(|cells|, i requires 0 <= i < |cells| => BitFloat(cells[i]))
  }

  /** Every stored float is a zero, and its sign bit is the stored bit. */
  lemma FloatCellsZero(cells: seq<bool>)
    ensures forall i :: 0 <= i < |cells| ==> FloatCells(cells)[i].mag == Fin(0.0)
    ensures SignBits(FloatCells(cells)) == cells
  {
  }

  /** The test of bitcontainertest.cpp: eight bytes, with the first byte's
      positions frozen, carry seven information bytes, which read back
      unchanged. */
  lemma FirstByteFrozenExample(cells: seq<bool>, bytes: seq<bv8>, frozen: set<nat>)
    requires |cells| == 64 && |bytes| == 8
    requires forall i: nat :: i in frozen <==> i < 8
    ensures Count(InfoMask(frozen, 64)) == 56
    ensures GetPackedInformation(InsertPackedInformation(cells, bytes, frozen), frozen) == bytes[..7]
  {
    var mask := InfoMask(frozen, 64);
    CountSplit(mask, 8);
    CountAllFrozen(mask[..8]);
    CountAllInformation(mask[8..]);
    InformationRoundTrip(cells, bytes, frozen);
  }

  /** A word with no frozen position has all its positions as information. */
  lemma {:induction false} CountAllInformation(mask: seq<bool>)
    requires forall i :: 0 <= i < |mask| ==> mask[i]
    ensures Count(mask) == |mask|
  {
    if |mask| > 0 {
      CountAllInformation(mask[1..]);
    }
  }
}

=== FILE: bit_packing.dfy ===
/** `Bits2Bytes` and `Bytes2Bits` of ArrayFuncs.cpp: packing of one-bit-per-
    byte arrays into bytes, most significant bit first.  Bits are `bool`
    (the source stores them as 0/1 in unsigned chars). */
module BitPacking {

  function BitValue(b: bool): bv8 {
    if b then 1 else 0
  }

  /** Bit `b` (0 = least significant) of a byte. */
  function BitAt(x: bv8, b: nat): bool
    requires b < 8
  {
    (x >> b) & 1 == 1
  }

  /** The first `m` rounds of the inner loop `tmp |= bit << b`, b = 7, 6, ...:
      bit k of the group lands at bit 7-k of the byte. */
  function PackPrefix(e: seq<bool>, m: nat): bv8
    requires m <= |e| && m <= 8
  {
    if m == 0 then 0 else PackPrefix(e, m - 1) | (BitValue(e[m - 1]) << (8 - m))
  }

  /** One byte from a group of eight bits. */
  function PackByte(e: seq<bool>): bv8
    requires |e| == 8
  {
    PackPrefix(e, 8)
  }

  /** The eight bits of a byte, most significant first: the inner loop
      `*bits = (byte >> b) & 1`, b = 7, ..., 0. */
  function UnpackByte(x: bv8): (e: seq<bool>)
    ensures |e| == 8
  {
    seq(8, k requires 0 <= k < 8 => BitAt(x, 7 - k))
  }

  /** The eight rounds of the inner loop written out. */
  lemma PackByteUnrolled(e: seq<bool>)
    requires |e| == 8
    ensures PackByte(e) == (BitValue(e[0]) << 7) | (BitValue(e[1]) << 6) | (BitValue(e[2]) << 5) | (BitValue(e[3]) << 4)
                         | (BitValue(e[4]) << 3) | (BitValue(e[5]) << 2) | (BitValue(e[6]) << 1) | BitValue(e[7])
  {
    assert PackPrefix(e, 1) == (BitValue(e[0]) << 7);
    assert PackPrefix(e, 2) == PackPrefix(e, 1) | (BitValue(e[1]) << 6);
    assert PackPrefix(e, 3) == PackPrefix(e, 2) | (BitValue(e[2]) << 5);
    assert PackPrefix(e, 4) == PackPrefix(e, 3) | (BitValue(e[3]) << 4);
    assert PackPrefix(e, 5) == PackPrefix(e, 4) | (BitValue(e[4]) << 3);
    assert PackPrefix(e, 6) == PackPrefix(e, 5) | (BitValue(e[5]) << 2);
    assert PackPrefix(e, 7) == PackPrefix(e, 6) | (BitValue(e[6]) << 1);
    assert PackPrefix(e, 8) == PackPrefix(e, 7) | BitValue(e[7]);
  }

  /** Bit k of a group is bit 7-k of its byte, MSB first. */
  lemma PackByteBits(e: seq<bool>)
    requires |e| == 8
    ensures forall k :: 0 <= k < 8 ==> BitAt(PackByte(e), 7 - k) == e[k]
  {
    var x := PackByte(e);
    PackByteUnrolled(e);
    assert BitAt(x, 7) == e[0] && BitAt(x, 6) == e[1] && BitAt(x, 5) == e[2] && BitAt(x, 4) == e[3];
    assert BitAt(x, 3) == e[4] && BitAt(x, 2) == e[5] && BitAt(x, 1) == e[6] && BitAt(x, 0) == e[7];
  }

  lemma UnpackPackByte(e: seq<bool>)
    requires |e| == 8
    ensures UnpackByte(PackByte(e)) == e
  {
    PackByteBits(e);
  }

  lemma PackUnpackByte(x: bv8)
    ensures PackByte(UnpackByte(x)) == x
  {
    var e := UnpackByte(x);
    assert e[0] == BitAt(x, 7) && e[1] == BitAt(x, 6) && e[2] == BitAt(x, 5) && e[3] == BitAt(x, 4);
    assert e[4] == BitAt(x, 3) && e[5] == BitAt(x, 2) && e[6] == BitAt(x, 1) && e[7] == BitAt(x, 0);
    PackByteUnrolled(e);
    ByteFromBits(x);
  }

  /** A byte is the OR of its eight bits in place. */
  lemma ByteFromBits(x: bv8)
    ensures x == (BitValue(BitAt(x, 7)) << 7) | (BitValue(BitAt(x, 6)) << 6) | (BitValue(BitAt(x, 5)) << 5)
               | (BitValue(BitAt(x, 4)) << 4) | (BitValue(BitAt(x, 3)) << 3) | (BitValue(BitAt(x, 2)) << 2)
               | (BitValue(BitAt(x, 1)) << 1) | BitValue(BitAt(x, 0))
  {
  }

  /** The reference meaning of `Bits2Bytes(bits, bytes, nBytes)`. */
  function PackAll(bits: seq<bool>, nBytes: nat): (bytes: seq<bv8>)
    requires |bits| >= 8 * nBytes
    ensures |bytes| == nBytes
  {
    seq(nBytes, i requires 0 <= i < nBytes => PackByte(bits[8 * i .. 8 * i + 8]))
  }

  /** The reference meaning of `Bytes2Bits(bytes, bits, nBytes)`. */
  function UnpackAll(bytes: seq<bv8>): (bits: seq<bool>)
    ensures |bits| == 8 * |bytes|
  {
    if |bytes| == 0 then [] else UnpackAll(bytes[..|bytes| - 1]) + UnpackByte(bytes[|bytes| - 1])
  }

  /** Group i of the unpacked bits is byte i. */
  lemma {:induction false} UnpackAllGroup(bytes: seq<bv8>, i: nat)
    requires i < |bytes|
    ensures UnpackAll(bytes)[8 * i .. 8 * i + 8] == UnpackByte(bytes[i])
  {
    var n := |bytes|;
    var q := bytes[..n - 1];
    assert UnpackAll(bytes) == UnpackAll(q) + UnpackByte(bytes[n - 1]);
    if i < n - 1 {
      UnpackAllGroup(q, i);
      assert UnpackAll(bytes)[8 * i .. 8 * i + 8] == UnpackAll(q)[8 * i .. 8 * i + 8];
    }
  }

  /** Bit 8i+k of `Bytes2Bits` is bit 7-k of byte i. */
  lemma UnpackAllBits(bytes: seq<bv8>, i: nat, k: nat)
    requires i < |bytes| && k < 8
    ensures UnpackAll(bytes)[8 * i + k] == BitAt(bytes[i], 7 - k)
  {
    UnpackAllGroup(bytes, i);
    assert UnpackAll(bytes)[8 * i + k] == UnpackAll(bytes)[8 * i .. 8 * i + 8][k];
  }

  /** Packing the unpacked bytes gives them back. */
  lemma PackUnpackAll(bytes: seq<bv8>)
    ensures PackAll(UnpackAll(bytes), |bytes|) == bytes
  {
    var r := PackAll(UnpackAll(bytes), |bytes|);
    forall i | 0 <= i < |bytes| ensures r[i] == bytes[i] {
      UnpackAllGroup(bytes, i);
      PackUnpackByte(bytes[i]);
    }
  }

  /** Unpacking the packed bytes gives back the bits that were packed. */
  lemma {:induction false} UnpackPackAll(bits: seq<bool>, nBytes: nat)
    requires |bits| >= 8 * nBytes
    ensures UnpackAll(PackAll(bits, nBytes)) == bits[..8 * nBytes]
  {
    if nBytes > 0 {
      var n := nBytes - 1;
      UnpackPackAll(bits, n);
      assert PackAll(bits, nBytes)[..n] == PackAll(bits, n);
      UnpackPackByte(bits[8 * n .. 8 * n + 8]);
      assert bits[..8 * nBytes] == bits[..8 * n] + bits[8 * n .. 8 * n + 8];
    }
  }

  /** The inner loop of `Bits2Bytes`: eight bits ORed into one byte, MSB
      first. */
  method PackGroup(g: seq<bool>) returns (tmp: bv8)
    requires |g| == 8
    ensures tmp == PackByte(g)
  {
    tmp := 0;
    var b := 7;
    while b >= 0
      invariant -1 <= b <= 7
      invariant tmp == PackPrefix(g, 7 - b)
    {
      tmp := tmp | (BitValue(g[7 - b]) << b);
      b := b - 1;
    }
  }

  /** `Bits2Bytes`: the outer loop walks the bytes, the inner loop ORs each
      of eight bits into place, MSB first. */
  method Bits2Bytes(bits: seq<bool>, nBytes: nat) returns (bytes: seq<bv8>)
    requires |bits| >= 8 * nBytes
    ensures bytes == PackAll(bits, nBytes)
  {
    bytes := [];
    var i := 0;
    while i < nBytes
      invariant 0 <= i <= nBytes
      invariant bytes == PackAll(bits, nBytes)[..i]
    {
      var tmp := PackGroup(bits[8 * i .. 8 * i + 8]);
      bytes := bytes + [tmp];
      i := i + 1;
    }
  }

  /** `Bytes2Bits`: each byte becomes eight bits, MSB first. */
  method Bytes2Bits(bytes: seq<bv8>) returns (bits: seq<bool>)
    ensures bits == UnpackAll(bytes)
  {
    bits := [];
    var i := 0;
    while i < |bytes|
      invariant 0 <= i <= |bytes|
      invariant bits == UnpackAll(bytes[..i])
    {
      var b := 7;
      ghost var start := bits;
      while b >= 0
        invariant -1 <= b <= 7
        invariant bits == start + UnpackByte(bytes[i])[..7 - b]
      {
        bits := bits + [(bytes[i] >> b) & 1 == 1];
        b := b - 1;
      }
      assert bytes[..i + 1][..i] == bytes[..i];
      i := i + 1;
    }
    assert bytes[..i] == bytes;
  }
}

=== FILE: bit_reversal.dfy ===
/** `bitreversed_slow` of PolarCode.cpp: the n-bit reversal of an index,
    used to order the channels of a polar code. */
module BitReversal {

  /** The five swap rounds of `bitreversed_slow`: a complete reversal of the
      32 bits of a word. */
  function Reverse32(j0: bv32): bv32 {
    var j1 := ((j0 & 0xaaaa_aaaa) >> 1) | ((j0 & 0x5555_5555) << 1);
    var j2 := ((j1 & 0xcccc_cccc) >> 2) | ((j1 & 0x3333_3333) << 2);
    var j3 := ((j2 & 0xf0f0_f0f0) >> 4) | ((j2 & 0x0f0f_0f0f) << 4);
    var j4 := ((j3 & 0xff00_ff00) >> 8) | ((j3 & 0x00ff_00ff) << 8);
    (j4 >> 16) | (j4 << 16)
  }

  /** Bit `k` of a word, 0 being the least significant. */
  predicate BitOf(x: bv32, k: bv32)
    requires k < 32
  {
    (x >> k) & 1 == 1
  }

  /** The swap rounds move bit k to bit 31-k. */
  lemma Reverse32Bits(j: bv32, k: bv32)
    requires k < 32
    ensures BitOf(Reverse32(j), k) == BitOf(j, 31 - k)
  {
  }

  /** The top n bits of a word, as the low bits of the result. */
  function TopBits(r: bv32, n: bv32): bv32
    requires 1 <= n <= 32
  {
    r >> (32 - n)
  }

  /** `bitreversed_slow(j)`: the n-bit reversal of j, taken as the top n bits
      of the 32-bit reversal.  The source shifts by 32 - n, so n = 0 would be
      a shift by the full width; the model asks for 1 <= n <= 32. */
  function BitReversed(j: bv32, n: bv32): (r: bv32)
    requires 1 <= n <= 32
    ensures n < 32 ==> r < 1 << n
  {
    TopBits(Reverse32(j), n)
  }

  /** Bit k of a right shift by s is bit s + k of the word. */
  lemma ShiftBit(x: bv32, s: bv32, k: bv32)
    requires s < 32 && k < 32 - s
    ensures BitOf(x >> s, k) == BitOf(x, s + k)
  {
  }

  /** Bit k of the top n bits is bit 32 - n + k of the word. */
  lemma TopBitsBit(r: bv32, n: bv32, k: bv32)
    requires 1 <= n <= 32 && k < n
    ensures BitOf(TopBits(r, n), k) == BitOf(r, (32 - n) + k)
  {
    var s := 32 - n;
    ShiftBit(r, s, k);
  }

  /** Bit k of the n-bit reversal is bit 32 - n + k of the 32-bit reversal,
      that is bit n - 1 - k of the index. */
  lemma BitReversedBits(j: bv32, n: bv32, k: bv32)
    requires 1 <= n <= 32 && k < n
    ensures BitOf(BitReversed(j, n), k) == BitOf(Reverse32(j), (32 - n) + k)
    ensures BitOf(BitReversed(j, n), k) == BitOf(j, n - 1 - k)
  {
    var p := (32 - n) + k;
    assert BitOf(BitReversed(j, n), k) == BitOf(Reverse32(j), p) by {
      TopBitsBit(Reverse32(j), n, k);
    }
    assert BitOf(Reverse32(j), p) == BitOf(j, n - 1 - k) by {
      Reverse32Bits(j, p);
      assert 31 - p == n - 1 - k;
    }
  }

  /** On n-bit indices the reversal is an involution, hence a permutation of
      [0, 2^n). */
  lemma BitReversedInvolution(j: bv32, n: bv32)
    requires 1 <= n <= 32
    requires n < 32 ==> j < 1 << n
    ensures BitReversed(BitReversed(j, n), n) == j
  {
  }
}

=== FILE: channel_construction.dfy ===
/** Channel construction of channel_construction.py.

    Every estimator starts from one value for the whole channel and applies a
    doubling step `block_power` times: parent i becomes a worse ("degrade",
    check-node) child at index 2i and a better ("upgrade", bit-node) child at
    index 2i+1.  The Bhattacharyya estimators run this recursion on the
    parameter 1 - eta, linearly and in the log domain; the Gaussian
    approximation runs it in place on mean LLRs.  The channels are then ordered
    by their scores, and the first k of that order are frozen.

    Arithmetic is exact (`real`).  `exp`, `log` and the phi / inverse-phi
    check-node update are function parameters; eta is a parameter. */
module ChannelConstruction {
  import opened Powers
  import TrackingSorter
  import opened Seqs
  import opened Outcomes

  /** `block_power = int(np.log2(N))` */
  function BlockPower(n: nat): nat
    requires n >= 1
  {
    Log2Floor(n)
  }

  /** `block_size = 2 ** block_power`: the largest power of two not above N,
      so a length that is not a power of two is truncated, never rejected. */
  function BlockSize(n: nat): (b: nat)
    requires n >= 1
    ensures b <= n < 2 * b
    ensures IsPow2(b)
  {
    Pow2(BlockPower(n))
  }

  /** The exceptions of `int(np.log2(N))` for a length below 1:
      `log2(0)` is -infinity, which `int` refuses with an OverflowError
      (InfiniteLog), and `log2` of a negative number is NaN, refused with
      a ValueError (NanLog). */
  datatype ConstructorError = InfiniteLog | NanLog

  /** The constructor's block size for any integer N: the errors of
      `int(np.log2(N))` below 1, the truncated power of two otherwise. */
  function ConstructorBlockSize(n: int): (r: Result<nat, ConstructorError>)
    ensures r.Failure? <==> n <= 0
    ensures r == Failure(InfiniteLog) <==> n == 0
    ensures r == Failure(NanLog) <==> n < 0
    ensures r.Success? ==> IsPow2(r.value) && r.value <= n < 2 * r.value
  {
    if n == 0 then Failure(InfiniteLog)
    else if n < 0 then Failure(NanLog)
    else Success(BlockSize(n))
  }

  /** The block size keeps N exactly when N is a power of two. */
  lemma BlockSizeKeepsPow2(n: nat)
    requires n >= 1
    ensures BlockSize(n) == n <==> IsPow2(n)
  {
    if IsPow2(n) {
      var k: nat :| Pow2(k) == n;
      Log2FloorOfPow2(k);
    }
  }

  // ---------------------------------------------------------------------
  // The doubling recursion

  /** One step `_calculate_channels_*`: `res[0::2] = degrade(vals)`,
      `res[1::2] = upgrade(vals)`. */
  function Step(v: seq<real>, degrade: real -> real, upgrade: real -> real): (r: seq<real>)
    ensures |r| == 2 * |v|
  {
    seq(2 * |v|, k requires 0 <= k < 2 * |v| => if k % 2 == 0 then degrade(v[k / 2]) else upgrade(v[k / 2]))
  }

  /** The estimator loop `for i in range(block_power): vals = step(vals)`,
      started from the one-element vector `[x]`. */
  function Iterate(x: real, degrade: real -> real, upgrade: real -> real, n: nat): (r: seq<real>)
    ensures |r| == Pow2(n)
  {
    if n == 0 then [x] else Step(Iterate(x, degrade, upgrade, n - 1), degrade, upgrade)
  }

  /** Every value of a step comes from the parent at half its index: the
      degrade child of parent i sits at 2i, its upgrade child at 2i+1. */
  lemma StepParent(v: seq<real>, degrade: real -> real, upgrade: real -> real, k: int)
    requires 0 <= k < 2 * |v|
    ensures Step(v, degrade, upgrade)[k] == if k % 2 == 0 then degrade(v[k / 2]) else upgrade(v[k / 2])
  {
  }

  /** Parent j of a step has its degrade child at 2j and its upgrade child
      at 2j+1. */
  lemma StepPair(v: seq<real>, degrade: real -> real, upgrade: real -> real, j: int)
    requires 0 <= j < |v|
    ensures Step(v, degrade, upgrade)[2 * j] == degrade(v[j])
    ensures Step(v, degrade, upgrade)[2 * j + 1] == upgrade(v[j])
  {
    StepParent(v, degrade, upgrade, 2 * j);
    StepParent(v, degrade, upgrade, 2 * j + 1);
  }

  // ---------------------------------------------------------------------
  // Bhattacharyya bounds, linear domain

  /** Real multiplication behind a name, so that the bounds below are stated
      about this one term. */
  function Product(a: real, b: real): real {
    a * b
  }

  function DegradeLin(z: real): real {
    Product(z, z)
  }

  function UpgradeLin(z: real): real {
    2.0 * z - Product(z, z)
  }

  /** `_calculate_capacities_lin`: the recursion from `1 - eta`. */
  function Linear(eta: real, n: nat): (r: seq<real>)
    requires n >= 1
    ensures |r| == BlockSize(n)
  {
    Iterate(1.0 - eta, DegradeLin, UpgradeLin, BlockPower(n))
  }

  /** For N = 2 the linear estimator is `[(1-eta)^2, 2(1-eta) - (1-eta)^2]`. */
  lemma LinearTwo(eta: real)
    ensures Linear(eta, 2) == [(1.0 - eta) * (1.0 - eta), 2.0 * (1.0 - eta) - (1.0 - eta) * (1.0 - eta)]
  {
    assert BlockPower(2) == 1;
    var r := Linear(eta, 2);
    assert Iterate(1.0 - eta, DegradeLin, UpgradeLin, 0) == [1.0 - eta];
    assert r == Step([1.0 - eta], DegradeLin, UpgradeLin);
    assert r[0] == DegradeLin(1.0 - eta) && r[1] == UpgradeLin(1.0 - eta);
  }

  predicate InUnit(v: seq<real>) {
    forall i :: 0 <= i < |v| ==> 0.0 <= v[i] <= 1.0
  }

  /** For a value in [0, 1]: `z^2 <= z <= 2z - z^2`, both in [0, 1]; for a
      value in (0, 1) both children stay in (0, 1). */
  lemma LinPoint(z: real)
    requires 0.0 <= z <= 1.0
    ensures 0.0 <= DegradeLin(z) <= UpgradeLin(z) <= 1.0
    ensures 0.0 < z < 1.0 ==> 0.0 < DegradeLin(z) < 1.0 && 0.0 < UpgradeLin(z) < 1.0
  {
    DegradeBelow(z);
    UpgradeAbove(z);
  }

  lemma DegradeBelow(z: real)
    requires 0.0 <= z <= 1.0
    ensures 0.0 <= DegradeLin(z) <= z
    ensures 0.0 < z < 1.0 ==> 0.0 < DegradeLin(z) < z
  {
    ProductNonNeg(z, z);
    ProductAtMost(z, z);
    if 0.0 < z < 1.0 {
      ProductPos(z, z);
      ProductBelow(z, z);
    }
  }

  lemma UpgradeAbove(z: real)
    requires 0.0 <= z <= 1.0
    ensures z <= UpgradeLin(z) <= 1.0
    ensures z < 1.0 ==> UpgradeLin(z) < 1.0
  {
    var w := 1.0 - z;
    assert Product(w, w) == 1.0 - 2.0 * z + Product(z, z);
    DegradeBelow(z);
    DegradeBelow(w);
  }

  lemma ProductNonNeg(a: real, b: real)
    requires a >= 0.0 && b >= 0.0
    ensures Product(a, b) >= 0.0
  {
  }

  lemma ProductPos(a: real, b: real)
    requires a > 0.0 && b > 0.0
    ensures Product(a, b) > 0.0
  {
  }

  /** Scaling by a factor of at most one does not grow a non-negative value. */
  lemma ProductAtMost(a: real, b: real)
    requires 0.0 <= a && b <= 1.0
    ensures Product(a, b) <= a
  {
    assert a - a * b == a * (1.0 - b);
    ProductNonNeg(a, 1.0 - b);
  }

  lemma ProductBelow(a: real, b: real)
    requires 0.0 < a && b < 1.0
    ensures Product(a, b) < a
  {
    assert a - a * b == a * (1.0 - b);
    ProductPos(a, 1.0 - b);
  }

  /** Every upgrade child (odd index) is at least its degrade sibling. */
  predicate SiblingsOrdered(v: seq<real>) {
    forall k :: 0 <= k && k + 1 < |v| && k % 2 == 0 ==> v[k] <= v[k + 1]
  }

  /** A linear step keeps values in [0, 1]. */
  lemma StepLinUnit(v: seq<real>)
    requires InUnit(v)
    ensures InUnit(Step(v, DegradeLin, UpgradeLin))
  {
    var r := Step(v, DegradeLin, UpgradeLin);
    forall k | 0 <= k < |r| ensures 0.0 <= r[k] <= 1.0 {
      LinPoint(v[k / 2]);
      StepParent(v, DegradeLin, UpgradeLin, k);
    }
  }

  /** After a linear step on values in [0, 1] each upgrade child is at least
      its degrade sibling. */
  lemma StepLinOrdered(v: seq<real>)
    requires InUnit(v)
    ensures SiblingsOrdered(Step(v, DegradeLin, UpgradeLin))
  {
    var r := Step(v, DegradeLin, UpgradeLin);
    forall k | 0 <= k && k + 1 < |r| && k % 2 == 0 ensures r[k] <= r[k + 1] {
      var j := k / 2;
      assert k == 2 * j;
      LinPoint(v[j]);
      StepPair(v, DegradeLin, UpgradeLin, j);
    }
  }

  lemma {:induction false} IterateLinUnit(x: real, n: nat)
    requires 0.0 <= x <= 1.0
    ensures InUnit(Iterate(x, DegradeLin, UpgradeLin, n))
  {
    if n > 0 {
      IterateLinUnit(x, n - 1);
      StepLinUnit(Iterate(x, DegradeLin, UpgradeLin, n - 1));
    }
  }

  /** After at least one round every upgrade child is at least its
      degrade sibling. */
  lemma IterateLinPairs(x: real, n: nat)
    requires 0.0 <= x <= 1.0 && n >= 1
    ensures SiblingsOrdered(Iterate(x, DegradeLin, UpgradeLin, n))
  {
    var prev := Iterate(x, DegradeLin, UpgradeLin, n - 1);
    assert Iterate(x, DegradeLin, UpgradeLin, n) == Step(prev, DegradeLin, UpgradeLin);
    IterateLinUnit(x, n - 1);
    StepLinOrdered(prev);
  }

  /** With 0 <= 1 - eta <= 1 every linear value lies in [0, 1], and once the
      recursion has run at least once every upgrade child (odd index) is at
      least its degrade sibling. */
  lemma LinearBounds(eta: real, n: nat)
    requires n >= 1 && 0.0 <= 1.0 - eta <= 1.0
    ensures InUnit(Linear(eta, n))
    ensures n >= 2 ==> SiblingsOrdered(Linear(eta, n))
  {
    var m := BlockPower(n);
    var r := Iterate(1.0 - eta, DegradeLin, UpgradeLin, m);
    assert Linear(eta, n) == r;
    IterateLinUnit(1.0 - eta, m);
    if n >= 2 {
      assert m >= 1;
      IterateLinPairs(1.0 - eta, m);
    }
  }

  // ---------------------------------------------------------------------
  // Bhattacharyya bounds, log domain

  function DegradeLn(z: real): real {
    2.0 * z
  }

  /** `vals + l2 + log(1 - exp(vals - l2))` with `l2 = log(2)`. */
  function UpgradeLn(exp: real -> real, log: real -> real): real -> real {
    z => z + log(2.0) + log(1.0 - exp(z - log(2.0)))
  }

  /** `_calculate_capacities_ln`: the recursion from `log(1 - eta)`, turned
      back by `1 - exp(vals)` and returned reversed (`r[::-1]`). */
  function LogDomain(eta: real, n: nat, exp: real -> real, log: real -> real): (r: seq<real>)
    requires n >= 1
    ensures |r| == BlockSize(n)
  {
    var vals := Iterate(log(1.0 - eta), DegradeLn, UpgradeLn(exp, log), BlockPower(n));
    seq(|vals|, i requires 0 <= i < |vals| => 1.0 - exp(vals[|vals| - 1 - i]))
  }

  /** Addition as a function, so that the exponential law below is only
      used where a proof names the sum. */
  function Plus(x: real, y: real): real {
    x + y
  }

  /** The laws of an exact exponential and logarithm. */
  ghost predicate ExpLogLaws(exp: real -> real, log: real -> real) {
    && (forall x, y :: exp(Plus(x, y)) == exp(x) * exp(y))
    && (forall z :: z > 0.0 ==> exp(log(z)) == z)
  }

  lemma ExpAdd(exp: real -> real, log: real -> real, x: real, y: real)
    requires ExpLogLaws(exp, log)
    ensures exp(x + y) == exp(x) * exp(y)
  {
    assert Plus(x, y) == x + y;
  }

  lemma ExpLog(exp: real -> real, log: real -> real, z: real)
    requires ExpLogLaws(exp, log) && z > 0.0
    ensures exp(log(z)) == z
  {
  }

  /** Pointwise, the log-domain values are the logs of linear values in (0, 1). */
  predicate LogOf(exp: real -> real, lin: seq<real>, ln: seq<real>) {
    |lin| == |ln| && forall i :: 0 <= i < |ln| ==> 0.0 < lin[i] < 1.0 && exp(ln[i]) == lin[i]
  }

  /** One log-domain step is the linear step seen through `exp`. */
  lemma StepLogOf(exp: real -> real, log: real -> real, lin: seq<real>, ln: seq<real>)
    requires ExpLogLaws(exp, log) && LogOf(exp, lin, ln)
    ensures LogOf(exp, Step(lin, DegradeLin, UpgradeLin), Step(ln, DegradeLn, UpgradeLn(exp, log)))
  {
    var a := Step(lin, DegradeLin, UpgradeLin);
    var b := Step(ln, DegradeLn, UpgradeLn(exp, log));
    forall k | 0 <= k < |b|
      ensures 0.0 < a[k] < 1.0 && exp(b[k]) == a[k]
    {
      LinPoint(lin[k / 2]);
      LogPoint(exp, log, lin[k / 2], ln[k / 2]);
      StepParent(lin, DegradeLin, UpgradeLin, k);
      StepParent(ln, DegradeLn, UpgradeLn(exp, log), k);
    }
  }

  /** The two log-domain updates are the linear ones seen through `exp`. */
  lemma LogPoint(exp: real -> real, log: real -> real, y: real, x: real)
    requires ExpLogLaws(exp, log) && 0.0 < y < 1.0 && exp(x) == y
    ensures exp(DegradeLn(x)) == DegradeLin(y)
    ensures exp(UpgradeLn(exp, log)(x)) == UpgradeLin(y)
  {
    ExpAdd(exp, log, x, x);
    assert DegradeLn(x) == x + x;
    var l2 := log(2.0);
    ExpLog(exp, log, 2.0);
    ExpAdd(exp, log, x - l2, l2);
    assert x - l2 + l2 == x;
    var h := exp(x - l2);
    assert h * 2.0 == y;
    ExpLog(exp, log, 1.0 - h);
    ExpAdd(exp, log, x, l2);
    ExpAdd(exp, log, x + l2, log(1.0 - h));
    assert UpgradeLn(exp, log)(x) == x + l2 + log(1.0 - h);
    assert exp(UpgradeLn(exp, log)(x)) == (y * 2.0) * (1.0 - h);
  }

  lemma {:induction false} IterateLogOf(exp: real -> real, log: real -> real, y: real, x: real, n: nat)
    requires ExpLogLaws(exp, log) && 0.0 < y < 1.0 && exp(x) == y
    ensures LogOf(exp, Iterate(y, DegradeLin, UpgradeLin, n), Iterate(x, DegradeLn, UpgradeLn(exp, log), n))
  {
    if n > 0 {
      IterateLogOf(exp, log, y, x, n - 1);
      StepLogOf(exp, log, Iterate(y, DegradeLin, UpgradeLin, n - 1), Iterate(x, DegradeLn, UpgradeLn(exp, log), n - 1));
    }
  }

  /** `lg` is `lin` complemented and reversed: `lg[i] == 1 - lin[N-1-i]`. */
  predicate ReversedComplement(lg: seq<real>, lin: seq<real>) {
    |lg| == |lin| && forall i :: 0 <= i < |lg| ==> lg[i] == 1.0 - lin[|lin| - 1 - i]
  }

  /** In exact arithmetic the log estimator is the linear one, complemented
      and reversed: entry i is `1 - Linear[N-1-i]`. */
  lemma LogIsReversedComplement(eta: real, n: nat, exp: real -> real, log: real -> real)
    requires n >= 1 && 0.0 < eta < 1.0 && ExpLogLaws(exp, log)
    ensures ReversedComplement(LogDomain(eta, n, exp, log), Linear(eta, n))
  {
    var m := BlockPower(n);
    ExpLog(exp, log, 1.0 - eta);
    IterateLogOf(exp, log, 1.0 - eta, log(1.0 - eta), m);
    assert Linear(eta, n) == Iterate(1.0 - eta, DegradeLin, UpgradeLin, m);
    LogDomainOf(eta, n, exp, log, Iterate(1.0 - eta, DegradeLin, UpgradeLin, m));
  }

  /** If the log-domain recursion holds the logs of `a`, the log estimator
      returns `a` complemented and reversed. */
  lemma LogDomainOf(eta: real, n: nat, exp: real -> real, log: real -> real, a: seq<real>)
    requires n >= 1
    requires LogOf(exp, a, Iterate(log(1.0 - eta), DegradeLn, UpgradeLn(exp, log), BlockPower(n)))
    ensures ReversedComplement(LogDomain(eta, n, exp, log), a)
  {
    var b := Iterate(log(1.0 - eta), DegradeLn, UpgradeLn(exp, log), BlockPower(n));
    var lg := LogDomain(eta, n, exp, log);
    assert |a| == |b| == |lg|;
    forall i | 0 <= i < |lg| ensures lg[i] == 1.0 - a[|a| - 1 - i] {
      var j := |a| - 1 - i;
      assert lg[i] == 1.0 - exp(b[j]);
      assert exp(b[j]) == a[j];
    }
  }

  // ---------------------------------------------------------------------
  // The combiner

  function Values(v: seq<real>): set<real> {
    set x | x in v
  }

  /** `np.unique(v).size` */
  function Distinct(v: seq<real>): (d: nat)
    ensures d <= |v|
    ensures |v| > 0 ==> d >= 1
  {
    DistinctBounds(v);
    |Values(v)|
  }

  lemma {:induction false} DistinctBounds(v: seq<real>)
    ensures |Values(v)| <= |v|
    ensures |v| > 0 ==> |Values(v)| >= 1
  {
    if |v| > 0 {
      var p := v[..|v| - 1];
      DistinctBounds(p);
      assert Values(v) == Values(p) + {v[|v| - 1]};
    }
  }

  /** `ChannelConstructorBhattacharyyaBounds.calculate_capacities`: the
      estimate with more distinct values wins; on a tie the log estimate is
      taken. */
  function Combine(lin: seq<real>, lg: seq<real>): (r: seq<real>)
    ensures r == lin || r == lg
    ensures Distinct(r) >= Distinct(lin) && Distinct(r) >= Distinct(lg)
    ensures Distinct(lin) == Distinct(lg) ==> r == lg
  {
    if Distinct(lin) > Distinct(lg) then lin else lg
  }

  /** The Bhattacharyya-bounds construction. */
  function Bhattacharyya(eta: real, n: nat, exp: real -> real, log: real -> real): (r: seq<real>)
    requires n >= 1
    ensures |r| == BlockSize(n)
  {
    Combine(Linear(eta, n), LogDomain(eta, n, exp, log))
  }

  /** The values `1 - x` for x in a set. */
  function Complement(s: set<real>): set<real> {
    set x | x in s :: 1.0 - x
  }

  /** `x -> 1 - x` is injective, so it keeps the number of distinct values. */
  lemma {:induction false} ComplementCard(v: seq<real>)
    ensures |Complement(Values(v))| == |Values(v)|
  {
    if |v| > 0 {
      var p, e := v[..|v| - 1], v[|v| - 1];
      ComplementCard(p);
      ValuesSnoc(p, e);
      assert v == p + [e];
      if e in Values(p) {
        assert Values(v) == Values(p);
      } else {
        ComplementAdd(Values(p), e);
        assert |Values(v)| == |Values(p)| + 1;
        assert |Complement(Values(v))| == |Complement(Values(p))| + 1;
      }
    }
  }

  lemma ValuesSnoc(p: seq<real>, e: real)
    ensures Values(p + [e]) == Values(p) + {e}
  {
  }

  /** Adding a new value adds its complement, which is new as well. */
  lemma ComplementAdd(s: set<real>, e: real)
    requires e !in s
    ensures Complement(s + {e}) == Complement(s) + {1.0 - e}
    ensures 1.0 - e !in Complement(s)
  {
    var img := Complement(s + {e});
    forall w | w in img ensures w in Complement(s) + {1.0 - e} {
      var x :| x in s + {e} && w == 1.0 - x;
      if x != e {
        assert x in s;
      }
    }
  }

  /** In exact arithmetic both estimates have the same number of distinct
      values, so the combiner always returns the log estimate: the linear
      one can only win through rounding. */
  lemma BhattacharyyaIsLogExactly(eta: real, n: nat, exp: real -> real, log: real -> real)
    requires n >= 1 && 0.0 < eta < 1.0 && ExpLogLaws(exp, log)
    ensures Bhattacharyya(eta, n, exp, log) == LogDomain(eta, n, exp, log)
  {
    var lin, lg := Linear(eta, n), LogDomain(eta, n, exp, log);
    LogIsReversedComplement(eta, n, exp, log);
    ReversedComplementValues(lin, lg);
    ComplementCard(lin);
  }

  /** A complemented, reversed copy holds the complemented values. */
  lemma ReversedComplementValues(lin: seq<real>, lg: seq<real>)
    requires ReversedComplement(lg, lin)
    ensures Values(lg) == Complement(Values(lin))
  {
    var img := Complement(Values(lin));
    forall w | w in Values(lg) ensures w in img {
      var i :| 0 <= i < |lg| && lg[i] == w;
      assert lin[|lin| - 1 - i] in Values(lin);
    }
    forall w | w in img ensures w in Values(lg) {
      var x :| x in Values(lin) && w == 1.0 - x;
      var j :| 0 <= j < |lin| && lin[j] == x;
      assert lg[|lin| - 1 - j] == w;
    }
  }

  // ---------------------------------------------------------------------
  // Ordering and frozen bits

  /** `p` is an admissible `np.argsort(c)`: a permutation of [0, N) along
      which the scores do not decrease.  The tie order is left open. */
  ghost predicate IsArgsort(c: seq<real>, p: seq<int>) {
    && TrackingSorter.IsPermutation(p, |c|)
    && (forall i, j :: 0 <= i < j < |p| ==> c[p[i]] <= c[p[j]])
  }

  /** `sortedChannels`: one admissible argsort, computed by the tracking
      sorter's insertion sort. */
  function SortedChannels(c: seq<real>): (p: seq<int>)
    ensures IsArgsort(c, p)
    ensures forall j :: 0 <= j < |c| ==> j in p
  {
    var l := TrackingSorter.Load(c);
    var s := TrackingSorter.InsertionSort(l);
    TrackingSorter.LoadTracks(c);
    TrackingSorter.InsertionSortSorts(l);
    TrackingSorter.TracksMeaning(c, s);
    Covered(c, l, s);
    TrackingSorter.Permuted(s)
  }

  /** Every original position survives a rearrangement of `set(c)`. */
  lemma Covered(c: seq<real>, l: seq<TrackingSorter.Entry>, s: seq<TrackingSorter.Entry>)
    requires l == TrackingSorter.Load(c) && multiset(s) == multiset(l)
    ensures forall j :: 0 <= j < |c| ==> j in TrackingSorter.Permuted(s)
  {
    forall j | 0 <= j < |c| ensures j in TrackingSorter.Permuted(s) {
      assert l[j] in multiset(l);
      var m :| 0 <= m < |s| && s[m] == l[j];
      assert TrackingSorter.Permuted(s)[m] == j;
    }
  }

  /** The end of the slice `[0:k]` on N entries: a k beyond N stops at N,
      a negative k counts from the end and stops at 0 at the latest. */
  function SliceEnd(k: int, n: nat): (e: nat)
    ensures e <= n
    ensures 0 <= k <= n ==> e == k
    ensures k > n ==> e == n
    ensures k < 0 ==> e == if n + k < 0 then 0 else n + k
  {
    if k < 0 then (if n + k < 0 then 0 else n + k)
    else if k <= n then k else n
  }

  /** `frozenBitPositions(c, k)`: the channels of the slice `[0:k]` of the
      order, so the least reliable ones, in increasing score. */
  function FrozenBitPositions(c: seq<real>, k: int): (f: seq<int>)
    ensures |f| == SliceEnd(k, |c|)
    ensures forall i, j :: 0 <= i < j < |f| ==> f[i] != f[j]
    ensures forall i :: 0 <= i < |f| ==> 0 <= f[i] < |c|
    ensures forall i, j :: 0 <= i < j < |f| ==> c[f[i]] <= c[f[j]]
    ensures forall i, j :: 0 <= i < |f| && 0 <= j < |c| && j !in f ==> c[f[i]] <= c[j]
  {
    var p := SortedChannels(c);
    var f := p[..SliceEnd(k, |c|)];
    forall i, j | 0 <= i < |f| && 0 <= j < |c| && j !in f
      ensures c[f[i]] <= c[j]
    {
      assert j in p;
      var m :| 0 <= m < |p| && p[m] == j;
      assert m >= |f|;
    }
    f
  }

  /** The frozen positions are a prefix of the channel order, and a
      larger count only extends it. */
  lemma FrozenIsOrderPrefix(c: seq<real>, k: int, k2: int)
    requires SliceEnd(k, |c|) <= SliceEnd(k2, |c|)
    ensures FrozenBitPositions(c, k) == SortedChannels(c)[..SliceEnd(k, |c|)]
    ensures FrozenBitPositions(c, k) <= FrozenBitPositions(c, k2)
  {
  }

  // ---------------------------------------------------------------------
  // Gaussian approximation

  /** The bit-node update `z[t*o1 + o2] = 2 * T`. */
  function BitNode(x: real): real {
    2.0 * x
  }

  /** The slots of level l, block t: the check-node write `t*o1` and the
      bit-node write `t*o1 + o2` are distinct, lie inside block t, and so
      inside the vector of length 2^m. */
  lemma GaSlots(m: nat, l: nat, t: nat)
    requires 1 <= l <= m && t < Pow2(l - 1)
    ensures var o1, o2 := Pow2(m - l + 1), Pow2(m - l);
      0 <= t * o1 < t * o1 + o2 < (t + 1) * o1 <= Pow2(m)
  {
    var o1, o2 := Pow2(m - l + 1), Pow2(m - l);
    assert o1 == 2 * o2;
    Pow2Add(l - 1, m - l + 1);
    MulMonotone(t + 1, Pow2(l - 1), o1);
    MulSucc(t, o1);
  }

  /** The content of position p after the levels 1..l of `_calculate_capacities_llr`:
      multiples of 2^(m-l) hold the level-l recursion, everything else the
      initial value. */
  ghost function LevelVal(init: real, check: real -> real, m: nat, l: nat, p: int): real
    requires l <= m && 0 <= p < Pow2(m)
  {
    var w := Pow2(m - l);
    Pow2Add(l, m - l);
    QuotientBound(p, w, Pow2(l));
    if p % w == 0 then Iterate(init, check, BitNode, l)[p / w] else init
  }

  lemma QuotientBound(p: int, w: nat, k: nat)
    requires 0 <= p < k * w && w >= 1
    ensures 0 <= p / w < k
  {
    DivModUnique(p, w, p / w, p % w);
    if p / w >= k {
      MulMonotone(k, p / w, w);
    }
  }

  /** Euclidean division of a natural number. */
  lemma DivMod(p: int, d: int)
    requires p >= 0 && d > 0
    ensures p == (p / d) * d + p % d && 0 <= p % d < d && 0 <= p / d
  {
  }

  /** Splitting a block of length 2*o2 into halves: a position in the
      first half is an even multiple of o2 plus its offset, one in the second
      half an odd multiple. */
  lemma HalfBlock(p: int, o2: nat, q: int, r: int)
    requires o2 >= 1 && 0 <= r < 2 * o2 && p == q * (2 * o2) + r
    ensures r < o2 ==> p / o2 == 2 * q && p % o2 == r
    ensures r >= o2 ==> p / o2 == 2 * q + 1 && p % o2 == r - o2
  {
    assert q * (2 * o2) == (2 * q) * o2;
    if r < o2 {
      DivModUnique(p, o2, 2 * q, r);
    } else {
      DivModUnique(p, o2, 2 * q + 1, r - o2);
    }
  }

  /** How one level changes position p: with o1 = 2^(m-l+1), the block
      start gets the check-node child, the block middle the bit-node child,
      and every other position keeps its value. */
  lemma LevelStep(init: real, check: real -> real, m: nat, l: nat, p: int)
    requires 1 <= l <= m && 0 <= p < Pow2(m)
    ensures var o1, o2, prev := Pow2(m - l + 1), Pow2(m - l), Iterate(init, check, BitNode, l - 1);
      && 0 <= p / o1 < |prev|
      && (p % o1 == 0 ==> LevelVal(init, check, m, l - 1, p) == prev[p / o1]
                          && LevelVal(init, check, m, l, p) == check(prev[p / o1]))
      && (p % o1 == o2 ==> LevelVal(init, check, m, l, p) == BitNode(prev[p / o1]))
      && (p % o1 != 0 && p % o1 != o2 ==> LevelVal(init, check, m, l, p) == LevelVal(init, check, m, l - 1, p))
  {
    var o1, o2 := Pow2(m - l + 1), Pow2(m - l);
    var q, r := p / o1, p % o1;
    assert o1 == 2 * o2 && 0 <= q < Pow2(l - 1) by {
      Pow2Add(l - 1, m - l + 1);
      QuotientBound(p, o1, Pow2(l - 1));
    }
    DivMod(p, o1);
    if r == 0 {
      assert p / o2 == 2 * q && p % o2 == 0 by {
        HalfBlock(p, o2, q, r);
      }
      LevelStart(init, check, m, l, p, q);
    } else if r == o2 {
      assert p / o2 == 2 * q + 1 && p % o2 == 0 by {
        HalfBlock(p, o2, q, r);
      }
      LevelMiddle(init, check, m, l, p, q);
    } else {
      assert p % o2 != 0 by {
        HalfBlock(p, o2, q, r);
      }
      LevelOther(init, check, m, l, p, q, r);
    }
  }

  lemma LevelStart(init: real, check: real -> real, m: nat, l: nat, p: int, q: int)
    requires 1 <= l <= m && 0 <= p < Pow2(m)
    requires 0 <= q < Pow2(l - 1)
    requires p / Pow2(m - l + 1) == q && p % Pow2(m - l + 1) == 0
    requires p / Pow2(m - l) == 2 * q && p % Pow2(m - l) == 0
    ensures var prev := Iterate(init, check, BitNode, l - 1);
      LevelVal(init, check, m, l - 1, p) == prev[q] && LevelVal(init, check, m, l, p) == check(prev[q])
  {
    var prev := Iterate(init, check, BitNode, l - 1);
    assert m - (l - 1) == m - l + 1;
    assert Iterate(init, check, BitNode, l) == Step(prev, check, BitNode);
    StepPair(prev, check, BitNode, q);
  }

  lemma LevelMiddle(init: real, check: real -> real, m: nat, l: nat, p: int, q: int)
    requires 1 <= l <= m && 0 <= p < Pow2(m)
    requires 0 <= q < Pow2(l - 1)
    requires p / Pow2(m - l) == 2 * q + 1 && p % Pow2(m - l) == 0
    ensures LevelVal(init, check, m, l, p) == BitNode(Iterate(init, check, BitNode, l - 1)[q])
  {
    var prev := Iterate(init, check, BitNode, l - 1);
    var cur := Iterate(init, check, BitNode, l);
    assert cur == Step(prev, check, BitNode);
    assert |prev| == Pow2(l - 1) && |cur| == 2 * Pow2(l - 1);
    StepPair(prev, check, BitNode, q);
    assert LevelVal(init, check, m, l, p) == cur[2 * q + 1];
  }

  lemma LevelOther(init: real, check: real -> real, m: nat, l: nat, p: int, q: int, r: int)
    requires 1 <= l <= m && 0 <= p < Pow2(m)
    requires p % Pow2(m - l + 1) == r && r != 0
    requires p % Pow2(m - l) != 0
    ensures LevelVal(init, check, m, l, p) == LevelVal(init, check, m, l - 1, p)
  {
    assert m - (l - 1) == m - l + 1;
  }

  /** Positions of block t: the check-node slot and the bit-node slot. */
  lemma SlotDivMod(t: nat, o2: nat)
    requires o2 >= 1
    ensures (t * (2 * o2)) / (2 * o2) == t && (t * (2 * o2)) % (2 * o2) == 0
    ensures (t * (2 * o2) + o2) / (2 * o2) == t && (t * (2 * o2) + o2) % (2 * o2) == o2
  {
    DivModUnique(t * (2 * o2), 2 * o2, t, 0);
    DivModUnique(t * (2 * o2) + o2, 2 * o2, t, o2);
  }

  /** Within level l, after the blocks t' < t are done: those blocks hold
      the level-l values, the others still the level-(l-1) values. */
  ghost function Midway(init: real, check: real -> real, m: nat, l: nat, t: nat, p: int): real
    requires 1 <= l <= m && 0 <= p < Pow2(m)
  {
    if p / Pow2(m - l + 1) < t then LevelVal(init, check, m, l, p) else LevelVal(init, check, m, l - 1, p)
  }

  /** The whole vector after levels 1..l. */
  ghost function LevelVec(init: real, check: real -> real, m: nat, l: nat): (r: seq<real>)
    requires l <= m
    ensures |r| == Pow2(m)
  {
    seq(Pow2(m), p requires 0 <= p < Pow2(m) => LevelVal(init, check, m, l, p))
  }

  /** The whole vector within level l once the blocks t' < t are done. */
  ghost function MidwayVec(init: real, check: real -> real, m: nat, l: nat, t: nat): (r: seq<real>)
    requires 1 <= l <= m
    ensures |r| == Pow2(m)
  {
    seq(Pow2(m), p requires 0 <= p < Pow2(m) => Midway(init, check, m, l, t, p))
  }

  /** The writes of one round: `T = z[a]`, then `z[a] = check(T)` and
      `z[a + o2] = 2T`; nothing else changes. */
  function Round(check: real -> real, z: seq<real>, a: nat, o2: nat): (r: seq<real>)
    requires a + o2 < |z| && o2 >= 1
    ensures |r| == |z|
  {
    z[a := check(z[a])][a + o2 := BitNode(z[a])]
  }

  /** The check-node slot gets the check-node child of the old value, the
      bit-node slot its double, and every other position is unchanged. */
  lemma RoundWrites(check: real -> real, z: seq<real>, a: nat, o2: nat)
    requires a + o2 < |z| && o2 >= 1
    ensures var r := Round(check, z, a, o2);
      && r[a] == check(z[a]) && r[a + o2] == BitNode(z[a])
      && forall p :: 0 <= p < |z| && p != a && p != a + o2 ==> r[p] == z[p]
  {
  }

  /** One round of the inner loop finishes block t: the check-node slot
      holds the level-(l-1) value of block t, and writing the two children
      moves the vector from t to t + 1 finished blocks. */
  lemma GaRound(init: real, check: real -> real, m: nat, l: nat, t: nat)
    requires 1 <= l <= m && t < Pow2(l - 1)
    ensures 0 <= t * Pow2(m - l + 1) && t * Pow2(m - l + 1) + Pow2(m - l) < Pow2(m)
    ensures MidwayVec(init, check, m, l, t)[t * Pow2(m - l + 1)] == Iterate(init, check, BitNode, l - 1)[t]
    ensures Round(check, MidwayVec(init, check, m, l, t), t * Pow2(m - l + 1), Pow2(m - l))
         == MidwayVec(init, check, m, l, t + 1)
  {
    var t1: nat := t + 1;
    var a: nat, o2: nat := t * Pow2(m - l + 1), Pow2(m - l);
    var z := MidwayVec(init, check, m, l, t);
    RoundSlots(init, check, m, l, t);
    var z' := Round(check, z, a, o2);
    var w := MidwayVec(init, check, m, l, t1);
    forall p | 0 <= p < |w| ensures z'[p] == w[p] {
      RoundAt(init, check, m, l, t, a, o2, p);
    }
  }

  /** Position p after the round of block t holds its value with t + 1
      blocks done. */
  lemma RoundAt(init: real, check: real -> real, m: nat, l: nat, t: nat, a: nat, o2: nat, p: nat)
    requires 1 <= l <= m && t < Pow2(l - 1) && p < Pow2(m)
    requires a == t * Pow2(m - l + 1) && o2 == Pow2(m - l) && a + o2 < Pow2(m)
    ensures Round(check, MidwayVec(init, check, m, l, t), a, o2)[p] == Midway(init, check, m, l, t + 1, p)
  {
    var z := MidwayVec(init, check, m, l, t);
    RoundWrites(check, z, a, o2);
    if p == a || p == a + o2 {
      RoundSlots(init, check, m, l, t);
    } else {
      RoundKeeps(init, check, m, l, t, p);
    }
  }

  /** The two slots of block t: before the round the check-node slot holds
      the level-(l-1) value of the block; after it the two slots hold its
      two children. */
  lemma RoundSlots(init: real, check: real -> real, m: nat, l: nat, t: nat)
    requires 1 <= l <= m && t < Pow2(l - 1)
    ensures var o1, o2, prev := Pow2(m - l + 1), Pow2(m - l), Iterate(init, check, BitNode, l - 1);
      && 0 <= t * o1 < t * o1 + o2 < Pow2(m)
      && t < |prev|
      && Midway(init, check, m, l, t, t * o1) == prev[t]
      && Midway(init, check, m, l, t + 1, t * o1) == check(prev[t])
      && Midway(init, check, m, l, t + 1, t * o1 + o2) == BitNode(prev[t])
  {
    var o1, o2 := Pow2(m - l + 1), Pow2(m - l);
    assert o1 == 2 * o2;
    GaSlots(m, l, t);
    SlotDivMod(t, o2);
    LevelStep(init, check, m, l, t * o1);
    LevelStep(init, check, m, l, t * o1 + o2);
  }

  /** Positions other than the two slots of block t keep their value. */
  lemma RoundKeeps(init: real, check: real -> real, m: nat, l: nat, t: nat, p: int)
    requires 1 <= l <= m && 0 <= p < Pow2(m)
    requires p != t * Pow2(m - l + 1) && p != t * Pow2(m - l + 1) + Pow2(m - l)
    ensures Midway(init, check, m, l, t + 1, p) == Midway(init, check, m, l, t, p)
  {
    var o1 := Pow2(m - l + 1);
    if p / o1 == t {
      DivMod(p, o1);
      assert p == t * o1 + p % o1;
      LevelStep(init, check, m, l, p);
    }
  }

  /** The start of level l: no block is done yet. */
  lemma GaLevelStart(init: real, check: real -> real, m: nat, l: nat)
    requires 1 <= l <= m
    ensures MidwayVec(init, check, m, l, 0) == LevelVec(init, check, m, l - 1)
  {
    var u, v := MidwayVec(init, check, m, l, 0), LevelVec(init, check, m, l - 1);
    forall p | 0 <= p < Pow2(m) ensures u[p] == v[p] {
      DivMod(p, Pow2(m - l + 1));
    }
  }

  /** The end of level l: every block is done. */
  lemma GaLevelDone(init: real, check: real -> real, m: nat, l: nat)
    requires 1 <= l <= m
    ensures MidwayVec(init, check, m, l, Pow2(l - 1)) == LevelVec(init, check, m, l)
  {
    var u, v := MidwayVec(init, check, m, l, Pow2(l - 1)), LevelVec(init, check, m, l);
    forall p | 0 <= p < Pow2(m) ensures u[p] == v[p] {
      Pow2Add(l - 1, m - l + 1);
      QuotientBound(p, Pow2(m - l + 1), Pow2(l - 1));
    }
  }

  /** Before level 1 every position holds the initial value. */
  lemma GaStart(init: real, check: real -> real, m: nat)
    ensures Filled(init, Pow2(m)) == LevelVec(init, check, m, 0)
  {
    var u, v := Filled(init, Pow2(m)), LevelVec(init, check, m, 0);
    forall p | 0 <= p < Pow2(m) ensures u[p] == v[p] {
      DivModUnique(p, Pow2(m), 0, p);
    }
  }

  /** After level m every position holds its value of the recursion. */
  lemma GaEnd(init: real, check: real -> real, m: nat)
    ensures LevelVec(init, check, m, m) == Iterate(init, check, BitNode, m)
  {
    var u, v := LevelVec(init, check, m, m), Iterate(init, check, BitNode, m);
    forall p | 0 <= p < Pow2(m) ensures u[p] == v[p] {
      DivModUnique(p, 1, p, 0);
    }
  }

  /** One pass `for t in range(2 ** (l - 1))` of level l. */
  method GaLevel(init: real, check: real -> real, m: nat, l: nat, z0: seq<real>) returns (z: seq<real>)
    requires 1 <= l <= m && z0 == LevelVec(init, check, m, l - 1)
    ensures z == LevelVec(init, check, m, l)
  {
    z := z0;
    var t := 0;
    GaLevelStart(init, check, m, l);
    while t < Pow2(l - 1)
      invariant t <= Pow2(l - 1)
      invariant z == MidwayVec(init, check, m, l, t)
    {
      GaRound(init, check, m, l, t);
      z := Round(check, z, t * Pow2(m - l + 1), Pow2(m - l));
      t := t + 1;
    }
    GaLevelDone(init, check, m, l);
  }

  /** `_calculate_capacities_llr` with the vector of length 2^m filled with
      `initial_val`.  The in-place schedule computes exactly the doubling
      recursion with the check-node update at even and bit-node doubling at
      odd indices. */
  method GaussianApproximation(init: real, m: nat, check: real -> real) returns (z: seq<real>)
    ensures z == Iterate(init, check, BitNode, m)
  {
    z := Filled(init, Pow2(m));
    GaStart(init, check, m);
    var l := 0;
    while l < m
      invariant l <= m
      invariant z == LevelVec(init, check, m, l)
    {
      z := GaLevel(init, check, m, l + 1, z);
      l := l + 1;
    }
    GaEnd(init, check, m);
  }
}

=== FILE: depth_first_manager.dfy ===
/** The manager of the depth-first decoder (`DepthFirstObjects::Manager`
    and `DepthFirst::decode` in depth_first.cpp).  After a decoding run
    every deciding node reports a reliability; the manager keeps a FIFO
    queue of configurations, each of which fixes the option of the
    `depth + 1` weakest nodes, and retries the next configuration until the
    error detector accepts the output or the trial limit is reached.

    The decoding run itself and the error detector are not modelled: the
    reliabilities a run leaves in the nodes, and whether the detector
    accepts its output, are inputs.  Nodes are named by their position in
    the manager's node list (the order of `pushDecoder`). */
module DepthFirstManager {
  import opened Seqs
  import opened Floats
  import opened Outcomes
  import TrackingSorter

  /** Every deciding node offers two options. */
  const OptionCount: nat := 2

  /** `DecoderHint`: a node and the reliability it reported. */
  datatype Hint = Hint(node: nat, rel: Mag)

  /** `Configuration`: the options of the first `depth + 1` nodes of
      `nodeList`, and the metric of the run that created it. */
  datatype Configuration = Configuration(depth: nat, parentMetric: Mag, nodeList: seq<Hint>, nodeOptions: seq<nat>)

  /** The manager's state between runs. */
  datatype Manager = Manager(queue: seq<Configuration>, best: Configuration, bestMetric: Mag)

  /** `hintList.at(depth + 1)` throws when the configuration already fixes
      every node. */
  datatype Error = OutOfRange

  // ---------------------------------------------------------------------
  // Node lists

  function Nodes(hints: seq<Hint>): (ns: seq<int>)
    ensures |ns| == |hints| && forall i :: 0 <= i < |hints| ==> ns[i] == hints[i].node
  {
    seq(|hints|, i requires 0 <= i < |hints| => hints[i].node)
  }

  /** Every one of the n deciding nodes appears exactly once. */
  predicate ListsEveryNode(hints: seq<Hint>, n: nat) {
    multiset(Nodes(hints)) == multiset(TrackingSorter.Range(n))
  }

  /** A value occurs at most once in 0, 1, ..., n-1. */
  lemma {:induction false} RangeOnce(n: nat, v: int)
    ensures multiset(TrackingSorter.Range(n))[v] <= 1
    ensures v in multiset(TrackingSorter.Range(n)) <==> 0 <= v < n
  {
    if n > 0 {
      var k: nat := n - 1;
      assert TrackingSorter.Range(n) == TrackingSorter.Range(k) + [k];
      RangeOnce(k, v);
    }
  }

  lemma TwiceIn<T>(s: seq<T>, i: int, j: int)
    requires 0 <= i < j < |s| && s[i] == s[j]
    ensures multiset(s)[s[i]] >= 2
  {
    assert s == s[..j] + s[j..];
    assert s[..j][i] == s[i];
    assert s[j..][0] == s[i];
  }

  /** A list naming every node once has n entries, each a node of the
      list, all different. */
  lemma EveryNodeOnce(hints: seq<Hint>, n: nat)
    requires ListsEveryNode(hints, n)
    ensures |hints| == n
    ensures forall i :: 0 <= i < |hints| ==> hints[i].node < n
    ensures forall i, j :: 0 <= i < j < |hints| ==> hints[i].node != hints[j].node
  {
    var ns := Nodes(hints);
    assert |multiset(ns)| == |multiset(TrackingSorter.Range(n))|;
    forall i | 0 <= i < |hints| ensures hints[i].node < n {
      assert ns[i] in multiset(ns);
      RangeOnce(n, ns[i]);
    }
    forall i, j | 0 <= i < j < |hints| ensures hints[i].node != hints[j].node {
      if ns[i] == ns[j] {
        TwiceIn(ns, i, j);
        RangeOnce(n, ns[i]);
      }
    }
  }

  /** The hint list of a run in `pushDecoder` order. */
  function Hints(rel: seq<Mag>): (hs: seq<Hint>)
    ensures |hs| == |rel| && forall i :: 0 <= i < |rel| ==> hs[i] == Hint(i, rel[i])
  {
    seq(|rel|, i requires 0 <= i < |rel| => Hint(i, rel[i]))
  }

  lemma HintsListEveryNode(rel: seq<Mag>)
    ensures ListsEveryNode(Hints(rel), |rel|)
  {
    assert Nodes(Hints(rel)) == TrackingSorter.Range(|rel|);
  }

  /** The same nodes with the reliabilities of the latest run. */
  function Refresh(hints: seq<Hint>, rel: seq<Mag>): (hs: seq<Hint>)
    requires forall i :: 0 <= i < |hints| ==> hints[i].node < |rel|
    ensures |hs| == |hints|
    ensures forall i :: 0 <= i < |hints| ==> hs[i] == Hint(hints[i].node, rel[hints[i].node])
  {
    seq(|hints|, i requires 0 <= i < |hints| => Hint(hints[i].node, rel[hints[i].node]))
  }

  // ---------------------------------------------------------------------
  // Sorting hints by reliability (`compareHints`)

  predicate Ascending(hs: seq<Hint>) {
    forall i, j :: 0 <= i < j < |hs| ==> MagLe(hs[i].rel, hs[j].rel)
  }

  /** `h` placed before the first strictly more reliable hint. */
  function InsertHint(s: seq<Hint>, h: Hint): (r: seq<Hint>)
    ensures |r| == |s| + 1
    ensures multiset(r) == multiset(s) + multiset{h}
  {
    if |s| == 0 then [h]
    else if MagLt(h.rel, s[0].rel) then [h] + s
    else
      assert s == [s[0]] + s[1..];
      [s[0]] + InsertHint(s[1..], h)
  }

  lemma {:induction false} InsertAscending(s: seq<Hint>, h: Hint)
    requires Ascending(s)
    ensures Ascending(InsertHint(s, h))
    decreases |s|
  {
    if |s| > 0 && !MagLt(h.rel, s[0].rel) {
      var t := InsertHint(s[1..], h);
      InsertAscending(s[1..], h);
      forall j | 0 <= j < |t| ensures MagLe(s[0].rel, t[j].rel) {
        assert t[j] in multiset(s[1..]) + multiset{h};
        if t[j] != h {
          var k :| 0 <= k < |s[1..]| && s[1..][k] == t[j];
          assert s[k + 1] == t[j];
        }
      }
    }
  }

  /** `std::sort(first, last, compareHints)`.  The standard leaves the
      order of equal reliabilities open; insertion sort keeps them in
      list order. */
  function SortHints(hs: seq<Hint>): (r: seq<Hint>)
    ensures |r| == |hs|
    ensures multiset(r) == multiset(hs)
  {
    if |hs| == 0 then []
    else
      var k: nat := |hs| - 1;
      assert hs == hs[..k] + [hs[k]];
      InsertHint(SortHints(hs[..k]), hs[k])
  }

  /** The last element of `a` occurs in a rearrangement `b`; taking it
      out of both leaves rearrangements of each other. */
  lemma MatchLast<T>(a: seq<T>, b: seq<T>) returns (k: nat)
    requires |a| > 0 && multiset(a) == multiset(b)
    ensures k < |b| && b[k] == a[|a| - 1]
    ensures multiset(a[..|a| - 1]) == multiset(b[..k] + b[k + 1..])
  {
    var last := |a| - 1;
    var x := a[last];
    assert a == a[..last] + [x];
    assert x in multiset(b);
    k :| 0 <= k < |b| && b[k] == x;
    assert b == b[..k] + [x] + b[k + 1..];
    assert multiset(a[..last]) == multiset(a) - multiset{x};
    assert multiset(b[..k] + b[k + 1..]) == multiset(b) - multiset{x};
  }

  /** The nodes of a list with one entry taken out. */
  lemma NodesRemove(b: seq<Hint>, k: nat)
    requires k < |b|
    ensures multiset(Nodes(b)) == multiset(Nodes(b[..k] + b[k + 1..])) + multiset{b[k].node}
  {
    assert Nodes(b) == Nodes(b[..k]) + [b[k].node] + Nodes(b[k + 1..]);
    assert Nodes(b[..k] + b[k + 1..]) == Nodes(b[..k]) + Nodes(b[k + 1..]);
  }

  /** Rearranging hints rearranges their nodes. */
  lemma {:induction false} NodesPermutation(a: seq<Hint>, b: seq<Hint>)
    requires multiset(a) == multiset(b)
    ensures multiset(Nodes(a)) == multiset(Nodes(b))
    decreases |a|
  {
    if |a| > 0 {
      var last: nat := |a| - 1;
      var k := MatchLast(a, b);
      NodesPermutation(a[..last], b[..k] + b[k + 1..]);
      NodesRemove(a, last);
      NodesRemove(b, k);
      assert a[..last] + a[last + 1..] == a[..last];
    }
  }

  lemma {:induction false} SortHintsAscending(hs: seq<Hint>)
    ensures Ascending(SortHints(hs))
  {
    if |hs| > 0 {
      var k: nat := |hs| - 1;
      var init := SortHints(hs[..k]);
      SortHintsAscending(hs[..k]);
      InsertAscending(init, hs[k]);
      assert SortHints(hs) == InsertHint(init, hs[k]);
    }
  }

  // ---------------------------------------------------------------------
  // Metrics

  /** Float addition of non-negative values, exact. */
  function MagAdd(a: Mag, b: Mag): (s: Mag)
    ensures MagLe(a, s) && MagLe(b, s)
    ensures s == Inf <==> a == Inf || b == Inf
  {
    match (a, b)
    case (Fin(x), Fin(y)) => Fin(x + y)
    case _ => Inf
  }

  /** The reliabilities of `nodes` summed in list order from 0. */
  function Total(rel: seq<Mag>, nodes: seq<int>): Mag
    requires forall i :: 0 <= i < |nodes| ==> 0 <= nodes[i] < |rel|
  {
    if |nodes| == 0 then Fin(0.0)
    else MagAdd(Total(rel, nodes[..|nodes| - 1]), rel[nodes[|nodes| - 1]])
  }

  lemma MagAddSwap(t: Mag, a: Mag, b: Mag)
    ensures MagAdd(MagAdd(t, a), b) == MagAdd(MagAdd(t, b), a)
  {
  }

  /** Taking one node out of the sum and adding it at the end. */
  lemma {:induction false} TotalRemove(rel: seq<Mag>, nodes: seq<int>, k: nat)
    requires forall i :: 0 <= i < |nodes| ==> 0 <= nodes[i] < |rel|
    requires k < |nodes|
    ensures Total(rel, nodes) == MagAdd(Total(rel, nodes[..k] + nodes[k + 1..]), rel[nodes[k]])
  {
    var last: nat := |nodes| - 1;
    if k < last {
      var init := nodes[..last];
      TotalRemove(rel, init, k);
      var w, w' := nodes[..k] + nodes[k + 1..], init[..k] + init[k + 1..];
      assert w[..|w| - 1] == w' && w[|w| - 1] == nodes[last];
      assert Total(rel, w) == MagAdd(Total(rel, w'), rel[nodes[last]]);
      MagAddSwap(Total(rel, w'), rel[nodes[k]], rel[nodes[last]]);
    } else {
      assert nodes[..k] + nodes[k + 1..] == nodes[..last];
    }
  }

  /** The sum does not depend on the order of the nodes. */
  lemma {:induction false} TotalPermutation(rel: seq<Mag>, a: seq<int>, b: seq<int>)
    requires forall i :: 0 <= i < |a| ==> 0 <= a[i] < |rel|
    requires multiset(a) == multiset(b)
    ensures forall i :: 0 <= i < |b| ==> 0 <= b[i] < |rel|
    ensures Total(rel, a) == Total(rel, b)
    decreases |a|
  {
    forall i | 0 <= i < |b| ensures 0 <= b[i] < |rel| {
      assert b[i] in multiset(a);
    }
    if |a| > 0 {
      var last: nat := |a| - 1;
      var k := MatchLast(a, b);
      TotalPermutation(rel, a[..last], b[..k] + b[k + 1..]);
      TotalRemove(rel, b, k);
    }
  }

  // ---------------------------------------------------------------------
  // Configurations and the manager's invariant

  predicate ConfigOk(c: Configuration, n: nat) {
    && c.depth < |c.nodeList| == n
    && (forall i :: 0 <= i < n ==> c.nodeList[i].node < n)
    && |c.nodeOptions| == c.depth + 1
    && (forall i :: 0 <= i < |c.nodeOptions| ==> c.nodeOptions[i] < OptionCount)
    && ListsEveryNode(c.nodeList, n)
  }

  /** The queue is worked through level by level: depths never decrease
      along it and span at most two adjacent levels. */
  predicate BreadthFirst(q: seq<Configuration>) {
    forall i, j :: 0 <= i < j < |q| ==> q[i].depth <= q[j].depth <= q[i].depth + 1
  }

  predicate Valid(m: Manager, n: nat) {
    && |m.queue| >= 1
    && (forall i :: 0 <= i < |m.queue| ==> ConfigOk(m.queue[i], n))
    && ConfigOk(m.best, n)
    && BreadthFirst(m.queue)
  }

  /** The options every node decodes with once `c` is applied: each node
      reset its option after the previous run, then `setOption` is called
      for the first `depth + 1` listed nodes. */
  function Apply(c: Configuration, n: nat, upto: nat): (opts: seq<nat>)
    requires ConfigOk(c, n) && upto <= c.depth + 1
    ensures |opts| == n
  {
    EveryNodeOnce(c.nodeList, n);
    if upto == 0 then Filled(0, n)
    else Apply(c, n, upto - 1)[c.nodeList[upto - 1].node := c.nodeOptions[upto - 1]]
  }

  function Assignment(c: Configuration, n: nat): (opts: seq<nat>)
    requires ConfigOk(c, n)
    ensures |opts| == n
  {
    Apply(c, n, c.depth + 1)
  }

  /** Applying a configuration sets each of its first `depth + 1` nodes to
      its option and leaves every other node at option 0. */
  lemma {:induction false} ApplyMeaning(c: Configuration, n: nat, upto: nat)
    requires ConfigOk(c, n) && upto <= c.depth + 1
    ensures forall i :: 0 <= i < upto ==> Apply(c, n, upto)[c.nodeList[i].node] == c.nodeOptions[i]
    ensures forall v :: 0 <= v < n && (forall i :: 0 <= i < upto ==> c.nodeList[i].node != v) ==> Apply(c, n, upto)[v] == 0
  {
    EveryNodeOnce(c.nodeList, n);
    if upto > 0 {
      ApplyMeaning(c, n, upto - 1);
    }
  }

  // ---------------------------------------------------------------------
  // The manager's operations

  /** One configuration per option of the node at position `depth`: each
      keeps the options `prefix` chosen for the nodes before it and adds
      its own. */
  function Fanout(depth: nat, metric: Mag, list: seq<Hint>, prefix: seq<nat>): (cs: seq<Configuration>)
    ensures |cs| == OptionCount
    ensures forall i :: 0 <= i < OptionCount ==> cs[i] == Configuration(depth, metric, list, prefix + [i])
  {
    seq(OptionCount, i requires 0 <= i < OptionCount => Configuration(depth, metric, list, prefix + [i]))
  }

  /** `Manager::decode` after the first run: all nodes' reliabilities are
      summed into the metric and sorted, and one configuration per option
      of the weakest node is queued.  The first configuration (option 0)
      is the run just made and becomes the best so far.  The source reads
      `hintList[0]`, so there is at least one deciding node. */
  function InitialDecode(rel: seq<Mag>): (m: Manager)
    requires |rel| >= 1
    ensures |m.queue| == OptionCount && m.best == m.queue[0]
  {
    var hints := Hints(rel);
    var metric := Total(rel, Nodes(hints));
    var configs := Fanout(0, metric, SortHints(hints), []);
    Manager(configs, configs[0], metric)
  }

  /** The first configurations are well formed, fix the weakest node with
      each option in turn, list the nodes in order of reliability, and the
      best metric is the total reliability. */
  lemma InitialDecodeValid(rel: seq<Mag>)
    requires |rel| >= 1
    ensures var m := InitialDecode(rel);
      && Valid(m, |rel|)
      && m.bestMetric == Total(rel, TrackingSorter.Range(|rel|))
      && (forall i :: 0 <= i < OptionCount ==> m.queue[i].depth == 0 && m.queue[i].nodeOptions == [i])
      && (forall i :: 0 <= i < OptionCount ==> Ascending(m.queue[i].nodeList))
  {
    var n := |rel|;
    var sorted := SortHints(Hints(rel));
    SortedHintsOk(rel);
    var metric := Total(rel, TrackingSorter.Range(n));
    InitialQueue(rel);
    FanoutOk(0, metric, sorted, [], n);
    forall i | 0 <= i < OptionCount ensures InitialDecode(rel).queue[i].nodeOptions == [i] {
      assert [] + [i] == [i];
    }
  }

  /** The first queue fans out over the sorted hints, and its metric is the
      total reliability of all nodes. */
  lemma InitialQueue(rel: seq<Mag>)
    requires |rel| >= 1
    ensures var m := InitialDecode(rel);
      && m.queue == Fanout(0, Total(rel, TrackingSorter.Range(|rel|)), SortHints(Hints(rel)), [])
      && m.bestMetric == Total(rel, TrackingSorter.Range(|rel|))
  {
    assert Nodes(Hints(rel)) == TrackingSorter.Range(|rel|);
  }

  /** The configurations fanned out from a well-formed list and option
      prefix are well formed and all at one depth. */
  lemma FanoutOk(depth: nat, metric: Mag, list: seq<Hint>, prefix: seq<nat>, n: nat)
    requires depth < |list| == n && |prefix| == depth
    requires forall i :: 0 <= i < n ==> list[i].node < n
    requires forall i :: 0 <= i < |prefix| ==> prefix[i] < OptionCount
    requires ListsEveryNode(list, n)
    ensures var cs := Fanout(depth, metric, list, prefix);
      && (forall i :: 0 <= i < |cs| ==> ConfigOk(cs[i], n) && cs[i].depth == depth)
      && BreadthFirst(cs)
  {
    var cs := Fanout(depth, metric, list, prefix);
    forall i | 0 <= i < |cs| ensures ConfigOk(cs[i], n) {
      var opts := prefix + [i];
      assert forall k :: 0 <= k < |opts| ==> opts[k] < OptionCount;
    }
  }

  /** The sorted first hint list names every node once, in ascending
      order of reliability. */
  lemma SortedHintsOk(rel: seq<Mag>)
    ensures var sorted := SortHints(Hints(rel));
      && ListsEveryNode(sorted, |rel|)
      && Ascending(sorted)
      && forall i :: 0 <= i < |rel| ==> sorted[i].node < |rel|
  {
    var hints := Hints(rel);
    var sorted := SortHints(hints);
    HintsListEveryNode(rel);
    SortHintsAscending(hints);
    NodesPermutation(hints, sorted);
    EveryNodeOnce(sorted, |rel|);
  }

  /** The first configuration decodes every node with option 0, as the
      first run did. */
  lemma InitialAssignment(rel: seq<Mag>)
    requires |rel| >= 1
    ensures ConfigOk(InitialDecode(rel).best, |rel|)
    ensures Assignment(InitialDecode(rel).best, |rel|) == Filled(0, |rel|)
  {
    InitialDecodeValid(rel);
    var m := InitialDecode(rel);
    assert m.best == m.queue[0];
    FirstOptionsZero(m.best, |rel|);
  }

  /** A configuration that fixes only its first node, with option 0,
      leaves every node at option 0. */
  lemma FirstOptionsZero(c: Configuration, n: nat)
    requires ConfigOk(c, n) && c.depth == 0 && c.nodeOptions == [0]
    ensures Assignment(c, n) == Filled(0, n)
  {
    var z := Filled(0, n);
    var k := c.nodeList[0].node;
    assert Apply(c, n, 1) == Apply(c, n, 0)[k := 0];
    assert z[k := 0] == z;
  }

  /** `Manager::decodeNext` given the reliabilities of the run that decoded
      the front configuration: that configuration is popped; its nodes'
      reliabilities are refreshed and summed; the nodes it does not fix are
      re-sorted; one child per option of the next weakest node is queued;
      the popped configuration becomes the best if its metric is strictly
      greater.  The next run decodes the new front of the queue. */
  function DecodeNext(m: Manager, rel: seq<Mag>): (r: Result<Manager, Error>)
    requires Valid(m, |rel|)
    ensures r.Success? <==> m.queue[0].depth + 1 < |rel|
  {
    var cur := m.queue[0];
    EveryNodeOnce(cur.nodeList, |rel|);
    var d := cur.depth;
    var metric := Total(rel, Nodes(cur.nodeList));
    var resorted := Resorted(cur, rel);
    if d + 1 >= |resorted| then Failure(OutOfRange)
    else Success(Advance(m, metric, resorted))
  }

  /** Pop the front configuration, queue its children built on `list`, and
      keep the better of the old best and the popped one. */
  function Advance(m: Manager, metric: Mag, list: seq<Hint>): (m': Manager)
    requires |m.queue| >= 1
    ensures var cur := m.queue[0];
      m'.queue == m.queue[1..] + Fanout(cur.depth + 1, metric, list, cur.nodeOptions)
    ensures MagLt(m.bestMetric, metric) ==> m'.best == m.queue[0] && m'.bestMetric == metric
    ensures !MagLt(m.bestMetric, metric) ==> m'.best == m.best && m'.bestMetric == m.bestMetric
  {
    var cur := m.queue[0];
    var queue := m.queue[1..] + Fanout(cur.depth + 1, metric, list, cur.nodeOptions);
    if MagLt(m.bestMetric, metric) then Manager(queue, cur, metric)
    else Manager(queue, m.best, m.bestMetric)
  }

  /** The list `decodeNext` builds: the fixed nodes in place, with fresh
      reliabilities, followed by the others sorted. */
  function Resorted(cur: Configuration, rel: seq<Mag>): (hs: seq<Hint>)
    requires ConfigOk(cur, |rel|)
    ensures |hs| == |rel|
  {
    var d := cur.depth;
    var hints := Refresh(cur.nodeList, rel);
    hints[..d + 1] + SortHints(hints[d + 1..])
  }

  lemma NodesConcat(a: seq<Hint>, b: seq<Hint>)
    ensures Nodes(a + b) == Nodes(a) + Nodes(b)
  {
  }

  /** Sorting the entries behind position d rearranges the nodes and keeps
      the first d in place. */
  lemma SortTailNodes(h: seq<Hint>, d: nat)
    requires d <= |h|
    ensures multiset(Nodes(h[..d] + SortHints(h[d..]))) == multiset(Nodes(h))
    ensures Nodes((h[..d] + SortHints(h[d..]))[..d]) == Nodes(h[..d])
  {
    var head, rest := h[..d], h[d..];
    var tail := SortHints(rest);
    NodesPermutation(rest, tail);
    assert h == head + rest;
    NodesConcat(head, rest);
    NodesConcat(head, tail);
    assert (head + tail)[..d] == head;
  }

  lemma RefreshNodes(hints: seq<Hint>, rel: seq<Mag>)
    requires forall i :: 0 <= i < |hints| ==> hints[i].node < |rel|
    ensures Nodes(Refresh(hints, rel)) == Nodes(hints)
  {
  }

  /** The re-sorted list holds every node once and keeps the nodes already
      fixed in place. */
  lemma ResortedNodes(cur: Configuration, rel: seq<Mag>)
    requires ConfigOk(cur, |rel|)
    ensures ListsEveryNode(Resorted(cur, rel), |rel|)
    ensures Nodes(Resorted(cur, rel)[..cur.depth + 1]) == Nodes(cur.nodeList[..cur.depth + 1])
  {
    var d := cur.depth;
    var hints := Refresh(cur.nodeList, rel);
    var list := hints[..d + 1] + SortHints(hints[d + 1..]);
    assert Resorted(cur, rel) == list;
    SortTailNodes(hints, d + 1);
    RefreshNodes(cur.nodeList, rel);
    assert multiset(Nodes(list)) == multiset(Nodes(cur.nodeList));
    assert Nodes(hints[..d + 1]) == Nodes(cur.nodeList[..d + 1]);
  }

  /** Every entry names a node and carries that node's reliability in
      `rel`. */
  predicate Current(hs: seq<Hint>, rel: seq<Mag>) {
    forall k :: 0 <= k < |hs| ==> 0 <= hs[k].node < |rel| && hs[k].rel == rel[hs[k].node]
  }

  /** Sorting keeps the entries, so it keeps them current. */
  lemma SortCurrent(hs: seq<Hint>, rel: seq<Mag>)
    requires Current(hs, rel)
    ensures Current(SortHints(hs), rel)
  {
    var sorted := SortHints(hs);
    forall k | 0 <= k < |sorted| ensures 0 <= sorted[k].node < |rel| && sorted[k].rel == rel[sorted[k].node] {
      assert sorted[k] in multiset(hs);
    }
  }

  /** Behind the fixed nodes the re-sorted list is ascending, and every
      entry carries the reliability of the latest run. */
  lemma ResortedOrder(cur: Configuration, rel: seq<Mag>)
    requires ConfigOk(cur, |rel|)
    ensures Ascending(Resorted(cur, rel)[cur.depth + 1..])
    ensures Current(Resorted(cur, rel), rel)
  {
    var d := cur.depth;
    var hints := Refresh(cur.nodeList, rel);
    var head, rest := hints[..d + 1], hints[d + 1..];
    var tail := SortHints(rest);
    assert Resorted(cur, rel) == head + tail;
    SortHintsAscending(rest);
    assert (head + tail)[d + 1..] == tail;
    assert Current(rest, rel);
    SortCurrent(rest, rel);
  }

  /** A successful step keeps the invariant: the queue stays non-empty and
      breadth-first, and every configuration stays well formed. */
  lemma DecodeNextValid(m: Manager, rel: seq<Mag>)
    requires Valid(m, |rel|)
    ensures DecodeNext(m, rel).Success? ==> Valid(DecodeNext(m, rel).value, |rel|)
  {
    var cur := m.queue[0];
    var r := DecodeNext(m, rel);
    if r.Success? {
      var list := Resorted(cur, rel);
      var metric := Total(rel, Nodes(cur.nodeList));
      var cs := Fanout(cur.depth + 1, metric, list, cur.nodeOptions);
      assert r.value.queue == m.queue[1..] + cs && (r.value.best == cur || r.value.best == m.best) by {
        DecodeNextAdvances(m, rel);
      }
      assert forall i :: 0 <= i < |cs| ==> ConfigOk(cs[i], |rel|) && cs[i].depth == cur.depth + 1 by {
        ResortedNodes(cur, rel);
        EveryNodeOnce(list, |rel|);
        FanoutOk(cur.depth + 1, metric, list, cur.nodeOptions, |rel|);
      }
      QueuePush(m.queue, cs, |rel|);
    }
  }

  /** Popping the front and queueing configurations one level deeper keeps
      the queue well formed and breadth-first. */
  lemma QueuePush(q: seq<Configuration>, cs: seq<Configuration>, n: nat)
    requires |q| >= 1 && |cs| >= 1 && BreadthFirst(q)
    requires forall i :: 0 <= i < |q| ==> ConfigOk(q[i], n)
    requires forall i :: 0 <= i < |cs| ==> ConfigOk(cs[i], n) && cs[i].depth == q[0].depth + 1
    ensures var q' := q[1..] + cs;
      && |q'| >= 1 && BreadthFirst(q')
      && forall i :: 0 <= i < |q'| ==> ConfigOk(q'[i], n)
  {
    var q' := q[1..] + cs;
    forall i | 0 <= i < |q'| ensures ConfigOk(q'[i], n) && q[0].depth <= q'[i].depth <= q[0].depth + 1 {
      if i < |q| - 1 {
        assert q'[i] == q[i + 1];
      } else {
        assert q'[i] == cs[i - |q| + 1];
      }
    }
    forall i, j | 0 <= i < j < |q'| ensures q'[i].depth <= q'[j].depth <= q'[i].depth + 1 {
      if j < |q| - 1 {
        assert q'[i] == q[i + 1] && q'[j] == q[j + 1];
      } else if i >= |q| - 1 {
        assert q'[i].depth == q'[j].depth;
      }
    }
  }

  /** The children of the popped configuration fix one more node, the least
      reliable of those not fixed yet, with every option in turn; they keep
      the popped configuration's fixed nodes and options and carry the
      metric of its run, which is the total reliability of all nodes. */
  lemma DecodeNextChildren(m: Manager, rel: seq<Mag>)
    requires Valid(m, |rel|)
    ensures var r, cur := DecodeNext(m, rel), m.queue[0];
      r.Success? ==>
        r.value.queue == m.queue[1..] + Fanout(cur.depth + 1, Total(rel, TrackingSorter.Range(|rel|)), Resorted(cur, rel), cur.nodeOptions)
  {
    var cur := m.queue[0];
    DecodeNextAdvances(m, rel);
    RunMetric(cur, rel);
  }

  /** A successful step is `Advance` with the run's metric and the
      re-sorted list. */
  lemma DecodeNextAdvances(m: Manager, rel: seq<Mag>)
    requires Valid(m, |rel|)
    ensures var r, cur := DecodeNext(m, rel), m.queue[0];
      r.Success? ==> r.value == Advance(m, Total(rel, Nodes(cur.nodeList)), Resorted(cur, rel))
  {
  }

  /** The metric of a run is the total reliability of all nodes, whatever
      order the configuration lists them in. */
  lemma RunMetric(c: Configuration, rel: seq<Mag>)
    requires ConfigOk(c, |rel|)
    ensures Total(rel, Nodes(c.nodeList)) == Total(rel, TrackingSorter.Range(|rel|))
  {
    EveryNodeOnce(c.nodeList, |rel|);
    TotalPermutation(rel, Nodes(c.nodeList), TrackingSorter.Range(|rel|));
  }

  /** The node the children fix is a least reliable one among those not
      fixed before. */
  lemma WeakestNext(cur: Configuration, rel: seq<Mag>)
    requires ConfigOk(cur, |rel|) && cur.depth + 1 < |rel|
    ensures var list, d := Resorted(cur, rel), cur.depth;
      forall k :: d + 1 <= k < |rel| ==> MagLe(list[d + 1].rel, list[k].rel)
  {
    var d := cur.depth;
    var list := Resorted(cur, rel);
    var tail := list[d + 1..];
    ResortedOrder(cur, rel);
    assert Ascending(tail);
    forall k | d + 1 <= k < |rel| ensures MagLe(list[d + 1].rel, list[k].rel) {
      assert list[d + 1] == tail[0] && list[k] == tail[k - d - 1];
    }
  }

  /** The best configuration changes only to the popped one, and only for
      a strictly greater metric; so the best metric never decreases and is
      at least the metric of the run just made. */
  lemma DecodeNextBest(m: Manager, rel: seq<Mag>)
    requires Valid(m, |rel|)
    ensures var r, metric := DecodeNext(m, rel), Total(rel, Nodes(m.queue[0].nodeList));
      r.Success? ==>
        && MagLe(m.bestMetric, r.value.bestMetric)
        && MagLe(metric, r.value.bestMetric)
        && (MagLt(m.bestMetric, metric) ==> r.value.best == m.queue[0] && r.value.bestMetric == metric)
        && (!MagLt(m.bestMetric, metric) ==> r.value.best == m.best && r.value.bestMetric == m.bestMetric)
  {
    DecodeNextAdvances(m, rel);
  }

  // ---------------------------------------------------------------------
  // The trial loop

  /** What one decoding run leaves behind: the reliability of every
      deciding node and the error detector's verdict on the output. */
  datatype Run = Run(rel: seq<Mag>, passed: bool)

  /** The result of `DepthFirst::decode`: whether the detector accepted an
      output, how many runs were made, the options each run decoded with,
      and the options of the final re-decode of the best configuration, if
      there was one. */
  datatype Outcome = Outcome(success: bool, runs: nat, applied: seq<seq<nat>>, restored: Option<seq<nat>>)

  /** The first run and `Manager::decode`: the options it decoded with are
      those of the first configuration, all 0. */
  method Start(rel: seq<Mag>) returns (m: Manager, first: seq<nat>)
    requires |rel| >= 1
    ensures Valid(m, |rel|) && m.best == m.queue[0]
    ensures m.bestMetric == RunTotal(rel)
    ensures first == Assignment(m.queue[0], |rel|) == Filled(0, |rel|)
  {
    m := InitialDecode(rel);
    InitialDecodeValid(rel);
    InitialAssignment(rel);
    first := Assignment(m.queue[0], |rel|);
  }

  /** The metric of a run: the total reliability of all deciding nodes. */
  function RunTotal(rel: seq<Mag>): Mag {
    Total(rel, TrackingSorter.Range(|rel|))
  }

  /** One `decodeNext` call inside the trial loop: the configuration the
      last run decoded replaces the best exactly when that run's metric is
      strictly greater. */
  method Retry(m: Manager, rel: seq<Mag>) returns (r: Result<Manager, Error>)
    requires Valid(m, |rel|)
    ensures r.Success? <==> m.queue[0].depth + 1 < |rel|
    ensures r.Success? ==> Valid(r.value, |rel|)
    ensures r.Success? && MagLt(m.bestMetric, RunTotal(rel)) ==>
      r.value.best == m.queue[0] && r.value.bestMetric == RunTotal(rel)
    ensures r.Success? && !MagLt(m.bestMetric, RunTotal(rel)) ==>
      r.value.best == m.best && r.value.bestMetric == m.bestMetric
  {
    r := DecodeNext(m, rel);
    DecodeNextValid(m, rel);
    DecodeNextBest(m, rel);
    RunMetric(m.queue[0], rel);
  }

  /** Run b is the first of runs 0 .. count - 1 with the greatest metric. */
  predicate FirstBest(trials: seq<Run>, count: nat, b: nat)
    requires count <= |trials|
  {
    && b < count
    && (forall k :: 0 <= k < count ==> MagLe(RunTotal(trials[k].rel), RunTotal(trials[b].rel)))
    && (forall k :: 0 <= k < b ==> MagLt(RunTotal(trials[k].rel), RunTotal(trials[b].rel)))
  }

  /** Comparing run j, strictly, with the best of the runs before it keeps
      the first best of the runs up to j. */
  lemma FirstBestStep(trials: seq<Run>, count: nat, b: nat, j: nat)
    requires j < |trials| && (count == j || count == j + 1) && FirstBest(trials, count, b)
    ensures var best, metric := RunTotal(trials[b].rel), RunTotal(trials[j].rel);
      FirstBest(trials, j + 1, if MagLt(best, metric) then j else b)
  {
  }

  /** `DepthFirst::decode` for a systematic code.  `trials[k]` is what run
      k + 1 yields; only the runs the loop makes are looked at.  When every
      run fails, the options re-applied are those of the first run with the
      greatest metric among all runs but the last: the last run is never
      handed to `decodeNext`, so its metric is never compared. */
  method Decode(trials: seq<Run>, trialLimit: nat) returns (r: Result<Outcome, Error>)
    requires |trials| >= 1 && trialLimit <= |trials|
    requires |trials[0].rel| >= 1
    requires forall k :: 0 <= k < |trials| ==> |trials[k].rel| == |trials[0].rel|
    ensures r.Success? ==>
      var o := r.value;
      && 1 <= o.runs <= |trials| && (o.runs == 1 || o.runs <= trialLimit)
      && |o.applied| == o.runs
      && o.applied[0] == Filled(0, |trials[0].rel|)
      && (o.success <==> trials[o.runs - 1].passed)
      && (forall k :: 0 <= k < o.runs - 1 ==> !trials[k].passed)
      && (!o.success ==> o.runs == 1 || o.runs == trialLimit)
      && (!o.success && trialLimit > 1 ==> o.runs == trialLimit)
      && (o.restored.Some? <==> !o.success && trialLimit > 1)
      && (o.restored.Some? ==>
            o.runs >= 2 && exists b: nat :: FirstBest(trials, o.runs - 1, b) && o.restored.value == o.applied[b])
  {
    var n := |trials[0].rel|;
    var m, first := Start(trials[0].rel);
    var run := 1;
    var applied := [first];
    ghost var bestRun := 0;
    ghost var compared := 1;
    var success := trials[0].passed;
    while !success && run < trialLimit
      invariant 1 <= run <= |trials| && (run == 1 || run <= trialLimit)
      invariant Valid(m, n)
      invariant |applied| == run && applied[0] == Filled(0, n)
      invariant applied[run - 1] == Assignment(m.queue[0], n)
      invariant 1 <= compared <= run && (run > 1 ==> compared == run - 1)
      invariant FirstBest(trials, compared, bestRun)
      invariant m.bestMetric == RunTotal(trials[bestRun].rel)
      invariant applied[bestRun] == Assignment(m.best, n)
      invariant success == trials[run - 1].passed
      invariant forall k :: 0 <= k < run - 1 ==> !trials[k].passed
    {
      var next := Retry(m, trials[run - 1].rel);
      if next.Failure? {
        return Failure(next.error);
      }
      var m' := next.value;
      FirstBestStep(trials, compared, bestRun, run - 1);
      bestRun := if MagLt(m.bestMetric, RunTotal(trials[run - 1].rel)) then run - 1 else bestRun;
      compared := run;
      assert forall k :: 0 <= k < run ==> !trials[k].passed;
      m := m';
      applied := applied + [Assignment(m.queue[0], n)];
      run := run + 1;
      success := trials[run - 1].passed;
    }
    var restored := None;
    if !success && trialLimit > 1 {
      restored := Some(Assignment(m.best, n));
      assert applied[bestRun] == restored.value;
    }
    r := Success(Outcome(success, run, applied, restored));
  }
}

=== FILE: depth_first_nodes.dfy ===
/** The decoder tree and the special nodes of the depth-first list decoder
    (DepthFirst in depth_first.cpp).  Every node that decides bits (rate-1,
    repetition, single parity check) registers itself with the manager and
    offers two options: option 0 is the plain successive-cancellation
    decision, option 1 the most likely alternative.  A node reports how
    reliable its plain decision is, decides with its current option, and
    then resets the option to 0. */
module DepthFirstNodes {
  import opened Seqs
  import opened Powers
  import opened Floats
  import opened Parities
  import opened InfoBits
  import opened PolarNodes
  import FastSscNodes
  import FastSscTree
  import TrackingSorter

  // ---------------------------------------------------------------------
  // The decoder tree

  /** The node classes `createDecoder` can return. */
  datatype Decoder =
    | RateZero(len: nat)
    | RateOne(len: nat)
    | Repetition(len: nat)
    | Spc(len: nat)
    | ShortRateR(len: nat, left: Decoder, right: Decoder)
    | RateR(len: nat, left: Decoder, right: Decoder)

  /** `createDecoder(frozenBits, parent)` for a block of 2^n positions: all
      frozen, none frozen, all but one frozen, exactly one frozen, and
      otherwise a split into halves, short for blocks of at most 8. */
  function CreateDecoder(frozen: seq<bool>, n: nat): (d: Decoder)
    requires |frozen| == Pow2(n)
    ensures d.len == |frozen|
    decreases n
  {
    var len, c := |frozen|, Count(frozen);
    if c == len then RateZero(len)
    else if c == 0 then RateOne(len)
    else if c == len - 1 then Repetition(len)
    else if c == 1 then Spc(len)
    else
      var k: nat := n - 1;
      var h := Pow2(k);
      var l, r := CreateDecoder(frozen[..h], k), CreateDecoder(frozen[h..], k);
      if len <= 8 then ShortRateR(len, l, r) else RateR(len, l, r)
  }

  /** The deciding nodes in the order their constructors call
      `pushDecoder`: a split builds its left child before its right one. */
  function Deciders(d: Decoder): seq<Decoder> {
    match d
    case RateZero(_) => []
    case ShortRateR(_, l, r) => Deciders(l) + Deciders(r)
    case RateR(_, l, r) => Deciders(l) + Deciders(r)
    case _ => [d]
  }

  /** The special nodes are chosen by the same tests, in the same order, as
      in the fast simplified decoder; a long block the fast decoder would
      split in one of its special ways is a general split here. */
  lemma AgreesWithFastSsc(frozen: seq<bool>, n: nat)
    requires |frozen| == Pow2(n)
    ensures var a, b := CreateDecoder(frozen, n), FastSscTree.CreateDecoder(frozen, n);
      && (a.RateZero? <==> b.RateZero?)
      && (a.RateOne? <==> b.RateOne?)
      && (a.Repetition? <==> b.Repetition?)
      && (a.Spc? <==> b.Spc?)
      && (a.ShortRateR? <==> b.ShortRateR?)
      && (a.RateR? <==> b.ZeroSpc? || b.ROne? || b.ZeroR? || b.RateR?)
  {
  }

  /** Every decider holds at least one information bit, so there are at
      most as many deciders as information bits; and a block with any
      information bit has at least one decider, which the manager needs to
      form its first configurations. */
  lemma {:induction false} DecidersBound(frozen: seq<bool>, n: nat)
    requires |frozen| == Pow2(n)
    ensures |Deciders(CreateDecoder(frozen, n))| <= |frozen| - Count(frozen)
    ensures Count(frozen) < |frozen| ==> |Deciders(CreateDecoder(frozen, n))| >= 1
    decreases n
  {
    var len, c := |frozen|, Count(frozen);
    if c != len && c != 0 && c != len - 1 && c != 1 {
      var k: nat := n - 1;
      var h := Pow2(k);
      CountSplit(frozen, h);
      DecidersBound(frozen[..h], k);
      DecidersBound(frozen[h..], k);
    }
  }

  // ---------------------------------------------------------------------
  // findWeakLlrs: a partial selection sort that tracks positions

  /** `temp` is `orig` rearranged by the permutation `flip`: the entry at k
      came from position `flip[k]`. */
  predicate Tracks(orig: seq<Mag>, temp: seq<Mag>, flip: seq<int>) {
    && |temp| == |orig|
    && TrackingSorter.IsPermutation(flip, |orig|)
    && forall k :: 0 <= k < |temp| ==> temp[k] == orig[flip[k]]
  }

  /** `std::swap(s[a], s[b])`. */
  function Swap<T>(s: seq<T>, a: nat, b: nat): (r: seq<T>)
    requires a < |s| && b < |s|
    ensures |r| == |s| && r[a] == s[b] && r[b] == s[a]
    ensures forall k :: 0 <= k < |s| && k != a && k != b ==> r[k] == s[k]
  {
    s[a := s[b]][b := s[a]]
  }

  /** Swapping the same two positions of the values and of the index
      vector keeps the tracking. */
  lemma SwapTracks(orig: seq<Mag>, temp: seq<Mag>, flip: seq<int>, a: nat, b: nat)
    requires Tracks(orig, temp, flip) && a < |temp| && b < |temp|
    ensures Tracks(orig, Swap(temp, a, b), Swap(flip, a, b))
  {
    var f := Swap(flip, a, b);
    forall i, j | 0 <= i < j < |orig| ensures f[i] != f[j] {
      var i', j' := if i == a then b else if i == b then a else i, if j == a then b else if j == b then a else j;
      assert f[i] == flip[i'] && f[j] == flip[j'];
    }
  }

  /** `first` is the first position of a least value at or after `from`. */
  predicate FirstLeastFrom(temp: seq<Mag>, from: nat, first: nat) {
    && from <= first < |temp|
    && (forall j :: from <= j < |temp| ==> MagLe(temp[first], temp[j]))
    && (forall j :: from <= j < first ==> MagLt(temp[first], temp[j]))
  }

  /** The inner loop of `findWeakLlrs`: a strictly smaller value moves the
      index, so the first least position at or after `from` wins. */
  method SelectLeast(temp: seq<Mag>, from: nat) returns (index: nat)
    requires from < |temp|
    ensures FirstLeastFrom(temp, from, index)
  {
    index := from;
    var i := from + 1;
    while i < |temp|
      invariant from <= index < i <= |temp|
      invariant forall j :: from <= j < i ==> MagLe(temp[index], temp[j])
      invariant forall j :: from <= j < index ==> MagLt(temp[index], temp[j])
    {
      if MagLt(temp[i], temp[index]) {
        forall j | from <= j < i ensures MagLt(temp[i], temp[j]) {
          MagLtLe(temp[i], temp[index], temp[j]);
        }
        index := i;
      }
      i := i + 1;
    }
  }

  /** After `bit` passes the first `bit` positions hold the `bit` least
      values in order, each no larger than anything after it. */
  predicate SortedPrefix(temp: seq<Mag>, bit: nat) {
    forall b, j :: 0 <= b < bit && b <= j < |temp| ==> MagLe(temp[b], temp[j])
  }

  /** One pass keeps the earlier passes' prefix and extends it by one. */
  lemma PassExtends(orig: seq<Mag>, temp: seq<Mag>, flip: seq<int>, bit: nat, index: nat)
    requires Tracks(orig, temp, flip) && SortedPrefix(temp, bit)
    requires FirstLeastFrom(temp, bit, index)
    ensures SortedPrefix(Swap(temp, bit, index), bit + 1)
  {
    var t := Swap(temp, bit, index);
    forall b, j | 0 <= b < bit + 1 && b <= j < |temp| ensures MagLe(t[b], t[j]) {
      var j' := if j == bit then index else if j == index then bit else j;
      assert t[j] == temp[j'] && b <= j' < |temp|;
      if b == bit {
        assert t[b] == temp[index];
      } else {
        assert t[b] == temp[b];
      }
    }
  }

  /** `findWeakLlrs` with `passes` rounds of selection (one for a rate-1
      node, two for a parity-check node).  The index vector starts as the
      identity and follows every swap, so `flip[k]` names the position the
      k-th weakest value came from; the first pass finds the first least
      position of the input. */
  method FindWeakLlrs(temp: seq<Mag>, passes: nat) returns (sorted: seq<Mag>, flip: seq<int>)
    requires 1 <= passes <= |temp|
    ensures Tracks(temp, sorted, flip)
    ensures SortedPrefix(sorted, passes)
    ensures 0 <= flip[0] && FirstLeastFrom(temp, 0, flip[0])
  {
    sorted := temp;
    flip := TrackingSorter.Range(|temp|);
    var bit := 0;
    while bit < passes
      invariant 0 <= bit <= passes
      invariant Tracks(temp, sorted, flip)
      invariant SortedPrefix(sorted, bit)
      invariant bit == 0 ==> sorted == temp && flip == TrackingSorter.Range(|temp|)
      invariant bit > 0 ==> 0 <= flip[0] && FirstLeastFrom(temp, 0, flip[0])
    {
      var index := SelectLeast(sorted, bit);
      PassExtends(temp, sorted, flip, bit, index);
      SwapTracks(temp, sorted, flip, bit, index);
      sorted := Swap(sorted, bit, index);
      flip := Swap(flip, bit, index);
      bit := bit + 1;
    }
  }

  // ---------------------------------------------------------------------
  // The deciding nodes

  /** What a node leaves behind after `decode`: its output LLRs (their sign
      bits are the decisions), its reliability, and its option. */
  datatype Decoded = Decoded(out: seq<Float>, reliability: Mag, option: nat)

  /** `RateOneDecoder::decode`: the output is the input; the reliability is
      the smallest magnitude; option 1 negates the first least reliable
      LLR.  The source reads `temp[0]`, so the block is non-empty. */
  method RateOneDecode(llr: seq<Float>, option: nat) returns (r: Decoded, weakest: nat)
    requires |llr| >= 1
    ensures FirstMinimal(llr, weakest)
    ensures r.reliability == llr[weakest].mag && r.option == 0
    ensures option == 0 ==> r.out == llr
    ensures option != 0 ==> r.out == llr[weakest := Negate(llr[weakest])]
  {
    var temp := FastSscNodes.Mags(llr);
    var sorted, flip := FindWeakLlrs(temp, 1);
    weakest := flip[0];
    var out := llr;
    if option != 0 {
      out := out[weakest := Negate(llr[weakest])];
    }
    r := Decoded(out, sorted[0], 0);
  }

  /** Option 1 of a rate-1 node changes exactly one decision, the least
      reliable one. */
  lemma RateOneAlternative(llr: seq<Float>, weakest: nat)
    requires FirstMinimal(llr, weakest)
    ensures var alt := SignBits(llr[weakest := Negate(llr[weakest])]);
      && alt[weakest] != llr[weakest].neg
      && forall j :: 0 <= j < |llr| && j != weakest ==> alt[j] == llr[j].neg
  {
  }

  /** `RepetitionDecoder::decode`: the LLRs are summed (from +0.0 in every
      lane, so the sum is never -0.0), the reliability is |sum|, option 1
      negates the sum, and every output is the sum.  Summation is exact
      here; the model requires finite LLRs. */
  function RepetitionDecode(llr: seq<Float>, option: nat): (r: Decoded)
    requires forall i :: 0 <= i < |llr| ==> IsFinite(llr[i])
    ensures |r.out| == |llr| && r.option == 0
    ensures r.reliability == Fin(if RealSum(llr) < 0.0 then -RealSum(llr) else RealSum(llr))
    ensures option != 1 ==> forall i :: 0 <= i < |llr| ==> r.out[i].neg == (RealSum(llr) < 0.0)
    ensures option == 1 ==> forall i :: 0 <= i < |llr| ==> r.out[i].neg == !(RealSum(llr) < 0.0)
  {
    var sum := FromReal(RealSum(llr));
    Decoded(Filled(if option == 1 then Negate(sum) else sum, |llr|), sum.mag, 0)
  }

  /** The two options of a repetition node give the two codewords: all
      decisions agree, and option 1 complements option 0 position by
      position. */
  lemma RepetitionOptionsComplement(llr: seq<Float>)
    requires forall i :: 0 <= i < |llr| ==> IsFinite(llr[i])
    ensures var a, b := RepetitionDecode(llr, 0).out, RepetitionDecode(llr, 1).out;
      forall i :: 0 <= i < |llr| ==> b[i].neg == !a[i].neg && a[i].neg == a[0].neg
  {
  }

  /** `first` and `second` are the two weakest positions as the two passes
      of `findWeakLlrs` find them: `first` is the first least reliable
      position, `second` is a least reliable one among the rest. */
  predicate TwoWeakest(llr: seq<Float>, first: nat, second: nat) {
    && FirstMinimal(llr, first)
    && second < |llr| && second != first
    && forall j :: 0 <= j < |llr| && j != first ==> MagLe(llr[second].mag, llr[j].mag)
  }

  /** The two weakest positions found by two selection passes. */
  method FindTwoWeakest(llr: seq<Float>) returns (sorted: seq<Mag>, first: nat, second: nat)
    requires |llr| >= 2
    ensures TwoWeakest(llr, first, second)
    ensures |sorted| == |llr| && sorted[0] == llr[first].mag && sorted[1] == llr[second].mag
  {
    var temp := FastSscNodes.Mags(llr);
    var flip;
    sorted, flip := FindWeakLlrs(temp, 2);
    first, second := flip[0], flip[1];
    forall j | 0 <= j < |llr| && j != first ensures MagLe(llr[second].mag, llr[j].mag) {
      var k :| 0 <= k < |llr| && flip[k] == j by {
        TrackingSorter.PermutationOnto(flip, |llr|, j);
      }
      assert k != 0;
      assert sorted[k] == temp[j];
    }
  }

  /** The outputs of a parity-check node as the source writes them.  With
      odd parity the reliability is the second weakest magnitude, and the
      option picks which of the two weakest LLRs to negate.  With even
      parity the reliability is the weakest magnitude, and option 1 negates
      the weakest LLR alone. */
  function SpcOutputAsWritten(llr: seq<Float>, first: nat, second: nat, option: nat): (r: Decoded)
    requires TwoWeakest(llr, first, second) && option < 2
    ensures |r.out| == |llr| && r.option == 0
  {
    if Parity(SignBits(llr)) then
      var at := if option == 0 then first else second;
      Decoded(llr[at := Negate(llr[at])], llr[second].mag, 0)
    else if option != 0 then
      Decoded(llr[first := Negate(llr[first])], llr[first].mag, 0)
    else
      Decoded(llr, llr[first].mag, 0)
  }

  /** `SpcDecoder::decode` as written.  The block is padded to eight lanes
      with +infinity, which changes neither the parity nor the two weakest
      positions; the source reads `temp[1]`, so it holds at least two
      LLRs. */
  method SpcDecodeAsWritten(llr: seq<Float>, option: nat) returns (r: Decoded, first: nat, second: nat)
    requires |llr| >= 2 && option < 2
    ensures TwoWeakest(llr, first, second)
    ensures r == SpcOutputAsWritten(llr, first, second, option)
  {
    var sorted;
    sorted, first, second := FindTwoWeakest(llr);
    var out := llr;
    var rel;
    if Parity(SignBits(llr)) {
      rel := sorted[1];
      var at := if option == 0 then first else second;
      out := out[at := Negate(llr[at])];
    } else {
      rel := sorted[0];
      if option != 0 {
        out := out[first := Negate(llr[first])];
      }
    }
    r := Decoded(out, rel, 0);
  }

  /** With odd parity both options give a word of even parity, as a
      parity-check node must. */
  lemma SpcAsWrittenOddParity(llr: seq<Float>, first: nat, second: nat, option: nat)
    requires TwoWeakest(llr, first, second) && option < 2
    requires Parity(SignBits(llr))
    ensures !Parity(SignBits(SpcOutputAsWritten(llr, first, second, option).out))
  {
    var at := if option == 0 then first else second;
    FlipParity(llr, at);
  }

  /** With even parity option 1 negates a single LLR, so its decisions have
      odd parity and are not a codeword of the parity-check node. */
  lemma SpcAsWrittenEvenOption(llr: seq<Float>, first: nat, second: nat)
    requires TwoWeakest(llr, first, second)
    requires !Parity(SignBits(llr))
    ensures Parity(SignBits(SpcOutputAsWritten(llr, first, second, 1).out))
  {
    FlipParity(llr, first);
  }

  /** The smallest input that shows it: four positive LLRs. */
  lemma SpcAsWrittenExample()
    ensures var llr := [Float(false, Fin(1.0)), Float(false, Fin(2.0)), Float(false, Fin(3.0)), Float(false, Fin(4.0))];
      && TwoWeakest(llr, 0, 1)
      && Parity(SignBits(SpcOutputAsWritten(llr, 0, 1, 1).out))
  {
    var llr := [Float(false, Fin(1.0)), Float(false, Fin(2.0)), Float(false, Fin(3.0)), Float(false, Fin(4.0))];
    ParityAllClear(SignBits(llr));
    SpcAsWrittenEvenOption(llr, 0, 1);
  }

  /** Negating one LLR flips the parity of the decisions. */
  lemma FlipParity(llr: seq<Float>, at: nat)
    requires at < |llr|
    ensures Parity(SignBits(llr[at := Negate(llr[at])])) == !Parity(SignBits(llr))
  {
    var bits := SignBits(llr);
    assert SignBits(llr[at := Negate(llr[at])]) == bits[at := !bits[at]];
    ParityFlip(bits, at);
  }

  /** The outputs of a parity-check node as intended: the next most likely
      codeword after an even-parity decision changes the two weakest
      decisions, so option 1 negates both. */
  function SpcOutput(llr: seq<Float>, first: nat, second: nat, option: nat): (r: Decoded)
    requires TwoWeakest(llr, first, second) && option < 2
    ensures |r.out| == |llr| && r.option == 0
  {
    if Parity(SignBits(llr)) then
      var at := if option == 0 then first else second;
      Decoded(llr[at := Negate(llr[at])], llr[second].mag, 0)
    else if option != 0 then
      Decoded(llr[first := Negate(llr[first])][second := Negate(llr[second])], llr[first].mag, 0)
    else
      Decoded(llr, llr[first].mag, 0)
  }

  /** Every option of the corrected node yields a codeword (even parity)
      that differs from the hard decisions only at the two weakest
      positions, and option 0 is the plain parity-check decision. */
  lemma SpcOutputEven(llr: seq<Float>, first: nat, second: nat, option: nat)
    requires TwoWeakest(llr, first, second) && option < 2
    ensures var out := SpcOutput(llr, first, second, option).out;
      && !Parity(SignBits(out))
      && (forall j :: 0 <= j < |llr| && j != first && j != second ==> out[j] == llr[j])
      && (option == 0 ==> SignBits(out) == SpcDecision(llr, first))
  {
    var out := SpcOutput(llr, first, second, option).out;
    if Parity(SignBits(llr)) {
      var at := if option == 0 then first else second;
      FlipParity(llr, at);
    } else if option != 0 {
      var once := llr[first := Negate(llr[first])];
      FlipParity(llr, first);
      FlipParity(once, second);
      assert out == once[second := Negate(once[second])];
    }
  }

  /** `SpcDecoder::decode` with the even-parity alternative corrected. */
  method SpcDecode(llr: seq<Float>, option: nat) returns (r: Decoded, first: nat, second: nat)
    requires |llr| >= 2 && option < 2
    ensures TwoWeakest(llr, first, second)
    ensures r == SpcOutput(llr, first, second, option)
    ensures r.reliability == (if Parity(SignBits(llr)) then llr[second].mag else llr[first].mag)
    ensures !Parity(SignBits(r.out))
  {
    var sorted;
    sorted, first, second := FindTwoWeakest(llr);
    var out := llr;
    var rel;
    if Parity(SignBits(llr)) {
      rel := sorted[1];
      var at := if option == 0 then first else second;
      out := out[at := Negate(llr[at])];
    } else {
      rel := sorted[0];
      if option != 0 {
        out := out[first := Negate(llr[first])][second := Negate(llr[second])];
      }
    }
    r := Decoded(out, rel, 0);
    SpcOutputEven(llr, first, second, option);
  }
}

=== FILE: fast_ssc_nodes.dfy ===
/** The special-node decode rules of FastSscAvx (fastssc_avx_float.cpp).
    A node reads the LLRs of its block and writes floats whose sign bits are
    the hard decisions.  The vectorised rules walk the block eight floats at
    a time; they assume blocks that are a multiple of eight long (shorter
    blocks are padded by preparation steps that are not part of this
    model). */
module FastSscNodes {
  import opened Seqs
  import opened Floats
  import opened Parities
  import opened PolarTransform
  import opened PolarNodes
  import opened AvxConvenience

  /** `RateZeroDecoder::decode`: the output is filled with +infinity, so
      every decision is 0 and is as reliable as can be. */
  function RateZeroDecode(n: nat): (out: seq<Float>)
    ensures |out| == n
    ensures forall i :: 0 <= i < n ==> !SignBits(out)[i] && out[i].mag == Inf
  {
    Filled(PosInf, n)
  }

  /** `RateOneDecoder::decode`: the input is copied, so the decisions are
      the hard decisions of the channel and the reliabilities are kept. */
  function RateOneDecode(llr: seq<Float>): (out: seq<Float>)
    ensures SignBits(out) == SignBits(llr)
    ensures |out| == |llr| && forall i :: 0 <= i < |llr| ==> out[i].mag == llr[i].mag
  {
    llr
  }

  /** `RepetitionDecoder::decode`: every output float holds the sum of the
      LLRs, so every decision is 1 exactly when the sum is negative.  The
      model adds in index order; the source adds in eight lanes and reduces
      them, which with exact addition gives the same float. */
  function RepetitionDecode(llr: seq<Float>): (out: seq<Float>)
    requires forall i :: 0 <= i < |llr| ==> IsFinite(llr[i])
    ensures |out| == |llr|
    ensures forall i :: 0 <= i < |out| ==> IsFinite(out[i]) && Value(out[i]) == RealSum(llr)
    ensures forall i :: 0 <= i < |out| ==> SignBits(out)[i] == (RealSum(llr) < 0.0)
  {
    SumFromPosZero(llr);
    Filled(SumFrom(PosZero, llr), |llr|)
  }

  /** The magnitudes of a vector, `andnot(sgnMask, x)`. */
  function Mags(c: seq<Float>): (m: seq<Mag>)
    ensures |m| == |c| && forall i :: 0 <= i < |c| ==> m[i] == c[i].mag
  {
    seq(|c|, i requires 0 <= i < |c| => c[i].mag)
  }

  /** `idx` is a position of least magnitude. */
  predicate Least(vals: seq<Float>, idx: nat) {
    idx < |vals| && forall j :: 0 <= j < |vals| ==> MagLe(vals[idx].mag, vals[j].mag)
  }

  /** The state of the search loop after the first `i` floats: the lane
      XOR `par` holds their sign parity, `minAbs` is at most every magnitude
      seen, and `minIdx` points at a float no larger than `minAbs`. */
  predicate Scanned(vals: seq<Float>, i: nat, par: seq<bool>, minIdx: nat, minAbs: Mag) {
    i <= |vals| && |par| == 8 && minIdx < |vals|
    && Parity(par) == Parity(SignBits(vals[..i]))
    && MagLe(vals[minIdx].mag, minAbs)
    && (forall j :: 0 <= j < i ==> MagLe(minAbs, vals[j].mag))
  }

  /** Where the 8-lane vector holding position `idx` starts. */
  function VectorStart(idx: nat): (s: nat)
    ensures s <= idx < s + 8 && s % 8 == 0
  {
    idx - idx % 8
  }

  /** Within one vector, on equal magnitudes `_mm256_minidx_ps` prefers
      lane a to lane b: the upper half wins, and within a half the lowest
      lane. */
  predicate LaneBefore(a: int, b: int) {
    if (a < 4) == (b < 4) then a < b else a >= 4
  }

  /** On equal magnitudes the search keeps position `j` rather than `k`:
      any position of an earlier vector wins, since the update needs a
      strictly smaller value, and within k's vector the lane order of
      `_mm256_minidx_ps` decides. */
  predicate Preferred(j: nat, k: nat) {
    var s := VectorStart(k);
    j < s || (s <= j < s + 8 && LaneBefore(j - s, k - s))
  }

  /** Of two distinct positions exactly one is preferred. */
  lemma PreferredTotal(j: nat, k: nat)
    requires j != k
    ensures Preferred(j, k) != Preferred(k, j)
  {
  }

  /** The position the search settles on: a least magnitude that every
      position the search would prefer strictly exceeds.  When every
      magnitude is infinite nothing is below the initial +infinity and
      the initial position 0 stays. */
  predicate SearchChoice(vals: seq<Float>, idx: nat) {
    Least(vals, idx)
    && (vals[idx].mag == Inf ==> idx == 0)
    && (vals[idx].mag != Inf ==>
          forall j :: 0 <= j < |vals| && Preferred(j, idx) ==> MagLt(vals[idx].mag, vals[j].mag))
  }

  /** The loop's record of its choice after the first `i` floats: a
      finite minimum sits in a scanned vector and is strictly below every
      scanned position the search prefers; an infinite one is still the
      initial position 0. */
  predicate Chosen(vals: seq<Float>, i: nat, minIdx: nat, minAbs: Mag) {
    minIdx < |vals| && i <= |vals|
    && (minAbs == Inf ==> minIdx == 0)
    && (minAbs != Inf ==>
          && minAbs == vals[minIdx].mag
          && VectorStart(minIdx) + 8 <= i
          && forall j :: 0 <= j < i && Preferred(j, minIdx) ==> MagLt(minAbs, vals[j].mag))
  }

  /** At most one position is the search's choice, so `SearchChoice`
      fixes the index the source flips. */
  lemma SearchChoiceUnique(vals: seq<Float>, a: nat, b: nat)
    requires SearchChoice(vals, a) && SearchChoice(vals, b)
    ensures a == b
  {
    if a != b {
      assert MagLe(vals[a].mag, vals[b].mag) && MagLe(vals[b].mag, vals[a].mag);
      PreferredTotal(a, b);
    }
  }

  /** Two vectors with the least magnitude 1 at positions 0, 4 and 8 and
      5 elsewhere: the search settles on position 4, the upper-half lane
      of the first vector, and on nothing else. */
  const TieExample: seq<Float> :=
    seq(16, k requires 0 <= k < 16 => if k == 0 || k == 4 || k == 8 then Float(false, Fin(1.0)) else Float(false, Fin(5.0)))

  lemma TieExampleChoice()
    ensures SearchChoice(TieExample, 4)
    ensures forall idx :: SearchChoice(TieExample, idx) ==> idx == 4
  {
    var v := TieExample;
    assert VectorStart(4) == 0;
    forall idx | SearchChoice(v, idx) ensures idx == 4 {
      SearchChoiceUnique(v, idx, 4);
    }
  }

  /** XORing a vector's signs into the lane parity extends the parity to
      the vector. */
  lemma ChunkParity(vals: seq<Float>, i: nat, par: seq<bool>)
    requires i + 8 <= |vals| && |par| == 8 && Parity(par) == Parity(SignBits(vals[..i]))
    ensures Parity(XorSeq(par, SignBits(vals[i..i + 8]))) == Parity(SignBits(vals[..i + 8]))
  {
    var c := vals[i..i + 8];
    ParityXorSeq(par, SignBits(c));
    assert vals[..i + 8] == vals[..i] + c;
    SignBitsConcat(vals[..i], c);
    ParityConcat(SignBits(vals[..i]), SignBits(c));
  }

  /** `_mm256_minidx_ps(abs, &testAbs)` on the vector at `i`: the lane of
      a least float of the vector and its magnitude. */
  method ChunkMin(vals: seq<Float>, i: nat) returns (lane: nat, val: Mag)
    requires i + 8 <= |vals| && i % 8 == 0
    ensures lane < 8 && vals[i + lane].mag == val
    ensures forall j :: i <= j < i + 8 ==> MagLe(val, vals[j].mag)
    ensures forall j :: i <= j < i + 8 && Preferred(j, i + lane) ==> MagLt(val, vals[j].mag)
  {
    var c := vals[i..i + 8];
    var r := MinIdx8(Mags(c));
    lane, val := r.idx, r.val;
    assert Mags(c)[lane] == vals[i + lane].mag;
    LanePosition(i, lane);
    forall j | i <= j < i + 8 ensures MagLe(val, vals[j].mag) {
      assert Mags(c)[j - i] == vals[j].mag;
    }
    forall j | i <= j < i + 8 && Preferred(j, i + lane) ensures MagLt(val, vals[j].mag) {
      assert Mags(c)[j - i] == vals[j].mag;
      LanePosition(i, j - i);
    }
  }

  /** Lane k of the vector at i: its vector starts at i and its half at i
      or i + 4. */
  lemma LanePosition(i: nat, k: nat)
    requires i % 8 == 0 && k < 8
    ensures VectorStart(i + k) == i
  {
  }

  /** A bound below the old minimum and below the new vector bounds
      everything seen so far. */
  lemma ExtendBound(vals: seq<Float>, i: nat, minAbs: Mag, m: Mag)
    requires i + 8 <= |vals|
    requires forall j :: 0 <= j < i ==> MagLe(minAbs, vals[j].mag)
    requires MagLe(m, minAbs) && forall j :: i <= j < i + 8 ==> MagLe(m, vals[j].mag)
    ensures forall j :: 0 <= j < i + 8 ==> MagLe(m, vals[j].mag)
  {
    forall j | 0 <= j < i ensures MagLe(m, vals[j].mag) {
      MagLeTransitive(m, minAbs, vals[j].mag);
    }
  }

  /** One vector of the loop: the signs are XORed into `parVec`, and the
      least lane of the vector replaces the minimum if it is strictly
      smaller.  With `guarded` the lane search only runs while the minimum
      is above zero, as in the zero-SPC decoder; it cannot matter there,
      since nothing is smaller than zero. */
  method ScanChunk(vals: seq<Float>, i: nat, par: seq<bool>, minIdx: nat, minAbs: Mag, guarded: bool)
    returns (par': seq<bool>, minIdx': nat, minAbs': Mag)
    requires Scanned(vals, i, par, minIdx, minAbs) && i + 8 <= |vals|
    requires i % 8 == 0 && Chosen(vals, i, minIdx, minAbs)
    ensures Scanned(vals, i + 8, par', minIdx', minAbs')
    ensures Chosen(vals, i + 8, minIdx', minAbs')
  {
    par' := XorSeq(par, SignBits(vals[i..i + 8]));
    ChunkParity(vals, i, par);
    minIdx', minAbs' := minIdx, minAbs;
    if !guarded || minAbs != Fin(0.0) {
      var lane, testAbs := ChunkMin(vals, i);
      if MagLt(testAbs, minAbs) {
        minIdx', minAbs' := i + lane, testAbs;
        ExtendBound(vals, i, minAbs, testAbs);
        ChosenMoves(vals, i, minAbs, lane, testAbs);
      } else {
        forall j | i <= j < i + 8 ensures MagLe(minAbs, vals[j].mag) {
          MagLeTransitive(minAbs, testAbs, vals[j].mag);
        }
        ExtendBound(vals, i, minAbs, minAbs);
        ChosenStays(vals, i, minIdx, minAbs);
      }
    } else {
      ExtendBound(vals, i, minAbs, minAbs);
      ChosenStays(vals, i, minIdx, minAbs);
    }
  }

  /** A strictly smaller lane of the vector at i becomes the choice: every
      earlier position is at least the old minimum, and the lanes the
      search prefers within the vector are strictly larger. */
  lemma ChosenMoves(vals: seq<Float>, i: nat, minAbs: Mag, lane: nat, testAbs: Mag)
    requires i % 8 == 0 && i + 8 <= |vals| && lane < 8
    requires vals[i + lane].mag == testAbs && MagLt(testAbs, minAbs)
    requires forall j :: 0 <= j < i ==> MagLe(minAbs, vals[j].mag)
    requires forall j :: i <= j < i + 8 && Preferred(j, i + lane) ==> MagLt(testAbs, vals[j].mag)
    ensures Chosen(vals, i + 8, i + lane, testAbs)
  {
    LanePosition(i, lane);
    forall j | 0 <= j < i ensures MagLt(testAbs, vals[j].mag) {
      assert MagLe(minAbs, vals[j].mag);
    }
  }

  /** A choice in an earlier vector stays: no position of the vector at i
      is preferred to it. */
  lemma ChosenStays(vals: seq<Float>, i: nat, minIdx: nat, minAbs: Mag)
    requires i % 8 == 0 && i + 8 <= |vals| && Chosen(vals, i, minIdx, minAbs)
    ensures Chosen(vals, i + 8, minIdx, minAbs)
  {
    if minAbs != Inf {
      forall j | i <= j < i + 8 ensures !Preferred(j, minIdx) {
        LanePosition(i, j - i);
      }
    }
  }

  /** The next vector lies inside the block. */
  lemma NextChunk(i: nat, n: nat)
    requires i < n && i % 8 == 0 && n % 8 == 0
    ensures i + 8 <= n && (i + 8) % 8 == 0
  {
  }

  /** The search loop of `SpcDecoder::decode` and `ZeroSpcDecoder::decode`:
      eight lanes of sign parity, and a position of least magnitude.  The
      minimum starts at +infinity and position 0. */
  method Scan(vals: seq<Float>, guarded: bool) returns (par: seq<bool>, minIdx: nat)
    requires |vals| >= 8 && |vals| % 8 == 0
    ensures |par| == 8 && Parity(par) == Parity(SignBits(vals))
    ensures Least(vals, minIdx)
    ensures SearchChoice(vals, minIdx)
  {
    par := Filled(false, 8);
    ParityAllClear(par);
    assert vals[..0] == [];
    minIdx := 0;
    var minAbs := Inf;
    var i := 0;
    while i < |vals|
      invariant i % 8 == 0 && Scanned(vals, i, par, minIdx, minAbs)
      invariant Chosen(vals, i, minIdx, minAbs)
      decreases |vals| - i
    {
      NextChunk(i, |vals|);
      par, minIdx, minAbs := ScanChunk(vals, i, par, minIdx, minAbs, guarded);
      i := i + 8;
    }
    assert vals[..i] == vals;
    ScanEnd(vals, par, minIdx, minAbs);
  }

  /** After the last vector the recorded position is the search's
      choice. */
  lemma ScanEnd(vals: seq<Float>, par: seq<bool>, minIdx: nat, minAbs: Mag)
    requires Scanned(vals, |vals|, par, minIdx, minAbs) && Chosen(vals, |vals|, minIdx, minAbs)
    ensures SearchChoice(vals, minIdx)
  {
    forall j | 0 <= j < |vals| ensures MagLe(vals[minIdx].mag, vals[j].mag) {
      MagLeTransitive(vals[minIdx].mag, minAbs, vals[j].mag);
    }
    if minAbs == Inf {
      assert MagLe(minAbs, vals[minIdx].mag);
    }
  }

  /** `bits ^= iParity` on the sign bit of one float. */
  function FlipSign(f: Float, p: bool): (g: Float)
    ensures g.mag == f.mag && (g.neg <==> f.neg != p)
  {
    f.(neg := f.neg != p)
  }

  /** Flipping the decision at `idx` by the parity of the decisions yields
      exactly the SPC decision rule at that position. */
  lemma FlipAtIsSpcDecision(llr: seq<Float>, idx: nat)
    requires idx < |llr|
    ensures SignBits(llr[idx := FlipSign(llr[idx], Parity(SignBits(llr)))]) == SpcDecision(llr, idx)
  {
  }

  /** `SpcDecoder::decode`: the input is copied to the output, and the sign
      of a least reliable float is flipped when the signs have odd parity.
      The decisions are the SPC decision rule at that position, so they
      have even parity. */
  method SpcDecode(llr: seq<Float>) returns (out: seq<Float>, minIdx: nat)
    requires |llr| >= 8 && |llr| % 8 == 0
    ensures Least(llr, minIdx) && SearchChoice(llr, minIdx)
    ensures |out| == |llr| && forall j :: 0 <= j < |llr| ==> out[j].mag == llr[j].mag
    ensures forall j :: 0 <= j < |llr| && j != minIdx ==> out[j] == llr[j]
    ensures out[minIdx].neg == (llr[minIdx].neg != Parity(SignBits(llr)))
    ensures SignBits(out) == SpcDecision(llr, minIdx)
    ensures !Parity(SignBits(out))
  {
    var par;
    par, minIdx := Scan(llr, false);
    var p := ReduceXorSign(par);
    out := llr[minIdx := FlipSign(llr[minIdx], p)];
    FlipAtIsSpcDecision(llr, minIdx);
    SpcDecisionEven(llr, minIdx);
  }

  /** The LLRs of a zero-SPC node's right child: its left child is rate-0,
      so the G function adds the two halves of the input. */
  function ZeroSpcSums(llr: seq<Float>): (s: seq<Float>)
    requires |llr| % 2 == 0 && forall i :: 0 <= i < |llr| ==> IsFinite(llr[i])
    ensures |s| == |llr| / 2
    ensures forall i :: 0 <= i < |s| ==> IsFinite(s[i]) && Value(s[i]) == Value(llr[i]) + Value(llr[|s| + i])
  {
    var h := |llr| / 2;
    seq(h, i requires 0 <= i < h => Add(llr[i], llr[h + i]))
  }

  /** The output of `ZeroSpcDecoder::decode` as written: both halves are
      the right half of the input, with the float at `idx` flipped by `p`. */
  function ZeroSpcOutputAsWritten(llr: seq<Float>, idx: nat, p: bool): (out: seq<Float>)
    requires |llr| % 2 == 0 && idx < |llr| / 2
    ensures |out| == |llr|
  {
    var right := llr[|llr| / 2..];
    var half := right[idx := FlipSign(right[idx], p)];
    half + half
  }

  /** `ZeroSpcDecoder::decode` as written: the sums are searched for their
      sign parity and a least reliable position, but the right half of the
      input is what gets stored, in both halves of the output. */
  method ZeroSpcDecodeAsWritten(llr: seq<Float>) returns (out: seq<Float>, minIdx: nat)
    requires |llr| >= 16 && |llr| % 16 == 0
    requires forall i :: 0 <= i < |llr| ==> IsFinite(llr[i])
    ensures Least(ZeroSpcSums(llr), minIdx) && SearchChoice(ZeroSpcSums(llr), minIdx)
    ensures out == ZeroSpcOutputAsWritten(llr, minIdx, Parity(SignBits(ZeroSpcSums(llr))))
    ensures out[..|llr| / 2] == out[|llr| / 2..]
    ensures forall j :: 0 <= j < |llr| / 2 && j != minIdx ==> out[j] == llr[|llr| / 2 + j]
  {
    var sums := ZeroSpcSums(llr);
    var par;
    par, minIdx := Scan(sums, true);
    var p := ReduceXorSign(par);
    out := ZeroSpcOutputAsWritten(llr, minIdx, p);
  }

  /** The parity of each half of the as-written output is the parity of the
      right input's signs XOR the parity of the sums' signs; it is even only
      when those two agree. */
  lemma ZeroSpcAsWrittenParity(llr: seq<Float>, idx: nat)
    requires |llr| % 2 == 0 && idx < |llr| / 2
    requires forall i :: 0 <= i < |llr| ==> IsFinite(llr[i])
    ensures var h, p := |llr| / 2, Parity(SignBits(ZeroSpcSums(llr)));
      var out := ZeroSpcOutputAsWritten(llr, idx, p);
      && Parity(SignBits(out[..h])) == (Parity(SignBits(llr[h..])) != p)
      && Parity(SignBits(out[h..])) == (Parity(SignBits(llr[h..])) != p)
  {
    var h, p := |llr| / 2, Parity(SignBits(ZeroSpcSums(llr)));
    var right := llr[h..];
    var half := right[idx := FlipSign(right[idx], p)];
    var out := ZeroSpcOutputAsWritten(llr, idx, p);
    assert out[..h] == half && out[h..] == half;
    if p {
      assert SignBits(half) == SignBits(right)[idx := !SignBits(right)[idx]];
      ParityFlip(SignBits(right), idx);
    } else {
      assert SignBits(half) == SignBits(right);
    }
  }

  /** A zero-SPC block of 16 LLRs: left half -5, 1, ..., 1 and right half all
      1.  The sums are -4, 2, ..., 2. */
  const ZeroSpcExample: seq<Float> := [Float(true, Fin(5.0))] + Filled(Float(false, Fin(1.0)), 15)

  /** Only the first sum of the example is negative: the sums have odd
      parity. */
  lemma ExampleSumsOdd()
    ensures Parity(SignBits(ZeroSpcSums(ZeroSpcExample)))
  {
    var llr := ZeroSpcExample;
    var bits := SignBits(ZeroSpcSums(llr));
    var clear := Filled(false, 8);
    assert llr[0] == Float(true, Fin(5.0));
    assert forall i :: 1 <= i < 16 ==> llr[i] == Float(false, Fin(1.0));
    assert bits == clear[0 := true];
    ParityAllClear(clear);
    ParityFlip(clear, 0);
  }

  /** The right half of the example is all positive: even parity. */
  lemma ExampleRightEven()
    ensures !Parity(SignBits(ZeroSpcExample[8..]))
  {
    var right := ZeroSpcExample[8..];
    assert forall i :: 0 <= i < 8 ==> right[i] == Float(false, Fin(1.0));
    ParityAllClear(SignBits(right));
  }

  /** On the example the sums have odd sign parity, so a bit is flipped, but
      the right half it is flipped in had even parity: whichever least
      position is chosen, both halves of the as-written output have odd
      parity and are not words of the parity-check code. */
  lemma ZeroSpcAsWrittenOdd(idx: nat)
    requires idx < 8
    ensures var llr := ZeroSpcExample;
      var p := Parity(SignBits(ZeroSpcSums(llr)));
      var out := ZeroSpcOutputAsWritten(llr, idx, p);
      p && Parity(SignBits(out[..8])) && Parity(SignBits(out[8..]))
  {
    ExampleSumsOdd();
    ExampleRightEven();
    ZeroSpcAsWrittenParity(ZeroSpcExample, idx);
  }

  /** The corrected output: the sums, with the float at `idx` flipped by
      `p`, in both halves.  The right child's decisions are those of its
      LLRs, and the rate-0 left child contributes zeros, so both halves of
      the combined word are the right child's word. */
  function ZeroSpcOutput(llr: seq<Float>, idx: nat, p: bool): (out: seq<Float>)
    requires |llr| % 2 == 0 && forall i :: 0 <= i < |llr| ==> IsFinite(llr[i])
    requires idx < |llr| / 2
    ensures |out| == |llr|
  {
    var s := ZeroSpcSums(llr);
    var half := s[idx := FlipSign(s[idx], p)];
    half + half
  }

  /** `ZeroSpcDecoder::decode` storing the sums: both halves of the output
      are the same SPC decision on the sums, so each has even parity. */
  method ZeroSpcDecode(llr: seq<Float>) returns (out: seq<Float>, minIdx: nat)
    requires |llr| >= 16 && |llr| % 16 == 0
    requires forall i :: 0 <= i < |llr| ==> IsFinite(llr[i])
    ensures Least(ZeroSpcSums(llr), minIdx) && SearchChoice(ZeroSpcSums(llr), minIdx)
    ensures |out| == |llr| && out[..|llr| / 2] == out[|llr| / 2..]
    ensures SignBits(out[..|llr| / 2]) == SpcDecision(ZeroSpcSums(llr), minIdx)
    ensures !Parity(SignBits(out[..|llr| / 2])) && !Parity(SignBits(out[|llr| / 2..]))
  {
    var sums := ZeroSpcSums(llr);
    var par;
    par, minIdx := Scan(sums, true);
    var p := ReduceXorSign(par);
    out := ZeroSpcOutput(llr, minIdx, p);
    var half := sums[minIdx := FlipSign(sums[minIdx], p)];
    assert out[..|llr| / 2] == half && out[|llr| / 2..] == half;
    FlipAtIsSpcDecision(sums, minIdx);
    SpcDecisionEven(sums, minIdx);
  }
}

=== FILE: fast_ssc_tree.dfy ===
/** The decoder tree of the fast simplified successive-cancellation decoder
    (FastSscAvx in fastssc_avx_float.cpp).  `createDecoder` classifies a
    node of the code tree by the number of frozen bits it holds and either
    decodes it with a special rule or splits it into two halves.

    A node's frozen set is a mask over its block, `true` at frozen
    positions; the split into halves gives the left child the first half of
    the mask and the right child the second half, re-indexed from zero. */
module FastSscTree {
  import opened Powers
  import opened InfoBits

  /** The node classes the constructor can return.  `ROne` has no right
      child (its right half is rate-1 and decoded inline) and `ZeroR` has
      no left child (its left half is rate-0). */
  datatype Decoder =
    | RateZero(len: nat)
    | RateOne(len: nat)
    | Repetition(len: nat)
    | Spc(len: nat)
    | ZeroSpc(len: nat)
    | ShortRateR(len: nat, left: Decoder, right: Decoder)
    | ROne(len: nat, left: Decoder)
    | ZeroR(len: nat, right: Decoder)
    | RateR(len: nat, left: Decoder, right: Decoder)

  /** `createDecoder(frozenBits, parent)` for a block of 2^n positions.  The
      tests run in this order: all frozen, none frozen, all but one frozen,
      exactly one frozen; then a split, which for blocks of at most 8 is
      always the short one, and for longer blocks looks at the halves: a
      rate-0 left half with a single-parity-check right half, a rate-1 right
      half, a rate-0 left half, and otherwise the general split. */
  function CreateDecoder(frozen: seq<bool>, n: nat): (d: Decoder)
    requires |frozen| == Pow2(n)
    ensures d.len == |frozen|
    decreases n
  {
    var len, c := |frozen|, Count(frozen);
    if c == len then RateZero(len)
    else if c == 0 then RateOne(len)
    else if c == len - 1 then Repetition(len)
    else if c == 1 then Spc(len)
    else
      var k: nat := n - 1;
      var h := Pow2(k);
      var lf, rf := frozen[..h], frozen[h..];
      if len <= 8 then ShortRateR(len, CreateDecoder(lf, k), CreateDecoder(rf, k))
      else if Count(lf) == h && Count(rf) == 1 then ZeroSpc(len)
      else if Count(rf) == 0 then ROne(len, CreateDecoder(lf, k))
      else if Count(lf) == h then ZeroR(len, CreateDecoder(rf, k))
      else RateR(len, CreateDecoder(lf, k), CreateDecoder(rf, k))
  }

  /** The number of frozen positions a decoder tree accounts for: every
      position of a rate-0 node, none of a rate-1 node, all but one of a
      repetition node, one of a parity-check node, the whole left half plus
      one of a zero-SPC node; the missing child of `ROne` is rate-1 and that
      of `ZeroR` is rate-0. */
  function FrozenCount(d: Decoder): nat {
    match d
    case RateZero(len) => len
    case RateOne(_) => 0
    case Repetition(len) => if len == 0 then 0 else len - 1
    case Spc(_) => 1
    case ZeroSpc(len) => len / 2 + 1
    case ShortRateR(_, l, r) => FrozenCount(l) + FrozenCount(r)
    case ROne(_, l) => FrozenCount(l)
    case ZeroR(_, r) => r.len + FrozenCount(r)
    case RateR(_, l, r) => FrozenCount(l) + FrozenCount(r)
  }

  /** Every split halves the block: both children (present or implied) are
      half as long as their parent, and every node is non-empty. */
  predicate Halving(d: Decoder) {
    d.len >= 1
    && match d
       case ShortRateR(len, l, r) => l.len * 2 == len && r.len * 2 == len && Halving(l) && Halving(r)
       case ROne(len, l) => l.len * 2 == len && Halving(l)
       case ZeroR(len, r) => r.len * 2 == len && Halving(r)
       case RateR(len, l, r) => l.len * 2 == len && r.len * 2 == len && Halving(l) && Halving(r)
       case _ => true
  }

  /** The tree accounts for exactly the frozen positions of the block, and
      every split halves it. */
  lemma {:induction false} CreateDecoderAccounts(frozen: seq<bool>, n: nat)
    requires |frozen| == Pow2(n)
    ensures FrozenCount(CreateDecoder(frozen, n)) == Count(frozen)
    ensures Halving(CreateDecoder(frozen, n))
    decreases n
  {
    var len, c := |frozen|, Count(frozen);
    if c != len && c != 0 && c != len - 1 && c != 1 {
      var k: nat := n - 1;
      var h := Pow2(k);
      var lf, rf := frozen[..h], frozen[h..];
      CountSplit(frozen, h);
      CreateDecoderAccounts(lf, k);
      CreateDecoderAccounts(rf, k);
    }
  }

  /** The order of precedence for special nodes: each one is chosen exactly
      when its frozen count matches and no earlier test matched.  In
      particular an all-but-one node of two positions is a repetition node,
      and a single-parity-check node has at least four positions. */
  lemma CreateDecoderSpecial(frozen: seq<bool>, n: nat)
    requires |frozen| == Pow2(n)
    ensures var d, len, c := CreateDecoder(frozen, n), |frozen|, Count(frozen);
      && (d.RateZero? <==> c == len)
      && (d.RateOne? <==> c == 0)
      && (d.Repetition? <==> 0 < c == len - 1)
      && (d.Spc? <==> c == 1 && len >= 4)
      && (d.ShortRateR? <==> 2 <= c <= len - 2 && len <= 8)
  {
    var len := |frozen|;
    if n >= 2 {
      Pow2Monotone(2, n);
    } else if n == 1 {
      assert len == 2;
    }
  }

  /** A two-position node with one frozen bit is a repetition node, never a
      parity-check node. */
  lemma LengthTwoIsRepetition(frozen: seq<bool>)
    requires |frozen| == 2 && Count(frozen) == 1
    ensures CreateDecoder(frozen, 1) == Repetition(2)
  {
  }

  /** For blocks longer than 8 that are not special, the halves decide:
      the zero-SPC combination first, then a rate-1 right half, then a
      rate-0 left half. */
  lemma CreateDecoderLong(frozen: seq<bool>, n: nat)
    requires |frozen| == Pow2(n) && |frozen| > 8
    requires 2 <= Count(frozen) <= |frozen| - 2
    ensures var d, h := CreateDecoder(frozen, n), |frozen| / 2;
      var lc, rc := Count(frozen[..h]), Count(frozen[h..]);
      && (d.ZeroSpc? <==> lc == h && rc == 1)
      && (d.ROne? <==> !(lc == h && rc == 1) && rc == 0)
      && (d.ZeroR? <==> !(lc == h && rc == 1) && rc != 0 && lc == h)
      && (d.RateR? <==> lc != h && rc != 0)
  {
    var k: nat := n - 1;
    assert |frozen| == 2 * Pow2(k);
  }

  /** An output window `[start, start + len)` of the node's output buffer. */
  datatype Window = Window(start: nat, len: nat)

  /** The windows of the output buffer `[base, base + len)` that the steps
      of the tree first write, in position order (not in time order:
      `ZeroR` decodes its right child before it fills the left half).  A leaf decoder writes its whole block.  A
      split hands its left child the output at `base` and its right child
      the output at `base + h`, h being the child block length (the two
      `setOutput` calls of the RateR constructor).  A short split gives its
      children private buffers and first writes its block when it combines
      them.  `ROne` has no right child and its `rightDecode` stores the right
      half; `ZeroR` has no left child and its combine fills the left half.
      Later in-place rewrites are not listed: the combine of RateR
      (`CombineSoft`) and `rightDecode` of `ROne` both overwrite the left
      half after the left child has written it. */
  function FirstWrites(d: Decoder, base: nat): seq<Window>
    decreases d
  {
    match d
    case ShortRateR(len, _, _) => [Window(base, len)]
    case ROne(_, l) => FirstWrites(l, base) + [Window(base + l.len, l.len)]
    case ZeroR(_, r) => [Window(base, r.len)] + FirstWrites(r, base + r.len)
    case RateR(_, l, r) => FirstWrites(l, base) + FirstWrites(r, base + l.len)
    case _ => [Window(base, d.len)]
  }

  /** `ws` are non-empty windows that follow one another without gap or
      overlap from `base` and cover exactly `len` positions. */
  predicate Tiles(ws: seq<Window>, base: nat, len: nat)
    decreases |ws|
  {
    if |ws| == 0 then len == 0
    else ws[0].start == base && 1 <= ws[0].len <= len && Tiles(ws[1..], base + ws[0].len, len - ws[0].len)
  }

  lemma {:induction false} TilesConcat(a: seq<Window>, b: seq<Window>, base: nat, x: nat, y: nat)
    requires Tiles(a, base, x) && Tiles(b, base + x, y)
    ensures Tiles(a + b, base, x + y)
    decreases |a|
  {
    if |a| > 0 {
      assert (a + b)[1..] == a[1..] + b;
      TilesConcat(a[1..], b, base + a[0].len, x - a[0].len, y);
    } else {
      assert a + b == b;
    }
  }

  lemma TilesSingle(base: nat, len: nat)
    requires len >= 1
    ensures Tiles([Window(base, len)], base, len)
  {
    assert [Window(base, len)][1..] == [];
  }

  lemma TilesROne(len: nat, l: Decoder, base: nat)
    requires Halving(ROne(len, l)) && Tiles(FirstWrites(l, base), base, l.len)
    ensures Tiles(FirstWrites(ROne(len, l), base), base, len)
  {
    var h := l.len;
    TilesSingle(base + h, h);
    TilesConcat(FirstWrites(l, base), [Window(base + h, h)], base, h, h);
  }

  lemma TilesZeroR(len: nat, r: Decoder, base: nat)
    requires Halving(ZeroR(len, r)) && Tiles(FirstWrites(r, base + r.len), base + r.len, r.len)
    ensures Tiles(FirstWrites(ZeroR(len, r), base), base, len)
  {
    var h := r.len;
    TilesSingle(base, h);
    TilesConcat([Window(base, h)], FirstWrites(r, base + h), base, h, h);
  }

  lemma TilesRateR(len: nat, l: Decoder, r: Decoder, base: nat)
    requires Halving(RateR(len, l, r))
    requires Tiles(FirstWrites(l, base), base, l.len) && Tiles(FirstWrites(r, base + l.len), base + l.len, r.len)
    ensures Tiles(FirstWrites(RateR(len, l, r), base), base, len)
  {
    TilesConcat(FirstWrites(l, base), FirstWrites(r, base + l.len), base, l.len, r.len);
  }

  /** The first writes of a halving tree tile its output window: every
      output position is written first by exactly one step, and the windows
      ascend, the left child's below the right child's. */
  lemma {:induction false} WritesTile(d: Decoder, base: nat)
    requires Halving(d)
    ensures Tiles(FirstWrites(d, base), base, d.len)
    decreases d
  {
    match d
    case ShortRateR(len, _, _) =>
      TilesSingle(base, len);
    case ROne(len, l) =>
      WritesTile(l, base);
      TilesROne(len, l, base);
    case ZeroR(len, r) =>
      WritesTile(r, base + r.len);
      TilesZeroR(len, r, base);
    case RateR(len, l, r) =>
      WritesTile(l, base);
      WritesTile(r, base + l.len);
      TilesRateR(len, l, r, base);
    case _ =>
      TilesSingle(base, d.len);
  }

  /** In the decoder the constructor builds, the children's output windows
      tile the root block: every position is first written by exactly one
      step, in increasing order of position. */
  lemma CreateDecoderTiles(frozen: seq<bool>, n: nat)
    requires |frozen| == Pow2(n)
    ensures Tiles(FirstWrites(CreateDecoder(frozen, n), 0), 0, |frozen|)
  {
    CreateDecoderAccounts(frozen, n);
    WritesTile(CreateDecoder(frozen, n), 0);
  }
}

=== FILE: floats.dfy ===
/** A sign-magnitude view of single-precision floats, as the decoders use them.

    The decoders store a hard decision in the sign bit of a float and flip
    decisions by toggling that bit, so the sign of a zero matters: -0.0 carries
    the bit 1.  A float is modelled as its sign bit plus a non-negative
    magnitude that is either a real number or infinity.  Rounding and NaN are
    not modelled: arithmetic is exact. */
module Floats {

  type NonNeg = r: real | r >= 0.0

  /** The absolute value of a float: finite, or +infinity. */
  datatype Mag = Fin(r: NonNeg) | Inf

  /** A float: its sign bit and its magnitude. */
  datatype Float = Float(neg: bool, mag: Mag)

  const PosZero := Float(false, Fin(0.0))
  const NegZero := Float(true, Fin(0.0))
  const PosInf := Float(false, Inf)

  /** Ordering of magnitudes, as `<` on non-negative floats. */
  predicate MagLt(a: Mag, b: Mag) {
    match (a, b)
    case (Fin(x), Fin(y)) => x < y
    case (Fin(_), Inf) => true
    case (Inf, _) => false
  }

  predicate MagLe(a: Mag, b: Mag) {
    !MagLt(b, a)
  }

  lemma MagLtTransitive(a: Mag, b: Mag, c: Mag)
    requires MagLt(a, b) && MagLt(b, c)
    ensures MagLt(a, c)
  {
  }

  lemma MagLeTransitive(a: Mag, b: Mag, c: Mag)
    requires MagLe(a, b) && MagLe(b, c)
    ensures MagLe(a, c)
  {
  }

  /** `andnot(signMask, x)`: the float with the sign bit cleared. */
  function Abs(f: Float): (a: Float)
    ensures !a.neg && a.mag == f.mag
  {
    f.(neg := false)
  }

  /** Negation toggles the sign bit and nothing else (also for zeros). */
  function Negate(f: Float): (g: Float)
    ensures g.neg != f.neg && g.mag == f.mag
  {
    f.(neg := !f.neg)
  }

  predicate IsFinite(f: Float) {
    f.mag.Fin?
  }

  /** The real number a finite float stands for. */
  function Value(f: Float): real
    requires IsFinite(f)
  {
    var r: real := f.mag.r;
    if f.neg then -r else r
  }

  /** The float holding a real number; a zero gets the positive sign. */
  function FromReal(x: real): (f: Float)
    ensures IsFinite(f) && Value(f) == x
    ensures f.neg <==> x < 0.0
  {
    if x < 0.0 then Float(true, Fin(-x)) else Float(false, Fin(x))
  }

  /** Exact addition under the IEEE sign rules: a non-zero sum carries its own
      sign, and a zero sum is -0.0 only when both operands are -0.0 (rounding
      to nearest). */
  function Add(a: Float, b: Float): (c: Float)
    requires IsFinite(a) && IsFinite(b)
    ensures IsFinite(c) && Value(c) == Value(a) + Value(b)
    ensures Value(a) + Value(b) == 0.0 ==> (c.neg <==> a.neg && b.neg)
  {
    var s := Value(a) + Value(b);
    if s == 0.0 then Float(a.neg && b.neg, Fin(0.0)) else FromReal(s)
  }

  /** Real sum of a sequence of finite floats. */
  function RealSum(xs: seq<Float>): real
    requires forall i :: 0 <= i < |xs| ==> IsFinite(xs[i])
  {
    if |xs| == 0 then 0.0 else RealSum(xs[..|xs| - 1]) + Value(xs[|xs| - 1])
  }

  /** Left-to-right float accumulation `acc += x` starting from `acc`. */
  function SumFrom(acc: Float, xs: seq<Float>): Float
    requires IsFinite(acc)
    requires forall i :: 0 <= i < |xs| ==> IsFinite(xs[i])
  {
    if |xs| == 0 then acc else Add(SumFrom(acc, xs[..|xs| - 1]), xs[|xs| - 1])
  }

  /** Accumulating from +0.0 gives exactly the float of the real sum: the
      result is independent of the order of additions, and a zero total is
      +0.0.  This is why the vectorised reductions, which add in a different
      order, can be modelled by the real sum. */
  lemma {:induction false} SumFromPosZero(xs: seq<Float>)
    requires forall i :: 0 <= i < |xs| ==> IsFinite(xs[i])
    ensures SumFrom(PosZero, xs) == FromReal(RealSum(xs))
  {
    if |xs| > 0 {
      SumFromPosZero(xs[..|xs| - 1]);
    }
  }

  /** The hard decisions held in a vector of floats: `x & 0x80000000` for
      each entry, the sign bit as a bit. */
  function SignBits(xs: seq<Float>): (bits: seq<bool>)
    ensures |bits| == |xs| && forall i :: 0 <= i < |xs| ==> bits[i] == xs[i].neg
  {
    seq(|xs|, i requires 0 <= i < |xs| => xs[i].neg)
  }

  lemma SignBitsConcat(a: seq<Float>, b: seq<Float>)
    ensures SignBits(a + b) == SignBits(a) + SignBits(b)
  {
  }

  /** The float that stores a hard decision: -0.0 for the bit 1, +0.0 for
      the bit 0. */
  function BitFloat(bit: bool): (f: Float)
    ensures f.neg == bit && f.mag == Fin(0.0)
  {
    if bit then NegZero else PosZero
  }
}

=== FILE: infobits.dfy ===
/** Information bits of a polar code word.

    A code word of N bits has information positions and frozen positions; a
    mask holds `true` at the information positions (the `FZLookup` table of
    PolarCode.cpp, the complement of a frozen-bit set).  Scatter writes data
    bits, in order, into the information positions; Gather reads them back in
    ascending position order. */
module InfoBits {
  import opened Seqs

  /** Number of information positions. */
  function Count(mask: seq<bool>): (k: nat)
    ensures k <= |mask|
  {
    if |mask| == 0 then 0 else (if mask[0] then 1 else 0) + Count(mask[1..])
  }

  /** The bits of `word` at information positions, in ascending position order. */
  function Gather(mask: seq<bool>, word: seq<bool>): (data: seq<bool>)
    requires |word| == |mask|
    ensures |data| == Count(mask)
  {
    if |mask| == 0 then []
    else (if mask[0] then [word[0]] else []) + Gather(mask[1..], word[1..])
  }

  /** `word` with its information positions overwritten, in order, by the
      first Count(mask) bits of `data`; frozen positions keep their bit. */
  function Scatter(word: seq<bool>, mask: seq<bool>, data: seq<bool>): (r: seq<bool>)
    requires |word| == |mask| && |data| >= Count(mask)
    ensures |r| == |word|
    ensures forall i :: 0 <= i < |mask| && !mask[i] ==> r[i] == word[i]
  {
    if |mask| == 0 then []
    else if mask[0] then [data[0]] + Scatter(word[1..], mask[1..], data[1..])
    else [word[0]] + Scatter(word[1..], mask[1..], data)
  }

  /** The all-zero word. */
  function Zeros(n: nat): (z: seq<bool>)
    ensures |z| == n && forall i :: 0 <= i < n ==> !z[i]
  {
    seq(n, i => false)
  }

  lemma ZerosSnoc(n: nat)
    ensures Zeros(n + 1) == Zeros(n) + [false] == [false] + Zeros(n)
  {
  }

  /** A word with every position frozen has no information positions. */
  lemma {:induction false} CountAllFrozen(mask: seq<bool>)
    requires forall i :: 0 <= i < |mask| ==> !mask[i]
    ensures Count(mask) == 0
  {
    if |mask| > 0 {
      CountAllFrozen(mask[1..]);
    }
  }

  /** Reading back what was scattered returns the data that was used. */
  lemma {:induction false} GatherScatter(word: seq<bool>, mask: seq<bool>, data: seq<bool>)
    requires |word| == |mask| && |data| >= Count(mask)
    ensures Gather(mask, Scatter(word, mask, data)) == data[..Count(mask)]
  {
    if |mask| > 0 {
      var r := Scatter(word, mask, data);
      if mask[0] {
        GatherScatter(word[1..], mask[1..], data[1..]);
        assert r[1..] == Scatter(word[1..], mask[1..], data[1..]);
        assert data[..Count(mask)] == [data[0]] + data[1..][..Count(mask[1..])];
      } else {
        GatherScatter(word[1..], mask[1..], data);
        assert r[1..] == Scatter(word[1..], mask[1..], data);
      }
    }
  }

  /** Scattering a word's own information bits back into it changes nothing. */
  lemma {:induction false} ScatterGather(mask: seq<bool>, word: seq<bool>)
    requires |word| == |mask|
    ensures Scatter(word, mask, Gather(mask, word)) == word
  {
    if |mask| > 0 {
      ScatterGather(mask[1..], word[1..]);
      var g := Gather(mask, word);
      if mask[0] {
        assert g[1..] == Gather(mask[1..], word[1..]);
      } else {
        assert g == Gather(mask[1..], word[1..]);
      }
    }
  }

  /** Gather reads only information positions: frozen bits never affect it. */
  lemma {:induction false} GatherIgnoresFrozen(mask: seq<bool>, w1: seq<bool>, w2: seq<bool>)
    requires |w1| == |mask| && |w2| == |mask|
    requires forall i :: 0 <= i < |mask| && mask[i] ==> w1[i] == w2[i]
    ensures Gather(mask, w1) == Gather(mask, w2)
  {
    if |mask| > 0 {
      GatherIgnoresFrozen(mask[1..], w1[1..], w2[1..]);
    }
  }

  // Appending one position: the loops of the source walk the word from the
  // front, one position at a time.

  lemma {:induction false} CountSnoc(mask: seq<bool>, b: bool)
    ensures Count(mask + [b]) == Count(mask) + (if b then 1 else 0)
  {
    if |mask| > 0 {
      TailSnoc(mask, b);
      CountSnoc(mask[1..], b);
    }
  }

  /** Overwriting one position changes the count by at most one. */
  lemma {:induction false} CountUpdate(mask: seq<bool>, p: nat, b: bool)
    requires p < |mask|
    ensures Count(mask[p := b]) + (if mask[p] then 1 else 0) == Count(mask) + (if b then 1 else 0)
  {
    if p > 0 {
      assert mask[p := b][1..] == mask[1..][p - 1 := b];
      CountUpdate(mask[1..], p - 1, b);
    } else {
      assert mask[p := b][1..] == mask[1..];
    }
  }

  lemma {:induction false} GatherSnoc(mask: seq<bool>, word: seq<bool>, b: bool, x: bool)
    requires |word| == |mask|
    ensures Gather(mask + [b], word + [x]) == Gather(mask, word) + (if b then [x] else [])
  {
    if |mask| > 0 {
      TailSnoc(mask, b);
      TailSnoc(word, x);
      GatherSnoc(mask[1..], word[1..], b, x);
    }
  }

  lemma {:induction false} ScatterSnoc(word: seq<bool>, mask: seq<bool>, data: seq<bool>, x: bool, b: bool)
    requires |word| == |mask| && |data| >= Count(mask + [b])
    ensures Count(mask + [b]) == Count(mask) + (if b then 1 else 0)
    ensures Scatter(word + [x], mask + [b], data) == Scatter(word, mask, data) + [if b then data[Count(mask)] else x]
  {
    CountSnoc(mask, b);
    if |mask| > 0 {
      TailSnoc(mask, b);
      TailSnoc(word, x);
      var w1, m1 := word[1..], mask[1..];
      if mask[0] {
        var d1 := data[1..];
        ScatterSnoc(w1, m1, d1, x, b);
        assert Scatter(word + [x], mask + [b], data) == [data[0]] + Scatter(w1 + [x], m1 + [b], d1);
        assert Scatter(word, mask, data) == [data[0]] + Scatter(w1, m1, d1);
      } else {
        ScatterSnoc(w1, m1, data, x, b);
        assert Scatter(word + [x], mask + [b], data) == [word[0]] + Scatter(w1 + [x], m1 + [b], data);
        assert Scatter(word, mask, data) == [word[0]] + Scatter(w1, m1, data);
      }
    }
  }

  /** The information positions of a word split between a prefix and the
      rest. */
  lemma {:induction false} CountSplit(mask: seq<bool>, i: nat)
    requires i <= |mask|
    ensures Count(mask) == Count(mask[..i]) + Count(mask[i..])
  {
    if i > 0 {
      CountSplit(mask[1..], i - 1);
      assert mask[..i][1..] == mask[1..][..i - 1];
      assert mask[1..][i - 1..] == mask[i..];
    }
  }

  /** A prefix has at most as many information positions as the whole word. */
  lemma CountPrefixBound(mask: seq<bool>, i: nat)
    requires i <= |mask|
    ensures Count(mask[..i]) <= Count(mask)
  {
    CountSplit(mask, i);
  }

  /** Extending a prefix by one position. */
  lemma CountPrefixStep(mask: seq<bool>, i: nat)
    requires i < |mask|
    ensures Count(mask[..i + 1]) == Count(mask[..i]) + (if mask[i] then 1 else 0)
  {
    PrefixSnoc(mask, i);
    CountSnoc(mask[..i], mask[i]);
  }
}

=== FILE: interleaver.dfy ===
/** The simulation helpers of polar_code_simulation.py: the LTE sub-block
    interleaver index pattern, the check that an interleaver and its
    inverse scatter recover the information bits, and the frame error rate.

    Arrays are sequences of integers.  The NaN dummies the source prepends
    before the read-out are `None` here and the surviving entries are
    `Some`, so "drop the NaNs" is `Keep`.  numpy's fancy indexing accepts
    negative positions counted from the end; `Wrap` models that. */
module LteInterleaver {
  import opened Seqs
  import opened Outcomes
  import opened TrackingSorter
  import opened Powers

  /** The Python exceptions the helpers can raise. */
  datatype PyError = ValueError | IndexError | AssertionError

  /** The inter-column permutation of the sub-block interleaver (section
      5.1.4.1.1 of 3GPP TS 36.212): 5-bit bit reversal of the column. */
  const Pattern: seq<int> :=
    [0, 16, 8, 24, 4, 20, 12, 28, 2, 18, 10, 26, 6, 22, 14, 30,
     1, 17, 9, 25, 5, 21, 13, 29, 3, 19, 11, 27, 7, 23, 15, 31]

  /** The pattern is a permutation of the 32 columns and its own inverse. */
  lemma PatternPermutation()
    ensures IsPermutation(Pattern, 32)
    ensures forall c :: 0 <= c < 32 ==> Pattern[Pattern[c]] == c
  {
    PatternInvolution();
    forall i, j | 0 <= i < j < 32
      ensures Pattern[i] != Pattern[j]
    {
      assert Pattern[Pattern[i]] == i && Pattern[Pattern[j]] == j;
    }
  }

  lemma PatternInvolution()
    ensures forall c :: 0 <= c < 32 ==> 0 <= Pattern[c] < 32 && Pattern[Pattern[c]] == c
  {
  }

  // ---------------------------------------------------------------------
  // The padded matrix
  // ---------------------------------------------------------------------

  /** Number of rows: the ceiling of L / 32. */
  function RowLen(n: nat): (rows: nat)
    ensures 32 * rows >= n && (rows == 0 || 32 * (rows - 1) < n)
  {
    (n + 31) / 32
  }

  /** Number of NaN dummies placed in front of the block. */
  function DummyLen(n: nat): (d: nat)
    ensures d < 32 && 32 * RowLen(n) == n + d
  {
    32 * RowLen(n) - n
  }

  /** The block with its dummies in front, row-major in the 32 columns. */
  function Padded(block: seq<int>): (p: seq<Option<int>>)
    ensures |p| == 32 * RowLen(|block|)
    ensures forall j :: 0 <= j < |p| ==>
      p[j] == if j < DummyLen(|block|) then None
              else Some(block[j - DummyLen(|block|)])
  {
    Filled(None, DummyLen(|block|)) + seq(|block|, i requires 0 <= i < |block| => Some(block[i]))
  }

  // ---------------------------------------------------------------------
  // Column-wise read-out through the pattern
  // ---------------------------------------------------------------------

  /** Matrix position of the k-th entry read out: columns are taken in
      pattern order and each column is read top to bottom. */
  function ReadIndex(rows: nat, k: nat): (j: nat)
    requires k < 32 * rows
    ensures j < 32 * rows
  {
    ReadBound(rows, k);
    (k % rows) * 32 + Pattern[k / rows]
  }

  lemma ReadBound(rows: nat, k: nat)
    requires k < 32 * rows
    ensures rows > 0 && k / rows < 32 && (k % rows) * 32 + 31 < 32 * rows
  {
    assert rows > 0;
    var q, r := k / rows, k % rows;
    assert k == q * rows + r;
    if q >= 32 {
      MulMonotone(32, q, rows);
    }
    assert r <= rows - 1;
    MulMonotone(r, rows - 1, 32);
  }

  /** Where the entry at matrix position j is read out. */
  function WriteSlot(rows: nat, j: nat): (k: nat)
    requires j < 32 * rows
  {
    Pattern[j % 32] * rows + j / 32
  }

  /** `WriteSlot` undoes `ReadIndex`. */
  lemma WriteAfterRead(rows: nat, k: nat)
    requires k < 32 * rows
    ensures WriteSlot(rows, ReadIndex(rows, k)) == k
  {
    ReadBound(rows, k);
    PatternPermutation();
    var r, c := k % rows, k / rows;
    var j := ReadIndex(rows, k);
    assert j == r * 32 + Pattern[c];
    DivModUnique(j, 32, r, Pattern[c]);
    assert k == c * rows + r;
  }

  /** `ReadIndex` undoes `WriteSlot`, so the read-out is a bijection of the
      matrix positions. */
  lemma ReadAfterWrite(rows: nat, j: nat)
    requires j < 32 * rows
    ensures WriteSlot(rows, j) < 32 * rows
    ensures ReadIndex(rows, WriteSlot(rows, j)) == j
  {
    PatternPermutation();
    var q, c := j / 32, j % 32;
    assert j == q * 32 + c;
    assert q < rows;
    var k := WriteSlot(rows, j);
    assert k == Pattern[c] * rows + q;
    MulMonotone(Pattern[c], 31, rows);
    DivModUnique(k, rows, Pattern[c], q);
  }

  /** Some read-out step visits matrix position j. */
  lemma ReadOnto(rows: nat, j: nat) returns (k: nat)
    requires j < 32 * rows
    ensures k < 32 * rows && ReadIndex(rows, k) == j
  {
    ReadAfterWrite(rows, j);
    k := WriteSlot(rows, j);
  }

  /** Two read-out steps never visit the same matrix position. */
  lemma ReadInjective(rows: nat, k1: nat, k2: nat)
    requires k1 < 32 * rows && k2 < 32 * rows
    requires ReadIndex(rows, k1) == ReadIndex(rows, k2)
    ensures k1 == k2
  {
    WriteAfterRead(rows, k1);
    WriteAfterRead(rows, k2);
  }

  // ---------------------------------------------------------------------
  // Dropping dummies
  // ---------------------------------------------------------------------

  /** The present values, in order (the source's `x[~isnan(x)]`). */
  function Keep<T>(s: seq<Option<T>>): (r: seq<T>)
    ensures |r| <= |s|
  {
    if |s| == 0 then []
    else (if s[0].Some? then [s[0].value] else []) + Keep(s[1..])
  }

  /** A value survives exactly when some slot held it. */
  lemma {:induction false} KeepMember<T>(s: seq<Option<T>>, v: T)
    ensures v in Keep(s) <==> Some(v) in s
  {
    if |s| > 0 {
      KeepMember(s[1..], v);
      assert s == [s[0]] + s[1..];
    }
  }

  /** Distinct present values stay distinct once the dummies are dropped. */
  lemma {:induction false} KeepDistinct(s: seq<int>, o: seq<Option<int>>)
    requires s == Keep(o)
    requires forall a, b :: 0 <= a < b < |o| && o[a].Some? && o[b].Some? ==> o[a] != o[b]
    ensures forall a, b :: 0 <= a < b < |s| ==> s[a] != s[b]
    decreases |o|
  {
    if |o| > 0 {
      var rest := Keep(o[1..]);
      KeepDistinct(rest, o[1..]);
      if o[0].Some? {
        assert s == [o[0].value] + rest;
        KeepMember(o[1..], o[0].value);
        assert o[0] !in o[1..];
        forall b | 0 < b < |s|
          ensures s[0] != s[b]
        {
          assert s[b] == rest[b - 1];
        }
      } else {
        assert s == rest;
      }
    }
  }

  /** The entry of `block` a slot of positions refers to. */
  function Lift(block: seq<int>, slot: Option<int>): (e: Option<int>)
    requires slot.Some? ==> 0 <= slot.value < |block|
    ensures e.Some? <==> slot.Some?
  {
    if slot.Some? then Some(block[slot.value]) else None
  }

  /** The entries of `block` at the given positions, in order. */
  function Pick(block: seq<int>, positions: seq<int>): (r: seq<int>)
    requires forall i :: 0 <= i < |positions| ==> 0 <= positions[i] < |block|
    ensures |r| == |positions|
    ensures forall i :: 0 <= i < |r| ==> r[i] == block[positions[i]]
  {
    seq(|positions|, i requires 0 <= i < |positions| => block[positions[i]])
  }

  /** Dropping dummies commutes with looking the positions up in `block`. */
  lemma {:induction false} KeepLift(block: seq<int>, o: seq<Option<int>>, lifted: seq<Option<int>>)
    requires forall k :: 0 <= k < |o| && o[k].Some? ==> 0 <= o[k].value < |block|
    requires |lifted| == |o| && forall k :: 0 <= k < |o| ==> lifted[k] == Lift(block, o[k])
    ensures forall i :: 0 <= i < |Keep(o)| ==> 0 <= Keep(o)[i] < |block|
    ensures Keep(lifted) == Pick(block, Keep(o))
  {
    if |o| > 0 {
      KeepLift(block, o[1..], lifted[1..]);
      var tail := Keep(o[1..]);
      if o[0].Some? {
        assert Keep(o) == [o[0].value] + tail;
      } else {
        assert Keep(o) == tail;
      }
    }
  }

  // ---------------------------------------------------------------------
  // The interleaver
  // ---------------------------------------------------------------------

  /** What the read-out finds at step k: a dummy, or block position p. */
  function Slot(n: nat, k: nat): (s: Option<int>)
    requires k < 32 * RowLen(n)
    ensures s.Some? ==> 0 <= s.value < n
  {
    var j := ReadIndex(RowLen(n), k);
    if j < DummyLen(n) then None else Some(j - DummyLen(n))
  }

  /** The read-out as block positions, dummies included. */
  function Slots(n: nat): (o: seq<Option<int>>)
    ensures |o| == 32 * RowLen(n)
    ensures forall k :: 0 <= k < |o| ==> o[k] == Slot(n, k)
  {
    seq(32 * RowLen(n), k requires 0 <= k < 32 * RowLen(n) => Slot(n, k))
  }

  /** The block positions in interleaved order. */
  function Positions(n: nat): (p: seq<int>)
    ensures forall i :: 0 <= i < |p| ==> 0 <= p[i] < n
  {
    KeepLift(Range(n), Slots(n), Slots(n));
    Keep(Slots(n))
  }

  /** The padded matrix read out column by column in pattern order. */
  function ReadOut(block: seq<int>): (r: seq<Option<int>>)
    ensures |r| == 32 * RowLen(|block|)
    ensures forall k :: 0 <= k < |r| ==> r[k] == Padded(block)[ReadIndex(RowLen(|block|), k)]
  {
    var rows := RowLen(|block|);
    seq(32 * rows, k requires 0 <= k < 32 * rows => Padded(block)[ReadIndex(rows, k)])
  }

  /** The interleaved read-out of the block with the dummies dropped. */
  function Interleave(block: seq<int>): (out: seq<int>)
    ensures |out| <= 32 * RowLen(|block|)
  {
    Keep(ReadOut(block))
  }

  /** `lte_subblock_interleaver_indices`: the interleaved block, or the
      AssertionError of its final check that the result sorts to
      0, 1, ..., len - 1. */
  function InterleaverIndices(block: seq<int>): (r: Result<seq<int>, PyError>)
    ensures r.Success? ==> IsPermutation(r.value, |r.value|)
  {
    var out := Interleave(block);
    if IsPermutation(out, |out|) then Success(out) else Failure(AssertionError)
  }

  /** The interleaved block is the block picked at `Positions`. */
  lemma InterleaveIsPick(block: seq<int>)
    ensures Interleave(block) == Pick(block, Positions(|block|))
  {
    var n := |block|;
    var rows := RowLen(n);
    var padded := Padded(block);
    var o := Slots(n);
    var read := ReadOut(block);
    forall k | 0 <= k < 32 * rows
      ensures read[k] == Lift(block, o[k])
    {
      var j := ReadIndex(rows, k);
      assert padded[j] == if j < DummyLen(n) then None else Some(block[j - DummyLen(n)]);
    }
    KeepLift(block, o, read);
  }

  /** Distinct read-out steps name distinct block positions. */
  lemma SlotsDistinct(n: nat)
    ensures forall a, b :: 0 <= a < b < |Slots(n)| && Slots(n)[a].Some? && Slots(n)[b].Some? ==>
      Slots(n)[a] != Slots(n)[b]
  {
    var o := Slots(n);
    forall a, b | 0 <= a < b < |o| && o[a].Some? && o[b].Some?
      ensures o[a] != o[b]
    {
      if o[a] == o[b] {
        ReadInjective(RowLen(n), a, b);
      }
    }
  }

  /** Every block position is named by some read-out step. */
  lemma SlotsCover(n: nat, v: int)
    requires 0 <= v < n
    ensures Some(v) in Slots(n)
  {
    var rows, d := RowLen(n), DummyLen(n);
    var o := Slots(n);
    var k := ReadOnto(rows, v + d);
    SlotValue(n, k, v + d);
    assert o[k] == Some(v);
  }

  lemma SlotValue(n: nat, k: nat, j: nat)
    requires k < 32 * RowLen(n) && ReadIndex(RowLen(n), k) == j && DummyLen(n) <= j
    ensures Slot(n, k) == Some(j - DummyLen(n))
  {
  }

  /** Distinct values of [0, n) that include every one of them are a
      permutation of [0, n). */
  lemma CoverPermutation(p: seq<int>, n: nat)
    requires forall i :: 0 <= i < |p| ==> 0 <= p[i] < n
    requires forall a, b :: 0 <= a < b < |p| ==> p[a] != p[b]
    requires forall v :: 0 <= v < n ==> v in p
    ensures IsPermutation(p, n)
  {
    DistinctCard(p);
    DistinctCard(Range(n));
    var sp := set x | x in p;
    var sr := set x | x in Range(n);
    assert sp == sr by {
      forall x | x in sr ensures x in sp {
        var i :| 0 <= i < n && Range(n)[i] == x;
      }
      forall x | x in sp ensures x in sr {
        var i :| 0 <= i < |p| && p[i] == x;
        assert Range(n)[x] == x;
      }
    }
  }

  /** Every block position is read out exactly once: the positions form a
      permutation of [0, L). */
  lemma PositionsPermutation(n: nat)
    ensures IsPermutation(Positions(n), n)
  {
    var p := Positions(n);
    SlotsDistinct(n);
    KeepDistinct(p, Slots(n));
    forall v | 0 <= v < n
      ensures v in p
    {
      SlotsCover(n, v);
      KeepMember(Slots(n), v);
    }
    CoverPermutation(p, n);
  }

  /** With one row the read-out is the pattern itself. */
  lemma PositionsOneRow()
    ensures Positions(32) == Pattern
  {
    var o := Slots(32);
    forall k | 0 <= k < 32
      ensures o[k] == Some(Pattern[k])
    {
      assert k % 1 == 0 && k / 1 == k;
    }
    KeepAllSome(o, Pattern);
  }

  lemma {:induction false} KeepAllSome(o: seq<Option<int>>, s: seq<int>)
    requires |o| == |s| && forall k :: 0 <= k < |o| ==> o[k] == Some(s[k])
    ensures Keep(o) == s
  {
    if |o| > 0 {
      KeepAllSome(o[1..], s[1..]);
      assert s == [s[0]] + s[1..];
    }
  }

  /** A composition of permutations is a permutation, and if picking a
      permutation at the positions is a permutation, so was the block. */
  lemma PickPermutation(block: seq<int>, p: seq<int>)
    requires IsPermutation(p, |block|)
    ensures IsPermutation(Pick(block, p), |block|) <==> IsPermutation(block, |block|)
  {
    var n := |block|;
    var out := Pick(block, p);
    if IsPermutation(block, n) {
      forall a, b | 0 <= a < b < n
        ensures out[a] != out[b]
      {
        assert p[a] != p[b];
        if p[a] < p[b] {
          assert block[p[a]] != block[p[b]];
        } else {
          assert block[p[b]] != block[p[a]];
        }
      }
    }
    if IsPermutation(out, n) {
      forall j | 0 <= j < n
        ensures 0 <= block[j] < n
      {
        PermutationOnto(p, n, j);
      }
      forall a, b | 0 <= a < b < n
        ensures block[a] != block[b]
      {
        PermutationOnto(p, n, a);
        PermutationOnto(p, n, b);
        var ia :| 0 <= ia < n && p[ia] == a;
        var ib :| 0 <= ib < n && p[ib] == b;
        assert ia != ib;
        if ia < ib {
          assert out[ia] != out[ib];
        } else {
          assert out[ib] != out[ia];
        }
      }
    }
  }

  /** The final check of `lte_subblock_interleaver_indices` passes exactly
      when the block itself is a permutation of [0, L), and then the result
      is the block picked at the interleaved positions. */
  lemma InterleaverIndicesCheck(block: seq<int>)
    ensures InterleaverIndices(block).Success? <==> IsPermutation(block, |block|)
    ensures InterleaverIndices(block).Success? ==>
      InterleaverIndices(block).value == Pick(block, Positions(|block|))
  {
    InterleaveIsPick(block);
    PositionsPermutation(|block|);
    PickPermutation(block, Positions(|block|));
  }

  /** On 0, 1, ..., L - 1 the interleaver returns the positions. */
  lemma InterleaveRange(n: nat)
    ensures InterleaverIndices(Range(n)) == Success(Positions(n))
  {
    InterleaverIndicesCheck(Range(n));
    PositionsPermutation(n);
    assert Pick(Range(n), Positions(n)) == Positions(n);
  }

  // ---------------------------------------------------------------------
  // validate_interleaver_padding_combo
  // ---------------------------------------------------------------------

  /** numpy's index normalisation: negative positions count from the end. */
  function Wrap(n: nat, i: int): (j: int)
    requires -(n as int) <= i < n
    ensures 0 <= j < n
  {
    if i < 0 then i + n else i
  }

  predicate ValidIndices(p: seq<int>, n: nat) {
    forall i :: 0 <= i < |p| ==> -(n as int) <= p[i] < n
  }

  /** `x[p]`: gather through the index array. */
  function Gather(x: seq<int>, p: seq<int>): (r: seq<int>)
    requires ValidIndices(p, |x|)
    ensures |r| == |p| && forall i :: 0 <= i < |p| ==> r[i] == x[Wrap(|x|, p[i])]
  {
    seq(|p|, i requires 0 <= i < |p| => x[Wrap(|x|, p[i])])
  }

  /** `base[p] = v`: assignments in index order, a repeated position keeps
      the later value. */
  function Scatter(base: seq<int>, p: seq<int>, v: seq<int>): (r: seq<int>)
    requires |p| == |v| && ValidIndices(p, |base|)
    ensures |r| == |base|
    decreases |p|
  {
    if |p| == 0 then base
    else Scatter(base[Wrap(|base|, p[0]) := v[0]], p[1..], v[1..])
  }

  /** Positions the index array never names keep their value. */
  lemma {:induction false} ScatterOutside(base: seq<int>, p: seq<int>, v: seq<int>, j: int)
    requires |p| == |v| && ValidIndices(p, |base|) && 0 <= j < |base|
    requires forall i :: 0 <= i < |p| ==> Wrap(|base|, p[i]) != j
    ensures Scatter(base, p, v)[j] == base[j]
    decreases |p|
  {
    if |p| > 0 {
      ScatterOutside(base[Wrap(|base|, p[0]) := v[0]], p[1..], v[1..], j);
    }
  }

  /** With distinct non-negative indices, each named position holds its
      value. */
  lemma {:induction false} ScatterAt(base: seq<int>, p: seq<int>, v: seq<int>, i: nat)
    requires |p| == |v| && i < |p|
    requires forall a :: 0 <= a < |p| ==> 0 <= p[a] < |base|
    requires forall a, b :: 0 <= a < b < |p| ==> p[a] != p[b]
    ensures Scatter(base, p, v)[p[i]] == v[i]
    decreases |p|
  {
    var next := base[p[0] := v[0]];
    if i == 0 {
      ScatterOutside(next, p[1..], v[1..], p[0]);
    } else {
      ScatterAt(next, p[1..], v[1..], i - 1);
    }
  }

  /** Sending through a permutation and scattering back recovers the
      signal. */
  lemma GatherScatter(base: seq<int>, x: seq<int>, p: seq<int>)
    requires IsPermutation(p, |x|) && |base| == |x|
    ensures Scatter(base, p, Gather(x, p)) == x
  {
    var n := |x|;
    var back := Scatter(base, p, Gather(x, p));
    forall j | 0 <= j < n
      ensures back[j] == x[j]
    {
      PermutationOnto(p, n, j);
      var i :| 0 <= i < n && p[i] == j;
      ScatterAt(base, p, Gather(x, p), i);
    }
  }

  /** `validate_interleaver_padding_combo`: the first N bits of a padded
      codeword survive interleaving and de-interleaving.  Errors are the
      ones numpy and the assert raise. */
  function ValidateCombo(p: seq<int>, n: nat): (r: Result<(), PyError>)
    ensures r.Success? ==> n <= |p| && ValidIndices(p, |p|)
  {
    if n > |p| then Failure(ValueError)
    else if !ValidIndices(p, |p|) then Failure(IndexError)
    else
      var tx := Range(n) + Filled(0, |p| - n);
      var llrs := Scatter(Filled(0, |p|), p, Gather(tx, p));
      if llrs[..n] == Range(n) then Success(()) else Failure(AssertionError)
  }

  /** Every permutation passes the validation for every N up to its length. */
  lemma ValidatePermutation(p: seq<int>, n: nat)
    requires IsPermutation(p, |p|) && n <= |p|
    ensures ValidateCombo(p, n) == Success(())
  {
    var tx := Range(n) + Filled(0, |p| - n);
    GatherScatter(Filled(0, |p|), tx, p);
    assert tx[..n] == Range(n);
  }

  /** A repeated index loses a bit and the validation fails. */
  lemma ValidateRepeated()
    ensures ValidateCombo([0, 0], 2) == Failure(AssertionError)
  {
    var tx := Range(2) + Filled(0, 0);
    assert tx == [0, 1];
    var llrs := Scatter(Filled(0, 2), [0, 0], Gather(tx, [0, 0]));
    assert Gather(tx, [0, 0]) == [0, 0];
    assert llrs[1] == 0;
  }

  /** The interleaver built from 0, 1, ..., L - 1 passes the validation. */
  lemma InterleaverValidates(len: nat, n: nat)
    requires n <= len
    ensures InterleaverIndices(Range(len)).Success?
    ensures ValidateCombo(InterleaverIndices(Range(len)).value, n) == Success(())
  {
    InterleaveRange(len);
    PositionsPermutation(len);
    ValidatePermutation(Positions(len), n);
  }

  // ---------------------------------------------------------------------
  // calculate_fer
  // ---------------------------------------------------------------------

  /** Frames whose count of correct bits is the whole information length. */
  function CountCorrect(results: seq<int>, infoLength: int): (c: nat)
    ensures c <= |results|
  {
    if |results| == 0 then 0
    else (if results[0] == infoLength then 1 else 0) + CountCorrect(results[1..], infoLength)
  }

  /** All frames correct, or none, exactly at the ends of the count. */
  lemma {:induction false} CountCorrectEnds(results: seq<int>, infoLength: int)
    ensures CountCorrect(results, infoLength) == |results| <==>
      forall i :: 0 <= i < |results| ==> results[i] == infoLength
    ensures CountCorrect(results, infoLength) == 0 <==>
      forall i :: 0 <= i < |results| ==> results[i] != infoLength
  {
    if |results| > 0 {
      CountCorrectEnds(results[1..], infoLength);
      assert forall i :: 1 <= i < |results| ==> results[i] == results[1..][i - 1];
    }
  }

  /** A float64 quotient: a number, or numpy's `nan`.  Dividing the float
      `0.0` by the integer `0` does not raise in numpy: it yields `nan`
      and emits a RuntimeWarning, which is not modelled. */
  datatype Rate = Number(value: real) | NotANumber

  /** `calculate_fer`: the fraction of frames with a bit error.  The
      numerator is a numpy float, so an empty result list gives `nan`
      rather than an exception. */
  function CalculateFer(results: seq<int>, infoLength: int): (r: Rate)
    ensures r.NotANumber? <==> |results| == 0
  {
    if |results| == 0 then NotANumber
    else Number((|results| - CountCorrect(results, infoLength)) as real / |results| as real)
  }

  /** The frame error rate is a fraction, zero exactly when every frame is
      correct and one exactly when none is. */
  lemma FerRange(results: seq<int>, infoLength: int)
    requires |results| > 0
    ensures 0.0 <= CalculateFer(results, infoLength).value <= 1.0
    ensures CalculateFer(results, infoLength).value == 0.0 <==>
      forall i :: 0 <= i < |results| ==> results[i] == infoLength
    ensures CalculateFer(results, infoLength).value == 1.0 <==>
      forall i :: 0 <= i < |results| ==> results[i] != infoLength
  {
    CountCorrectEnds(results, infoLength);
    var total := |results| as real;
    var wrong := (|results| - CountCorrect(results, infoLength)) as real;
    FractionBounds(wrong, total);
  }

  lemma FractionBounds(wrong: real, total: real)
    requires 0.0 <= wrong <= total && total > 0.0
    ensures 0.0 <= wrong / total <= 1.0
    ensures wrong / total == 0.0 <==> wrong == 0.0
    ensures wrong / total == 1.0 <==> wrong == total
  {
  }
}

=== FILE: outcomes.dfy ===
/** Optional values and results with an error, for the error paths of the
    modelled code (exceptions, `std::out_of_range`, failed assertions). */
module Outcomes {

  datatype Option<T> = None | Some(value: T)

  datatype Result<T, E> = Success(value: T) | Failure(error: E)
}

=== FILE: parities.dfy ===
/** Parity of a word of hard decisions: the XOR of its bits, as the decoders
    accumulate it (`parity ^= bit`, or a XOR of the sign bits). */
module Parities {

  /** XOR of all bits; `true` means odd parity. */
  function Parity(bits: seq<bool>): bool {
    if |bits| == 0 then false else Parity(bits[..|bits| - 1]) != bits[|bits| - 1]
  }

  /** The accumulation step `parity ^= bit`. */
  lemma ParitySnoc(bits: seq<bool>, b: bool)
    ensures Parity(bits + [b]) == (Parity(bits) != b)
  {
    assert (bits + [b])[..|bits|] == bits;
  }

  /** Flipping one bit flips the parity. */
  lemma {:induction false} ParityFlip(bits: seq<bool>, i: nat)
    requires i < |bits|
    ensures Parity(bits[i := !bits[i]]) == !Parity(bits)
  {
    var k: nat := |bits| - 1;
    var p, u := bits[..k], bits[i := !bits[i]];
    if i == k {
      assert u[..k] == p;
    } else {
      assert u[..k] == p[i := !p[i]];
      ParityFlip(p, i);
    }
  }

  /** The parity of two words side by side is the XOR of their parities. */
  lemma {:induction false} ParityConcat(a: seq<bool>, b: seq<bool>)
    ensures Parity(a + b) == (Parity(a) != Parity(b))
  {
    if |b| > 0 {
      var k: nat := |b| - 1;
      var c := b[..k];
      assert a + b == (a + c) + [b[k]] && b == c + [b[k]];
      ParitySnoc(a + c, b[k]);
      ParitySnoc(c, b[k]);
      ParityConcat(a, c);
    } else {
      assert a + b == a;
    }
  }

  /** A word without set bits has even parity. */
  lemma {:induction false} ParityAllClear(bits: seq<bool>)
    requires forall i :: 0 <= i < |bits| ==> !bits[i]
    ensures !Parity(bits)
  {
    if |bits| > 0 {
      ParityAllClear(bits[..|bits| - 1]);
    }
  }
}

=== FILE: polar_code.dfy ===
/** The `PolarCode` class of PolarCode.cpp: channel selection (`pcc`), the
    simplified decoding tree, the butterfly encoder and its inverse
    `transform`, information-bit extraction, and the special nodes `Combine`,
    `SPC` and `Repetition` of the fast simplified successive-cancellation
    decoder.

    A code has N = 2^n bits, of which K carry information.  A bool mask of
    length N (`FZLookup`) holds `true` at the information positions.  The
    decoders keep hard decisions in the sign bits of floats; here they are
    plain bools, `true` standing for the sign bit set (bit value 1). */
module PolarCode {
  import opened Powers
  import opened InfoBits
  import opened Floats
  import opened Seqs
  import TrackingSorter

  // ---------------------------------------------------------------------
  // The simplified code tree

  /** `nodeInfo`: the kind of decoder a subtree of the code tree gets. */
  datatype NodeInfo = RateZero | RateOne | RateHalf | SpcNode | RepetitionNode | RateR

  /** The leaf of an information (RateOne) or frozen (RateZero) position. */
  function Leaf(info: bool): (k: NodeInfo)
    ensures k == RateOne || k == RateZero
    ensures k == RateOne <==> info
  {
    if info then RateOne else RateZero
  }

  /** The roll-up rule of `pcc` for a parent with children `left` and
      `right`; `bottom` says the parent sits at level n - 1, just above the
      leaves. */
  function RollUp(left: NodeInfo, right: NodeInfo, bottom: bool): NodeInfo {
    if left == RateZero && right == RateZero then RateZero
    else if left == RateOne && right == RateOne then RateOne
    else if (left == RateHalf || left == SpcNode) && right == RateOne then SpcNode
    else if left == RateZero && (right == RateHalf || right == RepetitionNode) then RepetitionNode
    else if left == RateZero && right == RateOne && bottom then RateHalf
    else RateR
  }

  /** A parent is RateZero exactly when both children are, RateOne exactly
      when both children are, and RateHalf only just above the leaves. */
  lemma RollUpRates(left: NodeInfo, right: NodeInfo, bottom: bool)
    ensures RollUp(left, right, bottom) == RateZero <==> left == RateZero && right == RateZero
    ensures RollUp(left, right, bottom) == RateOne <==> left == RateOne && right == RateOne
    ensures RollUp(left, right, bottom) == RateHalf ==> bottom
  {
  }

  /** The kind of the node spanning the block of 2^m positions starting at
      `lo`, by recursion on its two halves. */
  function Kind(mask: seq<bool>, lo: nat, m: nat): NodeInfo
    requires lo + Pow2(m) <= |mask|
    decreases m
  {
    if m == 0 then Leaf(mask[lo])
    else
      var h := Pow2(m - 1);
      RollUp(Kind(mask, lo, m - 1), Kind(mask, lo + h, m - 1), m == 1)
  }

  predicate AllFrozen(mask: seq<bool>) {
    forall i :: 0 <= i < |mask| ==> !mask[i]
  }

  predicate AllInfo(mask: seq<bool>) {
    forall i :: 0 <= i < |mask| ==> mask[i]
  }

  /** Single parity check shape: the first position frozen, all others
      information, at least four positions. */
  predicate SpcShape(mask: seq<bool>) {
    |mask| >= 4 && !mask[0] && forall i :: 1 <= i < |mask| ==> mask[i]
  }

  /** Repetition shape: only the last position carries information, at least
      four positions. */
  predicate RepetitionShape(mask: seq<bool>) {
    |mask| >= 4 && mask[|mask| - 1] && forall i :: 0 <= i < |mask| - 1 ==> !mask[i]
  }

  /** What each node kind means in terms of the positions it spans. */
  function Shape(mask: seq<bool>): NodeInfo {
    if AllFrozen(mask) then RateZero
    else if AllInfo(mask) then RateOne
    else if mask == [false, true] then RateHalf
    else if SpcShape(mask) then SpcNode
    else if RepetitionShape(mask) then RepetitionNode
    else RateR
  }

  /** The shapes are mutually exclusive, so each kind is met exactly by its
      shape. */
  lemma ShapeCases(mask: seq<bool>)
    ensures Shape(mask) == RateHalf <==> mask == [false, true]
    ensures Shape(mask) == SpcNode <==> SpcShape(mask)
    ensures Shape(mask) == RepetitionNode <==> RepetitionShape(mask)
  {
    if SpcShape(mask) {
      assert !mask[0] && mask[1];
    }
    if RepetitionShape(mask) {
      assert !mask[0] && !mask[1] && mask[|mask| - 1];
    }
    if mask == [false, true] {
      assert !mask[0] && mask[1];
    }
  }

  lemma HalvesFrozenInfo(mask: seq<bool>, h: nat)
    requires 0 < h < |mask|
    ensures AllFrozen(mask) <==> AllFrozen(mask[..h]) && AllFrozen(mask[h..])
    ensures AllInfo(mask) <==> AllInfo(mask[..h]) && AllInfo(mask[h..])
  {
    if AllFrozen(mask[..h]) && AllFrozen(mask[h..]) {
      forall i | 0 <= i < |mask| ensures !mask[i] {
        if i >= h { assert mask[i] == mask[h..][i - h]; } else { assert mask[i] == mask[..h][i]; }
      }
    }
    if AllInfo(mask[..h]) && AllInfo(mask[h..]) {
      forall i | 0 <= i < |mask| ensures mask[i] {
        if i >= h { assert mask[i] == mask[h..][i - h]; } else { assert mask[i] == mask[..h][i]; }
      }
    }
  }

  /** A block of two or more positions is SPC-shaped exactly when its left
      half is SPC- or RateHalf-shaped and its right half all information;
      likewise for the repetition shape. */
  lemma HalvesShapes(mask: seq<bool>, h: nat)
    requires |mask| == 2 * h && (h == 2 || h >= 4)
    ensures SpcShape(mask) <==> (SpcShape(mask[..h]) || mask[..h] == [false, true]) && AllInfo(mask[h..])
    ensures RepetitionShape(mask) <==> AllFrozen(mask[..h]) && (RepetitionShape(mask[h..]) || mask[h..] == [false, true])
  {
    var a, b := mask[..h], mask[h..];
    assert forall i :: 0 <= i < h ==> a[i] == mask[i] && b[i] == mask[h + i];
    if (SpcShape(a) || a == [false, true]) && AllInfo(b) {
      forall i | 1 <= i < |mask| ensures mask[i] {
        if i >= h { assert mask[i] == b[i - h]; } else { assert mask[i] == a[i]; }
      }
    }
    if AllFrozen(a) && (RepetitionShape(b) || b == [false, true]) {
      forall i | 0 <= i < |mask| - 1 ensures !mask[i] {
        if i >= h { assert mask[i] == b[i - h]; } else { assert mask[i] == a[i]; }
      }
    }
    if SpcShape(mask) {
      if h == 2 {
        assert a == [false, true];
      } else {
        assert SpcShape(a);
      }
      assert AllInfo(b);
    }
    if RepetitionShape(mask) {
      if h == 2 {
        assert b == [false, true];
      } else {
        assert b[h - 1] == mask[2 * h - 1];
        assert RepetitionShape(b);
      }
      assert AllFrozen(a);
    }
  }

  /** The two halves of the block [lo, lo + 2h) are [lo, lo + h) and
      [lo + h, lo + 2h). */
  lemma BlockHalves(mask: seq<bool>, lo: nat, h: nat)
    requires lo + 2 * h <= |mask|
    ensures mask[lo .. lo + 2 * h][..h] == mask[lo .. lo + h]
    ensures mask[lo .. lo + 2 * h][h..] == mask[lo + h .. lo + 2 * h]
  {
  }

  /** The roll-up rule is exact on shapes: the shape of a block of 2h
      positions (h a power of two) is the roll-up of the shapes of its
      halves. */
  lemma ShapeRollUp(blk: seq<bool>, h: nat)
    requires |blk| == 2 * h && (h == 1 || h == 2 || h >= 4)
    ensures Shape(blk) == RollUp(Shape(blk[..h]), Shape(blk[h..]), h == 1)
  {
    var a, b := blk[..h], blk[h..];
    HalvesFrozenInfo(blk, h);
    if h == 1 {
      assert a == [blk[0]] && b == [blk[1]];
    } else {
      HalvesShapes(blk, h);
      ShapeCases(blk);
      ShapeCases(a);
      ShapeCases(b);
    }
  }

  /** The recursive roll-up classifies every block by its shape: RateZero
      exactly when all positions are frozen, RateOne when none is, RateHalf
      for the pair (frozen, information), SpcNode and RepetitionNode for the
      single-parity-check and repetition shapes, RateR otherwise. */
  lemma {:induction false} KindIsShape(mask: seq<bool>, lo: nat, m: nat)
    requires lo + Pow2(m) <= |mask|
    ensures Kind(mask, lo, m) == Shape(mask[lo .. lo + Pow2(m)])
    decreases m
  {
    if m == 0 {
      assert mask[lo .. lo + 1] == [mask[lo]];
    } else {
      var h := Pow2(m - 1);
      KindIsShape(mask, lo, m - 1);
      KindIsShape(mask, lo + h, m - 1);
      BlockHalves(mask, lo, h);
      assert h == 1 || h == 2 || h >= 4 by {
        if m > 2 { Pow2Monotone(2, m - 1); } else if m == 2 { assert h == Pow2(1); }
      }
      ShapeRollUp(mask[lo .. lo + 2 * h], h);
    }
  }

  /** The roll-up over the heap-ordered array `simplifiedTree` of a code with
      2^n positions: node idx has children 2idx+1 and 2idx+2, and position q
      is the leaf at index 2^n - 1 + q.  A node is just above the leaves when
      its index is at least 2^(n-1) - 1. */
  function KindAt(mask: seq<bool>, n: nat, idx: nat): NodeInfo
    requires |mask| == Pow2(n) && idx < 2 * Pow2(n) - 1
    decreases 2 * Pow2(n) - idx
  {
    if idx >= Pow2(n) - 1 then Leaf(mask[idx - (Pow2(n) - 1)])
    else RollUp(KindAt(mask, n, 2 * idx + 1), KindAt(mask, n, 2 * idx + 2), n >= 1 && idx >= Pow2(n - 1) - 1)
  }

  /** The whole heap-ordered array `simplifiedTree` the roll-up produces. */
  function TreeOf(mask: seq<bool>, n: nat): (t: seq<NodeInfo>)
    requires |mask| == Pow2(n)
    ensures |t| == 2 * Pow2(n) - 1
  {
    seq(2 * Pow2(n) - 1, idx requires 0 <= idx < 2 * Pow2(n) - 1 => KindAt(mask, n, idx))
  }

  /** Block arithmetic of one level: node j of level l spans a block of
      S = 2^(n-l) positions starting at j S; its children, nodes 2j and 2j+1
      of level l+1, span the two halves. */
  lemma LevelBlocks(n: nat, l: nat, j: nat)
    requires l < n
    ensures Pow2(n - l) == 2 * Pow2(n - (l + 1))
    ensures BlockStart(2 * j, Pow2(n - (l + 1))) == BlockStart(j, Pow2(n - l))
    ensures BlockStart(2 * j + 1, Pow2(n - (l + 1))) == BlockStart(j, Pow2(n - l)) + Pow2(n - (l + 1))
  {
    var h := Pow2(n - (l + 1));
    BlockStartDouble(j, h);
  }

  /** Heap arithmetic of one level: node j of level l has heap index
      2^l - 1 + j, and its children have heap indices 2^(l+1) - 1 + 2j and
      2^(l+1) - 1 + 2j + 1; the node is just above the leaves exactly when
      l = n - 1. */
  lemma LevelHeap(n: nat, l: nat, j: nat)
    requires l < n && j < Pow2(l)
    ensures 2 * j + 1 < Pow2(l + 1)
    ensures Pow2(l) - 1 + j < Pow2(n) - 1
    ensures 2 * (Pow2(l) - 1 + j) + 1 == Pow2(l + 1) - 1 + 2 * j
    ensures (Pow2(l) - 1 + j >= Pow2(n - 1) - 1) == (l == n - 1)
  {
    Pow2Monotone(l + 1, n);
    if l < n - 1 {
      Pow2Monotone(l + 1, n - 1);
    }
  }

  /** The block of node j of level l lies inside the code word. */
  lemma BlockInside(n: nat, l: nat, j: nat)
    requires l <= n && j < Pow2(l)
    ensures Pow2(l) - 1 + j < 2 * Pow2(n) - 1
    ensures BlockStart(j, Pow2(n - l)) + Pow2(n - l) == BlockStart(j + 1, Pow2(n - l)) <= Pow2(n)
  {
    Pow2Add(l, n - l);
    BlockStartIsProduct(j + 1, Pow2(n - l));
    MulMonotone(j + 1, Pow2(l), Pow2(n - l));
    Pow2Monotone(l, n);
  }

  /** The roll-up addressed by level and position within the level: node j
      of level l has children 2j and 2j+1 of level l+1; level n holds the
      leaves. */
  function KindOfNode(mask: seq<bool>, n: nat, l: nat, j: nat): NodeInfo
    requires |mask| == Pow2(n) && l <= n && j < Pow2(l)
    decreases n - l
  {
    if l == n then Leaf(mask[j])
    else RollUp(KindOfNode(mask, n, l + 1, 2 * j), KindOfNode(mask, n, l + 1, 2 * j + 1), l == n - 1)
  }

  /** Heap index 2^l - 1 + j is node j of level l. */
  lemma {:induction false} KindAtNode(mask: seq<bool>, n: nat, l: nat, j: nat)
    requires |mask| == Pow2(n) && l <= n && j < Pow2(l)
    ensures Pow2(l) - 1 + j < 2 * Pow2(n) - 1
    ensures KindAt(mask, n, Pow2(l) - 1 + j) == KindOfNode(mask, n, l, j)
    decreases n - l
  {
    BlockInside(n, l, j);
    var idx := Pow2(l) - 1 + j;
    if l < n {
      LevelHeap(n, l, j);
      KindAtNode(mask, n, l + 1, 2 * j);
      KindAtNode(mask, n, l + 1, 2 * j + 1);
      KindAtSplit(mask, n, idx);
    }
  }

  /** Node j of level l spans positions [j 2^(n-l), (j+1) 2^(n-l)) and gets
      the kind of that block. */
  lemma {:induction false} NodeBlock(mask: seq<bool>, n: nat, l: nat, j: nat)
    requires |mask| == Pow2(n) && l <= n && j < Pow2(l)
    ensures BlockStart(j, Pow2(n - l)) + Pow2(n - l) <= Pow2(n)
    ensures KindOfNode(mask, n, l, j) == Kind(mask, BlockStart(j, Pow2(n - l)), n - l)
    decreases n - l
  {
    BlockInside(n, l, j);
    if l == n {
      BlockStartIsProduct(j, 1);
    } else {
      LevelHeap(n, l, j);
      LevelBlocks(n, l, j);
      NodeBlock(mask, n, l + 1, 2 * j);
      NodeBlock(mask, n, l + 1, 2 * j + 1);
    }
  }

  /** One unfolding of KindAt at an inner node. */
  lemma KindAtSplit(mask: seq<bool>, n: nat, idx: nat)
    requires |mask| == Pow2(n) && idx < Pow2(n) - 1
    ensures n >= 1
    ensures KindAt(mask, n, idx) == RollUp(KindAt(mask, n, 2 * idx + 1), KindAt(mask, n, 2 * idx + 2), idx >= Pow2(n - 1) - 1)
  {
  }

  /** The j-th node of level l of `simplifiedTree` is classified by the shape
      of the block it spans; in particular the root by the shape of the whole
      mask. */
  lemma TreeMeaning(mask: seq<bool>, n: nat, l: nat, j: nat)
    requires |mask| == Pow2(n) && l <= n && j < Pow2(l)
    ensures Pow2(l) - 1 + j < 2 * Pow2(n) - 1
    ensures BlockStart(j, Pow2(n - l)) + Pow2(n - l) <= Pow2(n)
    ensures TreeOf(mask, n)[Pow2(l) - 1 + j] == Shape(mask[BlockStart(j, Pow2(n - l)) .. BlockStart(j, Pow2(n - l)) + Pow2(n - l)])
  {
    KindAtNode(mask, n, l, j);
    NodeBlock(mask, n, l, j);
    KindIsShape(mask, BlockStart(j, Pow2(n - l)), n - l);
  }

  /** Inside level lev, `lev == n - 1` is the heap-index test of KindAt. */
  lemma BottomLevel(n: nat, lev: nat, idx: int)
    requires lev < n && Pow2(lev) - 1 <= idx < Pow2(lev + 1) - 1
    ensures (lev == n - 1) == (idx >= Pow2(n - 1) - 1)
  {
    if lev < n - 1 {
      Pow2Monotone(lev + 1, n - 1);
    }
  }

  /** One level of the roll-up loop of `pcc`: nodes 2^lev - 1 .. 2^(lev+1) - 2
      left to right, reading the children at `ctr` and `ctr + 1`. */
  method RollUpLevel(mask: seq<bool>, n: nat, lev: nat, tree0: seq<NodeInfo>) returns (tree: seq<NodeInfo>)
    requires |mask| == Pow2(n) && lev < n && |tree0| == 2 * Pow2(n) - 1
    requires forall q :: Pow2(lev + 1) - 1 <= q < 2 * Pow2(n) - 1 ==> tree0[q] == TreeOf(mask, n)[q]
    ensures |tree| == |tree0|
    ensures forall q :: Pow2(lev) - 1 <= q < 2 * Pow2(n) - 1 ==> tree[q] == TreeOf(mask, n)[q]
  {
    var N := Pow2(n);
    ghost var ref := TreeOf(mask, n);
    var st := Pow2(lev) - 1;
    var ed := Pow2(lev + 1) - 1;
    Pow2Monotone(lev + 1, n);
    tree := tree0;
    var idx, ctr := st, ed;
    while idx < ed
      invariant st <= idx <= ed && ctr == 2 * idx + 1 && |tree| == 2 * N - 1
      invariant forall q :: st <= q < idx ==> tree[q] == ref[q]
      invariant forall q :: ed <= q < 2 * N - 1 ==> tree[q] == ref[q]
    {
      var left := tree[ctr];
      ctr := ctr + 1;
      var right := tree[ctr];
      ctr := ctr + 1;
      BottomLevel(n, lev, idx);
      KindAtSplit(mask, n, idx);
      tree := tree[idx := RollUp(left, right, lev == n - 1)];
      idx := idx + 1;
    }
  }

  /** The roll-up loop of `pcc`: levels from n - 1 up to the root. */
  method RollUpTree(mask: seq<bool>, n: nat, leaves: seq<NodeInfo>) returns (tree: seq<NodeInfo>)
    requires |mask| == Pow2(n) && |leaves| == 2 * Pow2(n) - 1
    requires forall q :: 0 <= q < Pow2(n) ==> leaves[Pow2(n) - 1 + q] == Leaf(mask[q])
    ensures tree == TreeOf(mask, n)
  {
    var N := Pow2(n);
    ghost var ref := TreeOf(mask, n);
    tree := leaves;
    forall q | N - 1 <= q < 2 * N - 1
      ensures tree[q] == ref[q]
    {
      assert leaves[N - 1 + (q - (N - 1))] == Leaf(mask[q - (N - 1)]);
    }
    var lev: int := n - 1;
    while lev >= 0
      invariant -1 <= lev <= n - 1 && |tree| == 2 * N - 1
      invariant forall q :: Pow2(lev + 1) - 1 <= q < 2 * N - 1 ==> tree[q] == ref[q]
    {
      tree := RollUpLevel(mask, n, lev, tree);
      lev := lev - 1;
    }
  }

  // ---------------------------------------------------------------------
  // Channel selection

  /** The first marking loop of `pcc`: positions p[0..k) become information
      positions with RateOne leaves. */
  method MarkInfo(p: seq<int>, k: nat) returns (mask: seq<bool>, leaves: seq<NodeInfo>)
    requires TrackingSorter.IsPermutation(p, |p|) && 1 <= |p| && k <= |p|
    ensures |mask| == |p| && Count(mask) == k && |leaves| == 2 * |p| - 1
    ensures forall j :: 0 <= j < k ==> mask[p[j]] && leaves[|p| - 1 + p[j]] == RateOne
    ensures forall q :: 0 <= q < |p| && mask[q] ==> exists j :: 0 <= j < k && p[j] == q
  {
    var N := |p|;
    mask := Zeros(N);
    CountAllFrozen(mask);
    leaves := Filled(RateR, 2 * N - 1);
    var i := 0;
    while i < k
      invariant 0 <= i <= k && |mask| == N && |leaves| == 2 * N - 1
      invariant Count(mask) == i
      invariant forall j :: 0 <= j < i ==> mask[p[j]] && leaves[N - 1 + p[j]] == RateOne
      invariant forall q :: 0 <= q < N && mask[q] ==> exists j :: 0 <= j < i && p[j] == q
    {
      CountUpdate(mask, p[i], true);
      mask := mask[p[i] := true];
      leaves := leaves[N - 1 + p[i] := RateOne];
      i := i + 1;
    }
  }

  /** The second marking loop of `pcc`: positions p[k..N) are frozen (they
      already are) and get RateZero leaves. */
  method MarkFrozen(p: seq<int>, k: nat, mask0: seq<bool>, leaves0: seq<NodeInfo>) returns (mask: seq<bool>, leaves: seq<NodeInfo>)
    requires TrackingSorter.IsPermutation(p, |p|) && k <= |p|
    requires |mask0| == |p| && |leaves0| == 2 * |p| - 1
    requires forall j :: 0 <= j < k ==> mask0[p[j]] && leaves0[|p| - 1 + p[j]] == RateOne
    requires forall q :: 0 <= q < |p| && mask0[q] ==> exists j :: 0 <= j < k && p[j] == q
    ensures mask == mask0 && |leaves| == |leaves0|
    ensures forall j :: 0 <= j < |p| ==> mask[p[j]] == (j < k)
    ensures forall j :: 0 <= j < |p| ==> leaves[|p| - 1 + p[j]] == Leaf(mask[p[j]])
  {
    var N := |p|;
    mask, leaves := mask0, leaves0;
    var i := k;
    while i < N
      invariant k <= i <= N && mask == mask0 && |leaves| == 2 * N - 1
      invariant forall j :: 0 <= j < k ==> leaves[N - 1 + p[j]] == RateOne
      invariant forall j :: k <= j < i ==> leaves[N - 1 + p[j]] == RateZero && !mask[p[j]]
    {
      assert !mask[p[i]];
      mask := mask[p[i] := false];
      leaves := leaves[N - 1 + p[i] := RateZero];
      i := i + 1;
    }
  }

  /** The selection part of `pcc`: sort the reliabilities z (smaller is
      better) with the tracking sorter, make the K best positions information
      positions and RateOne leaves, freeze the others as RateZero leaves, then
      roll the tree up.  Exactly K positions carry information, and none of
      them is less reliable than a frozen position. */
  method Pcc(z: seq<real>, n: nat, k: nat) returns (mask: seq<bool>, tree: seq<NodeInfo>)
    requires |z| == Pow2(n) && k <= |z|
    ensures |mask| == |z| && Count(mask) == k
    ensures forall a, b :: 0 <= a < |z| && 0 <= b < |z| && mask[a] && !mask[b] ==> z[a] <= z[b]
    ensures tree == TreeOf(mask, n)
  {
    var N := |z|;
    TrackingSorter.LoadTracks(z);
    var s := TrackingSorter.Sort(z, TrackingSorter.Load(z));
    var p := TrackingSorter.Permuted(s);
    var leaves;
    mask, leaves := MarkInfo(p, k);
    mask, leaves := MarkFrozen(p, k, mask, leaves);
    forall q | 0 <= q < N
      ensures leaves[N - 1 + q] == Leaf(mask[q])
    {
      TrackingSorter.PermutationOnto(p, N, q);
    }
    forall a, b | 0 <= a < N && 0 <= b < N && mask[a] && !mask[b]
      ensures z[a] <= z[b]
    {
      TrackingSorter.PermutationOnto(p, N, a);
      TrackingSorter.PermutationOnto(p, N, b);
      var ia :| 0 <= ia < N && p[ia] == a;
      var ib :| 0 <= ib < N && p[ib] == b;
      assert s[ia].value <= s[ib].value;
    }
    tree := RollUpTree(mask, n, leaves);
  }
}

=== FILE: polar_encoding.dfy ===
/** Encoding and the information-bit interface of PolarCode.cpp: `encode`
    writes the data bits into the information positions and applies the
    butterfly; `transform` turns decided sign bits back into a bit vector;
    `decodeOnePath` reads the information bits out of the re-transformed
    decisions.  The information mask is the `FZLookup` table (`true` at an
    information position). */
module PolarEncoding {
  import opened Seqs
  import opened Powers
  import opened InfoBits
  import opened Floats
  import opened PolarTransform

  /** One round of the insertion loop.  After the positions of `p` have
      been handled, the word is their scatter followed by zeros; the next
      position, with mask bit `b`, receives the next data bit if it is an
      information position and keeps its zero otherwise. */
  lemma InsertRound(p: seq<bool>, b: bool, data: seq<bool>, m: nat)
    requires |data| >= Count(p + [b])
    ensures Count(p + [b]) == Count(p) + (if b then 1 else 0)
    ensures var w := Scatter(Zeros(|p|), p, data) + Zeros(m + 1);
            Scatter(Zeros(|p| + 1), p + [b], data) + Zeros(m) == if b then w[|p| := data[Count(p)]] else w
  {
    ZerosSnoc(|p|);
    ZerosSnoc(m);
    ScatterSnoc(Zeros(|p|), p, data, false, b);
    var v := if b then data[Count(p)] else false;
    UpdateAfterPrefix(Scatter(Zeros(|p|), p, data), false, v, Zeros(m));
  }

  /** The first loop of `encode`: a zero word of N bits receives the data
      bits, in order, at the information positions. */
  method InsertInfo(mask: seq<bool>, data: seq<bool>) returns (word: seq<bool>)
    requires |data| >= Count(mask)
    ensures word == Scatter(Zeros(|mask|), mask, data)
    ensures forall i :: 0 <= i < |mask| && !mask[i] ==> !word[i]
  {
    var n := |mask|;
    word := Zeros(n);
    var ptr := 0;
    var i := 0;
    while i < n
      invariant 0 <= i <= n
      invariant ptr == Count(mask[..i]) && ptr <= Count(mask)
      invariant word == Scatter(Zeros(i), mask[..i], data) + Zeros(n - i)
    {
      PrefixSnoc(mask, i);
      CountPrefixBound(mask, i + 1);
      var m: nat := n - i - 1;
      InsertRound(mask[..i], mask[i], data, m);
      if mask[i] {
        word := word[i := data[ptr]];
        ptr := ptr + 1;
      }
      i := i + 1;
    }
    assert mask[..n] == mask && word == Scatter(Zeros(n), mask, data) + [];
  }

  /** `encode`: insert the information bits, then run the butterfly.  The
      code word is the polar transform of the inserted word. */
  method Encode(mask: seq<bool>, data: seq<bool>, n: nat) returns (encoded: seq<bool>)
    requires |mask| == Pow2(n) && |data| >= Count(mask)
    ensures |encoded| == |mask|
    ensures encoded == Transform(Scatter(Zeros(|mask|), mask, data), n)
  {
    var word := InsertInfo(mask, data);
    encoded := Butterfly(word, n);
  }

  /** `transform`: the sign bits of the decided floats, then the butterfly. */
  method TransformBits(bitsIn: seq<Float>, n: nat) returns (bitsOut: seq<bool>)
    requires |bitsIn| == Pow2(n)
    ensures bitsOut == Transform(SignBits(bitsIn), n)
  {
    var size := |bitsIn|;
    bitsOut := [];
    var i := 0;
    while i < size
      invariant 0 <= i <= size
      invariant bitsOut == SignBits(bitsIn)[..i]
    {
      bitsOut := bitsOut + [bitsIn[i].neg];
      i := i + 1;
    }
    assert bitsOut == SignBits(bitsIn);
    bitsOut := Butterfly(bitsOut, n);
  }

  /** The extraction loop of `decodeOnePath`: the bits of `dhat` at the
      information positions, in ascending position order. */
  method ExtractInfo(mask: seq<bool>, dhat: seq<bool>) returns (decoded: seq<bool>)
    requires |dhat| == |mask|
    ensures decoded == Gather(mask, dhat)
  {
    decoded := [];
    var bit := 0;
    while bit < |mask|
      invariant 0 <= bit <= |mask|
      invariant decoded == Gather(mask[..bit], dhat[..bit])
    {
      PrefixSnoc(mask, bit);
      PrefixSnoc(dhat, bit);
      GatherSnoc(mask[..bit], dhat[..bit], mask[bit], dhat[bit]);
      if mask[bit] {
        decoded := decoded + [dhat[bit]];
      }
      bit := bit + 1;
    }
    assert mask[..bit] == mask && dhat[..bit] == dhat;
  }

  /** `decodeOnePath` after the special-node decoder has run: the decided
      partial sums of the root node (given here as `decisions`, since that
      decoder is not part of this model) are transformed and their
      information bits read out.  Without a CRC the decoding always reports
      success. */
  method DecodeOnePath(mask: seq<bool>, decisions: seq<Float>, n: nat) returns (decoded: seq<bool>, success: bool)
    requires |mask| == Pow2(n) && |decisions| == Pow2(n)
    ensures |decoded| == Count(mask)
    ensures decoded == Gather(mask, Transform(SignBits(decisions), n))
    ensures success
  {
    var dhat := TransformBits(decisions, n);
    decoded := ExtractInfo(mask, dhat);
    success := true;
  }

  /** Reading out a re-transformed code word gives back the data bits:
      `decodeOnePath` inverts `encode` whenever the decoder's decisions are
      the code word. */
  lemma DecodeEncoded(mask: seq<bool>, data: seq<bool>, n: nat)
    requires |mask| == Pow2(n) && |data| >= Count(mask)
    ensures Gather(mask, Transform(Transform(Scatter(Zeros(|mask|), mask, data), n), n)) == data[..Count(mask)]
  {
    var u := Scatter(Zeros(|mask|), mask, data);
    TransformInvolution(u, n);
    GatherScatter(Zeros(|mask|), mask, data);
  }
}

=== FILE: polar_nodes.dfy ===
/** The hard-decision rules for special nodes in PolarCode.cpp.  `SPC`
    decides a single-parity-check node and `Repetition` decides a
    repetition node.  Decisions live in the sign bits of the output floats
    (-0.0 for 1, +0.0 for 0) and are modelled as `bool`. */
module PolarNodes {
  import opened Seqs
  import opened Floats
  import opened Parities

  /** Ordering facts for magnitudes: a strict step followed by a weak one
      is strict. */
  lemma MagLtLe(a: Mag, b: Mag, c: Mag)
    requires MagLt(a, b) && MagLe(b, c)
    ensures MagLt(a, c)
  {
  }

  /** `index` is the first position of least reliability (smallest |LLR|). */
  predicate FirstMinimal(llr: seq<Float>, index: int) {
    0 <= index < |llr|
    && (forall j :: 0 <= j < |llr| ==> MagLe(llr[index].mag, llr[j].mag))
    && (forall j :: 0 <= j < index ==> MagLt(llr[index].mag, llr[j].mag))
  }

  /** The first least reliable position is unique. */
  lemma FirstMinimalUnique(llr: seq<Float>, i: int, j: int)
    requires FirstMinimal(llr, i) && FirstMinimal(llr, j)
    ensures i == j
  {
    var mi, mj := llr[i].mag, llr[j].mag;
    assert MagLe(mi, mj) && MagLe(mj, mi);
  }

  /** The SPC decision rule: the hard decisions, with the first least
      reliable one flipped when their parity is odd. */
  function SpcDecision(llr: seq<Float>, index: nat): (bits: seq<bool>)
    requires index < |llr|
    ensures |bits| == |llr|
  {
    var hard := SignBits(llr);
    if Parity(hard) then hard[index := !hard[index]] else hard
  }

  /** An SPC decision is a word of even parity that differs from the hard
      decisions at most at the flipped position. */
  lemma SpcDecisionEven(llr: seq<Float>, index: nat)
    requires index < |llr|
    ensures !Parity(SpcDecision(llr, index))
    ensures forall j :: 0 <= j < |llr| && j != index ==> SpcDecision(llr, index)[j] == llr[j].neg
    ensures SpcDecision(llr, index)[index] == (llr[index].neg != Parity(SignBits(llr)))
  {
    var hard := SignBits(llr);
    if Parity(hard) {
      ParityFlip(hard, index);
    }
  }

  /** `index` is the first least reliable position among the first i. */
  predicate MinSoFar(llr: seq<Float>, index: int, i: nat) {
    0 <= index < |llr| && index <= i <= |llr|
    && (forall j :: 0 <= j < i ==> MagLe(llr[index].mag, llr[j].mag))
    && (forall j :: 0 <= j < index ==> MagLt(llr[index].mag, llr[j].mag))
  }

  /** One round of the search: a strictly smaller magnitude takes over. */
  lemma MinStep(llr: seq<Float>, index: int, i: nat)
    requires MinSoFar(llr, index, i) && i < |llr|
    ensures MinSoFar(llr, if MagLt(llr[i].mag, llr[index].mag) then i else index, i + 1)
  {
    var m := llr[index].mag;
    if MagLt(llr[i].mag, m) {
      forall j | 0 <= j < i
        ensures MagLt(llr[i].mag, llr[j].mag)
      {
        MagLtLe(llr[i].mag, m, llr[j].mag);
      }
    }
  }

  /** `SPC`: one pass computes the hard decisions, their parity and the
      first position of smallest |LLR| (the comparison is strict, so an
      earlier position wins a tie); then that decision is flipped if the
      parity is odd.  The source reads `LLRin[0]` unconditionally, so the
      node holds at least one LLR. */
  method Spc(llr: seq<Float>) returns (bits: seq<bool>, index: nat)
    requires |llr| >= 1
    ensures FirstMinimal(llr, index)
    ensures bits == SpcDecision(llr, index)
  {
    var n := |llr|;
    var parity := false;
    index := 0;
    var minMag := llr[0].mag;
    bits := [];
    var i := 0;
    while i < n
      invariant 0 <= i <= n
      invariant bits == SignBits(llr)[..i]
      invariant parity == Parity(bits)
      invariant MinSoFar(llr, index, i) && minMag == llr[index].mag
    {
      var b := llr[i].neg;
      ParitySnoc(bits, b);
      PrefixSnoc(SignBits(llr), i);
      bits := bits + [b];
      parity := parity != b;
      var test := llr[i].mag;
      MinStep(llr, index, i);
      if MagLt(test, minMag) {
        index := i;
        minMag := test;
      }
      i := i + 1;
    }
    assert bits == SignBits(llr);
    if parity {
      bits := bits[index := !bits[index]];
    }
  }

  /** Real sum of a sequence of finite LLRs that are all negative is
      negative. */
  lemma {:induction false} RealSumNegative(xs: seq<Float>)
    requires |xs| > 0 && forall i :: 0 <= i < |xs| ==> IsFinite(xs[i]) && Value(xs[i]) < 0.0
    ensures RealSum(xs) < 0.0
  {
    var k: nat := |xs| - 1;
    if k > 0 {
      RealSumNegative(xs[..k]);
    }
  }

  /** Real sum of non-negative finite LLRs is non-negative. */
  lemma {:induction false} RealSumNonNegative(xs: seq<Float>)
    requires forall i :: 0 <= i < |xs| ==> IsFinite(xs[i]) && Value(xs[i]) >= 0.0
    ensures RealSum(xs) >= 0.0
  {
    if |xs| > 0 {
      var k: nat := |xs| - 1;
      RealSumNonNegative(xs[..k]);
    }
  }

  /** `Repetition`: the LLRs are summed from +0.0 in order, and every
      decision is 1 exactly when the sum is below zero.  Summation is exact
      here; the model requires finite LLRs. */
  method Repetition(llr: seq<Float>) returns (bits: seq<bool>)
    requires forall i :: 0 <= i < |llr| ==> IsFinite(llr[i])
    ensures |bits| == |llr|
    ensures forall i :: 0 <= i < |bits| ==> bits[i] == (RealSum(llr) < 0.0)
  {
    var n := |llr|;
    var sum := PosZero;
    var i := 0;
    while i < n
      invariant 0 <= i <= n
      invariant sum == SumFrom(PosZero, llr[..i])
    {
      assert llr[..i + 1][..i] == llr[..i];
      sum := Add(sum, llr[i]);
      i := i + 1;
    }
    assert llr[..n] == llr;
    SumFromPosZero(llr);
    var bit := Value(sum) < 0.0;
    bits := [];
    i := 0;
    while i < n
      invariant 0 <= i <= n && |bits| == i
      invariant forall j :: 0 <= j < i ==> bits[j] == bit
    {
      bits := bits + [bit];
      i := i + 1;
    }
  }

  /** A repetition node whose LLRs all agree in sign decides that sign:
      all negative gives all ones, all non-negative gives all zeros. */
  lemma RepetitionUnanimous(llr: seq<Float>)
    requires |llr| > 0 && forall i :: 0 <= i < |llr| ==> IsFinite(llr[i])
    ensures (forall i :: 0 <= i < |llr| ==> Value(llr[i]) < 0.0) ==> RealSum(llr) < 0.0
    ensures (forall i :: 0 <= i < |llr| ==> Value(llr[i]) >= 0.0) ==> !(RealSum(llr) < 0.0)
  {
    if forall i :: 0 <= i < |llr| ==> Value(llr[i]) < 0.0 {
      RealSumNegative(llr);
    }
    if forall i :: 0 <= i < |llr| ==> Value(llr[i]) >= 0.0 {
      RealSumNonNegative(llr);
    }
  }
}

=== FILE: polar_transform.dfy ===
/** The polar transform of PolarCode.cpp: `Combine` of two child nodes, the
    butterfly loop of `encode` and `transform`, and the recursive transform
    it computes. */
module PolarTransform {
  import opened Seqs
  import opened Powers

  /** Position-wise XOR of two words. */
  function XorSeq(a: seq<bool>, b: seq<bool>): (c: seq<bool>)
    requires |a| == |b|
    ensures |c| == |a| && forall i :: 0 <= i < |a| ==> c[i] == (a[i] != b[i])
  {
    seq(|a|, i requires 0 <= i < |a| => a[i] != b[i])
  }

  /** `Combine(l, r)`: the partial sums of a node from those of its children,
      `out[i] = l[i] XOR r[i]` and `out[size + i] = r[i]`. */
  function CombineHalves(l: seq<bool>, r: seq<bool>): (out: seq<bool>)
    requires |l| == |r|
    ensures |out| == 2 * |l|
  {
    XorSeq(l, r) + r
  }

  /** Bit i of a combined node is `l[i] XOR r[i]`; bit size + i is `r[i]`. */
  lemma CombineHalvesBits(l: seq<bool>, r: seq<bool>, i: nat)
    requires |l| == |r| && i < |l|
    ensures CombineHalves(l, r)[i] == (l[i] != r[i]) && CombineHalves(l, r)[|l| + i] == r[i]
  {
  }

  /** Combining is undone by combining again: both children come back. */
  lemma CombineInvolution(l: seq<bool>, r: seq<bool>)
    requires |l| == |r|
    ensures CombineHalves(CombineHalves(l, r)[..|l|], CombineHalves(l, r)[|l|..]) == l + r
  {
    var out := CombineHalves(l, r);
    assert out[..|l|] == XorSeq(l, r) && out[|l|..] == r;
  }

  /** The polar transform of a word of 2^m bits (multiplication by the m-fold
      Kronecker power of [[1,0],[1,1]] over GF(2)): transform both halves,
      then combine them. */
  function Transform(u: seq<bool>, m: nat): (x: seq<bool>)
    requires |u| == Pow2(m)
    ensures |x| == Pow2(m)
    decreases m
  {
    if m == 0 then u
    else
      var h := Pow2(m - 1);
      CombineHalves(Transform(u[..h], m - 1), Transform(u[h..], m - 1))
  }

  lemma XorSeqCancel(a: seq<bool>, b: seq<bool>)
    requires |a| == |b|
    ensures XorSeq(XorSeq(a, b), b) == a
  {
  }

  lemma CombineXor(a1: seq<bool>, a2: seq<bool>, b1: seq<bool>, b2: seq<bool>)
    requires |a1| == |a2| == |b1| == |b2|
    ensures CombineHalves(XorSeq(a1, b1), XorSeq(a2, b2)) == XorSeq(CombineHalves(a1, a2), CombineHalves(b1, b2))
  {
  }

  /** The transform of a word whose halves are given. */
  lemma TransformOfHalves(l: seq<bool>, r: seq<bool>, k: nat)
    requires |l| == |r| == Pow2(k)
    ensures Transform(l + r, k + 1) == CombineHalves(Transform(l, k), Transform(r, k))
  {
    var u := l + r;
    assert u[..Pow2(k)] == l && u[Pow2(k)..] == r;
  }

  lemma XorSeqConcat(a1: seq<bool>, a2: seq<bool>, b1: seq<bool>, b2: seq<bool>)
    requires |a1| == |b1| && |a2| == |b2|
    ensures XorSeq(a1 + a2, b1 + b2) == XorSeq(a1, b1) + XorSeq(a2, b2)
  {
  }

  /** The inductive step of linearity: if it holds for both halves, it
      holds for the whole words. */
  lemma TransformXorStep(a1: seq<bool>, a2: seq<bool>, b1: seq<bool>, b2: seq<bool>, k: nat)
    requires |a1| == |a2| == |b1| == |b2| == Pow2(k)
    requires Transform(XorSeq(a1, b1), k) == XorSeq(Transform(a1, k), Transform(b1, k))
    requires Transform(XorSeq(a2, b2), k) == XorSeq(Transform(a2, k), Transform(b2, k))
    ensures Transform(XorSeq(a1 + a2, b1 + b2), k + 1) == XorSeq(Transform(a1 + a2, k + 1), Transform(b1 + b2, k + 1))
  {
    XorSeqConcat(a1, a2, b1, b2);
    TransformOfHalves(XorSeq(a1, b1), XorSeq(a2, b2), k);
    TransformOfHalves(a1, a2, k);
    TransformOfHalves(b1, b2, k);
    CombineXor(Transform(a1, k), Transform(a2, k), Transform(b1, k), Transform(b2, k));
  }

  /** The transform is linear over GF(2). */
  lemma {:induction false} TransformXor(a: seq<bool>, b: seq<bool>, m: nat)
    requires |a| == Pow2(m) && |b| == Pow2(m)
    ensures Transform(XorSeq(a, b), m) == XorSeq(Transform(a, m), Transform(b, m))
    decreases m
  {
    if m > 0 {
      var k: nat := m - 1;
      var h := Pow2(k);
      TransformXor(a[..h], b[..h], k);
      TransformXor(a[h..], b[h..], k);
      SplitAt(a, h);
      SplitAt(b, h);
      TransformXorStep(a[..h], a[h..], b[..h], b[h..], k);
    }
  }

  /** The inductive step of the involution: once both halves transform
      back, so does the whole word. */
  lemma TransformInvolutionStep(u1: seq<bool>, u2: seq<bool>, k: nat)
    requires |u1| == |u2| == Pow2(k)
    requires Transform(Transform(u1, k), k) == u1
    requires Transform(Transform(u2, k), k) == u2
    ensures Transform(Transform(u1 + u2, k + 1), k + 1) == u1 + u2
  {
    var a, b := Transform(u1, k), Transform(u2, k);
    TransformOfHalves(u1, u2, k);
    TransformOfHalves(XorSeq(a, b), b, k);
    TransformXor(a, b, k);
    XorSeqCancel(u1, u2);
  }

  /** The transform is its own inverse: transforming a code word gives back
      the word it was encoded from. */
  lemma {:induction false} TransformInvolution(u: seq<bool>, m: nat)
    requires |u| == Pow2(m)
    ensures Transform(Transform(u, m), m) == u
    decreases m
  {
    if m > 0 {
      var k: nat := m - 1;
      var h := Pow2(k);
      TransformInvolution(u[..h], k);
      TransformInvolution(u[h..], k);
      SplitAt(u, h);
      TransformInvolutionStep(u[..h], u[h..], k);
    }
  }

  // The butterfly loop works stage by stage: after the stage with span B,
  // every block of 2B consecutive bits holds the transform of the same
  // block of the input.

  /** Block j of a word cut into blocks of w positions. */
  function Block(u: seq<bool>, j: nat, w: nat): (r: seq<bool>)
    requires BlockStart(j, w) + w <= |u|
    ensures |r| == w
  {
    u[BlockStart(j, w) .. BlockStart(j, w) + w]
  }

  /** The first c blocks of 2^s bits of `e` are the transforms of the same
      blocks of `u`. */
  ghost predicate TransformedBlocks(e: seq<bool>, u: seq<bool>, s: nat, c: nat) {
    |e| == |u| && BlockStart(c, Pow2(s)) <= |u| &&
    forall j :: 0 <= j < c ==> BlockStart(j, Pow2(s)) + Pow2(s) <= |u| && Block(e, j, Pow2(s)) == Transform(Block(u, j, Pow2(s)), s)
  }

  /** The halves of block j of width 2w are blocks 2j and 2j+1 of width w. */
  lemma BlockHalves(u: seq<bool>, j: nat, w: nat)
    requires BlockStart(j, 2 * w) + 2 * w <= |u|
    ensures BlockStart(2 * j, w) + w <= |u| && BlockStart(2 * j + 1, w) + w <= |u|
    ensures Block(u, j, 2 * w)[..w] == Block(u, 2 * j, w)
    ensures Block(u, j, 2 * w)[w..] == Block(u, 2 * j + 1, w)
  {
    BlockStartDouble(j, w);
    BlockStartDouble(j + 1, w);
  }

  /** `Combine` of the two halves of a block of 2b bits. */
  function Combined(x: seq<bool>, b: nat): (y: seq<bool>)
    requires |x| == 2 * b
    ensures |y| == 2 * b
  {
    CombineHalves(x[..b], x[b..])
  }

  /** One stage applied to blocks of 2^s transformed bits gives the
      transforms of blocks twice as long. */
  lemma StageBlock(e: seq<bool>, u: seq<bool>, s: nat, j: nat)
    requires BlockStart(j, 2 * Pow2(s)) + 2 * Pow2(s) <= |u| == |e|
    requires BlockStart(2 * j, Pow2(s)) + Pow2(s) <= |u| && BlockStart(2 * j + 1, Pow2(s)) + Pow2(s) <= |u|
    requires Block(e, 2 * j, Pow2(s)) == Transform(Block(u, 2 * j, Pow2(s)), s)
    requires Block(e, 2 * j + 1, Pow2(s)) == Transform(Block(u, 2 * j + 1, Pow2(s)), s)
    ensures Pow2(s + 1) == 2 * Pow2(s)
    ensures Combined(Block(e, j, 2 * Pow2(s)), Pow2(s)) == Transform(Block(u, j, Pow2(s + 1)), s + 1)
  {
    BlockHalves(u, j, Pow2(s));
    BlockHalves(e, j, Pow2(s));
  }

  /** A whole stage: blocks of 2^s transformed bits become blocks of
      2^(s+1) transformed bits. */
  lemma NextStage(prev: seq<bool>, e: seq<bool>, u: seq<bool>, s: nat, c: nat)
    requires TransformedBlocks(prev, u, s, 2 * c)
    requires BlockStart(c, 2 * Pow2(s)) <= |u| == |e|
    requires forall j :: 0 <= j < c ==> BlockStart(j, 2 * Pow2(s)) + 2 * Pow2(s) <= |prev| && Block(e, j, 2 * Pow2(s)) == Combined(Block(prev, j, 2 * Pow2(s)), Pow2(s))
    ensures TransformedBlocks(e, u, s + 1, c)
  {
    var P, P1, s1 := Pow2(s), Pow2(s + 1), s + 1;
    forall j | 0 <= j < c
      ensures BlockStart(j, P1) + P1 <= |u| && Block(e, j, P1) == Transform(Block(u, j, P1), s1)
    {
      BlockStartMonotone(j + 1, c, 2 * P);
      BlockStartDouble(j, P);
      BlockStartDouble(j + 1, P);
      BlockStartMonotone(2 * j + 1, 2 * c, P);
      StageBlock(prev, u, s, j);
    }
  }

  /** Every block of one bit is its own transform. */
  lemma SinglesTransformed(u: seq<bool>)
    ensures TransformedBlocks(u, u, 0, |u|)
  {
    BlockStartIsProduct(|u|, 1);
    forall j | 0 <= j < |u| ensures BlockStart(j, 1) + 1 <= |u| && Block(u, j, 1) == Transform(Block(u, j, 1), 0) {
      BlockStartIsProduct(j + 1, 1);
    }
  }

  /** Combining the block of 2b bits at `base` in place: the innermost loop
      of the butterfly.  Only the first half of the block changes. */
  method CombineBlock(e0: seq<bool>, base: nat, b: nat) returns (e: seq<bool>)
    requires base + 2 * b <= |e0|
    ensures |e| == |e0|
    ensures forall k :: 0 <= k < |e0| && !(base <= k < base + b) ==> e[k] == e0[k]
    ensures forall k :: base <= k < base + b ==> e[k] == (e0[k] != e0[k + b])
  {
    e := e0;
    var l := 0;
    while l < b
      invariant 0 <= l <= b && |e| == |e0|
      invariant forall k :: 0 <= k < |e0| && !(base <= k < base + l) ==> e[k] == e0[k]
      invariant forall k :: base <= k < base + l ==> e[k] == (e0[k] != e0[k + b])
    {
      e := e[base + l := e[base + l] != e[base + l + b]];
      l := l + 1;
    }
  }

  /** The 2b positions from s, after the in-place loop, hold the `Combine`
      of the two halves they held before. */
  lemma CombinedSlice(e0: seq<bool>, e: seq<bool>, s: nat, b: nat)
    requires s + 2 * b <= |e0| == |e|
    requires forall k :: s + b <= k < s + 2 * b ==> e[k] == e0[k]
    requires forall k :: s <= k < s + b ==> e[k] == (e0[k] != e0[k + b])
    ensures e[s..s + 2 * b] == CombineHalves(e0[s..s + b], e0[s + b..s + 2 * b])
  {
    var l, r := e0[s..s + b], e0[s + b..s + 2 * b];
    assert e[s..s + b] == XorSeq(l, r);
    assert e[s + b..s + 2 * b] == r;
    assert e[s..s + 2 * b] == e[s..s + b] + e[s + b..s + 2 * b];
  }

  /** The block just combined in place is the `Combine` of its halves. */
  lemma CombinedBlock(e0: seq<bool>, e: seq<bool>, j: nat, b: nat)
    requires BlockStart(j, 2 * b) + 2 * b <= |e0| == |e|
    requires forall k :: BlockStart(j, 2 * b) + b <= k < BlockStart(j, 2 * b) + 2 * b ==> e[k] == e0[k]
    requires forall k :: BlockStart(j, 2 * b) <= k < BlockStart(j, 2 * b) + b ==> e[k] == (e0[k] != e0[k + b])
    ensures Block(e, j, 2 * b) == Combined(Block(e0, j, 2 * b), b)
  {
    var s := BlockStart(j, 2 * b);
    CombinedSlice(e0, e, s, b);
    var y := Block(e0, j, 2 * b);
    assert y[..b] == e0[s..s + b] && y[b..] == e0[s + b..s + 2 * b];
  }

  /** From position lo on, `e` is still as in `e0`. */
  ghost predicate TailKept(e: seq<bool>, e0: seq<bool>, lo: nat)
    requires |e| == |e0|
  {
    forall k :: lo <= k < |e0| ==> e[k] == e0[k]
  }

  /** The first j blocks of width w = 2b of `e` are the combined blocks of
      `e0`. */
  ghost predicate CombinedUpTo(e: seq<bool>, e0: seq<bool>, b: nat, w: nat, j: nat)
    requires w == 2 * b && |e| == |e0|
  {
    forall i :: 0 <= i < j ==> BlockStart(i, w) + w <= |e0| && Block(e, i, w) == Combined(Block(e0, i, w), b)
  }

  /** The state of the stage loop after j blocks. */
  ghost predicate StagePrefix(e: seq<bool>, e0: seq<bool>, b: nat, w: nat, j: nat)
    requires w == 2 * b
  {
    |e| == |e0| && BlockStart(j, w) <= |e0| && TailKept(e, e0, BlockStart(j, w)) && CombinedUpTo(e, e0, b, w, j)
  }

  /** A block lying where two words agree is the same in both. */
  lemma BlockFrame(x: seq<bool>, y: seq<bool>, j: nat, w: nat, lo: nat, hi: nat)
    requires |x| == |y| && lo <= BlockStart(j, w) && BlockStart(j, w) + w <= hi <= |x|
    requires forall k :: lo <= k < hi ==> x[k] == y[k]
    ensures Block(x, j, w) == Block(y, j, w)
  {
  }

  /** Changing positions from block j on leaves the earlier blocks alone. */
  lemma EarlierBlocksKept(prev: seq<bool>, e: seq<bool>, w: nat, j: nat)
    requires |e| == |prev| && BlockStart(j, w) <= |prev|
    requires forall k :: 0 <= k < BlockStart(j, w) ==> e[k] == prev[k]
    ensures forall i :: 0 <= i < j ==> BlockStart(i, w) + w <= |prev| && Block(e, i, w) == Block(prev, i, w)
  {
    forall i | 0 <= i < j ensures BlockStart(i, w) + w <= |prev| && Block(e, i, w) == Block(prev, i, w) {
      BlockStartMonotone(i + 1, j, w);
      BlockFrame(e, prev, i, w, 0, BlockStart(j, w));
    }
  }

  /** Combining block j changes nothing from block j + 1 on. */
  lemma TailStep(e0: seq<bool>, prev: seq<bool>, e: seq<bool>, lo: nat, b: nat)
    requires |e| == |prev| == |e0| && TailKept(prev, e0, lo)
    requires forall k :: 0 <= k < |prev| && !(lo <= k < lo + b) ==> e[k] == prev[k]
    ensures TailKept(e, e0, lo + 2 * b)
  {
  }

  /** Combining block j extends the combined prefix by one block. */
  lemma CombinedStep(e0: seq<bool>, prev: seq<bool>, e: seq<bool>, b: nat, w: nat, j: nat)
    requires w == 2 * b && |e| == |prev| == |e0| && BlockStart(j, w) + w <= |e0|
    requires TailKept(prev, e0, BlockStart(j, w)) && CombinedUpTo(prev, e0, b, w, j)
    requires forall k :: 0 <= k < |prev| && !(BlockStart(j, w) <= k < BlockStart(j, w) + b) ==> e[k] == prev[k]
    requires forall k :: BlockStart(j, w) <= k < BlockStart(j, w) + b ==> e[k] == (prev[k] != prev[k + b])
    ensures CombinedUpTo(e, e0, b, w, j + 1)
  {
    CombinedBlock(prev, e, j, b);
    BlockFrame(prev, e0, j, w, BlockStart(j, w), |e0|);
    EarlierBlocksKept(prev, e, w, j);
  }

  /** One stage of the butterfly loop: span b, nb blocks of 2b bits at
      `base = j * (B << 1)`. */
  method ButterflyStage(e0: seq<bool>, b: nat, nb: nat) returns (e: seq<bool>)
    requires BlockStart(nb, 2 * b) <= |e0|
    ensures |e| == |e0|
    ensures forall j :: 0 <= j < nb ==> BlockStart(j, 2 * b) + 2 * b <= |e0| && Block(e, j, 2 * b) == Combined(Block(e0, j, 2 * b), b)
  {
    ghost var w := 2 * b;
    e := e0;
    var j := 0;
    while j < nb
      invariant 0 <= j <= nb && StagePrefix(e, e0, b, w, j)
    {
      var base := j * (2 * b);
      BlockStartIsProduct(j, w);
      BlockStartMonotone(j + 1, nb, w);
      ghost var prev := e;
      e := CombineBlock(e, base, b);
      TailStep(e0, prev, e, base, b);
      CombinedStep(e0, prev, e, b, w, j);
      j := j + 1;
    }
  }

  /** One pass of the outer butterfly loop: a stage with span 2^s on nb
      blocks turns blocks of 2^s transformed bits into blocks of 2^(s+1)
      transformed bits. */
  method ButterflyRound(e0: seq<bool>, ghost u: seq<bool>, s: nat, nb: nat) returns (e: seq<bool>)
    requires TransformedBlocks(e0, u, s, 2 * nb)
    ensures TransformedBlocks(e, u, s + 1, nb)
  {
    BlockStartDouble(nb, Pow2(s));
    e := ButterflyStage(e0, Pow2(s), nb);
    NextStage(e0, e, u, s, nb);
  }

  /** The butterfly loop of `encode` and `transform`: for i = n-1 down to 0,
      a stage with span B = 2^(n-i-1) on nB = 2^i blocks.  It computes the
      polar transform. */
  method Butterfly(u: seq<bool>, n: nat) returns (e: seq<bool>)
    requires |u| == Pow2(n)
    ensures e == Transform(u, n)
  {
    e := u;
    SinglesTransformed(u);
    BlockStartIsProduct(|u|, 1);
    var i: int := n - 1;
    ghost var c: nat, r: nat, t: nat := |u|, n, 0;
    while i >= 0
      invariant -1 <= i < n && t == n - 1 - i && r == i + 1
      invariant c == Pow2(r) && TransformedBlocks(e, u, t, c)
    {
      var s: nat := n - i - 1;
      var nB := Pow2(i);
      assert c == 2 * nB;
      e := ButterflyRound(e, u, s, nB);
      c, r, t := nB, i, t + 1;
      i := i - 1;
    }
    BlockStartIsProduct(1, Pow2(n));
    assert Block(e, 0, Pow2(n)) == e && Block(u, 0, Pow2(n)) == u;
  }
}

=== FILE: powers.dfy ===
/** Powers of two and integer base-2 logarithms, shared by every module that
    works on blocks of length 2^n. */
module Powers {

  /** 2^k */
  function Pow2(k: nat): (r: nat)
    ensures r >= 1
  {
    if k == 0 then 1 else 2 * Pow2(k - 1)
  }

  /** A number is a power of two when it is 2^k for some k. */
  ghost predicate IsPow2(n: int) {
    exists k: nat :: Pow2(k) == n
  }

  /** floor(log2(n)) for n >= 1, as `int(np.log2(N))` computes it on exact
      arithmetic. */
  function Log2Floor(n: nat): (k: nat)
    requires n >= 1
    ensures Pow2(k) <= n < 2 * Pow2(k)
    ensures n >= 2 ==> k >= 1
  {
    if n == 1 then 0 else 1 + Log2Floor(n / 2)
  }

  lemma Pow2Add(a: nat, b: nat)
    ensures Pow2(a + b) == Pow2(a) * Pow2(b)
  {
    if a > 0 {
      Pow2Add(a - 1, b);
    }
  }

  lemma Pow2Monotone(a: nat, b: nat)
    requires a <= b
    ensures Pow2(a) <= Pow2(b)
  {
    if a < b {
      Pow2Monotone(a, b - 1);
    }
  }

  lemma Pow2StrictMonotone(a: nat, b: nat)
    requires a < b
    ensures Pow2(a) < Pow2(b)
  {
    Pow2Monotone(a, b - 1);
  }

  /** Division with remainder has exactly one solution. */
  lemma DivModUnique(n: int, d: int, q: int, r: int)
    requires d > 0 && 0 <= r < d && n == q * d + r
    ensures n / d == q && n % d == r
  {
    var q0, r0 := n / d, n % d;
    assert n == q0 * d + r0;
    if q > q0 {
      assert (q - q0) * d == q * d - q0 * d;
      MulAtLeast(q - q0, d);
    } else if q < q0 {
      assert (q0 - q) * d == q0 * d - q * d;
      MulAtLeast(q0 - q, d);
    }
  }

  lemma MulAtLeast(x: int, d: int)
    requires x >= 1 && d > 0
    ensures x * d >= d
  {
  }

  lemma MulMonotone(a: nat, b: nat, c: nat)
    requires a <= b
    ensures a * c <= b * c
  {
  }

  lemma MulSucc(a: nat, c: nat)
    ensures (a + 1) * c == a * c + c
  {
  }

  /** A smaller power of two divides a larger one. */
  lemma Pow2Divides(a: nat, b: nat)
    requires a <= b
    ensures Pow2(b) % Pow2(a) == 0
    ensures Pow2(b) / Pow2(a) == Pow2(b - a)
  {
    Pow2Add(b - a, a);
    DivModUnique(Pow2(b), Pow2(a), Pow2(b - a), 0);
  }

  /** Log2Floor of a power of two is its exponent. */
  lemma Log2FloorOfPow2(k: nat)
    ensures Log2Floor(Pow2(k)) == k
  {
    if k > 0 {
      assert Pow2(k) / 2 == Pow2(k - 1);
      Log2FloorOfPow2(k - 1);
    }
  }

  /** Start of block j when blocks have s positions: j s, written as a
      repeated sum so that block arithmetic stays linear. */
  function BlockStart(j: nat, s: nat): nat {
    if j == 0 then 0 else BlockStart(j - 1, s) + s
  }

  lemma {:induction false} BlockStartIsProduct(j: nat, s: nat)
    ensures BlockStart(j, s) == j * s
  {
    if j > 0 {
      BlockStartIsProduct(j - 1, s);
      MulSucc(j - 1, s);
    }
  }

  lemma {:induction false} BlockStartDouble(j: nat, h: nat)
    ensures BlockStart(2 * j, h) == BlockStart(j, 2 * h)
    ensures BlockStart(2 * j + 1, h) == BlockStart(j, 2 * h) + h
  {
    if j > 0 {
      BlockStartDouble(j - 1, h);
      assert BlockStart(2 * j, h) == BlockStart(2 * (j - 1) + 1, h) + h;
    }
  }

  lemma BlockStartMonotone(j: nat, k: nat, s: nat)
    requires j <= k
    ensures BlockStart(j, s) <= BlockStart(k, s)
  {
    BlockStartIsProduct(j, s);
    BlockStartIsProduct(k, s);
    MulMonotone(j, k, s);
  }

  /** 2^a blocks of 2^b positions make 2^(a+b) positions. */
  lemma BlockStartPow2(a: nat, b: nat)
    ensures BlockStart(Pow2(a), Pow2(b)) == Pow2(a + b)
  {
    BlockStartIsProduct(Pow2(a), Pow2(b));
    Pow2Add(a, b);
  }
}

=== FILE: seqs.dfy ===
/** Small sequence helpers shared by the modules. */
module Seqs {

  /** A sequence of `n` copies of `x` (the `assign(n, x)` of a vector). */
  function Filled<T>(x: T, n: nat): (r: seq<T>)
    ensures |r| == n && forall p :: 0 <= p < n ==> r[p] == x
  {
    if n == 0 then [] else Filled(x, n - 1) + [x]
  }

  /** A prefix one longer is the prefix plus the next element. */
  lemma PrefixSnoc<T>(s: seq<T>, i: nat)
    requires i < |s|
    ensures s[..i + 1] == s[..i] + [s[i]]
  {
  }

  /** Overwriting the first element after a prefix. */
  lemma UpdateAfterPrefix<T>(a: seq<T>, x: T, v: T, z: seq<T>)
    ensures (a + ([x] + z))[|a| := v] == (a + [v]) + z
  {
  }

  /** Dropping the head commutes with appending at the end. */
  lemma TailSnoc<T>(s: seq<T>, x: T)
    requires |s| > 0
    ensures (s + [x])[1..] == s[1..] + [x]
  {
  }

  /** A sequence is its prefix followed by the rest. */
  lemma SplitAt<T>(s: seq<T>, h: nat)
    requires h <= |s|
    ensures s == s[..h] + s[h..]
  {
  }

  /** Two sequences that share a prefix share every shorter prefix, and
      agree at each position of it. */
  lemma PrefixAgree<T>(a: seq<T>, b: seq<T>, m: nat, lo: nat)
    requires lo <= m <= |a| && m <= |b| && a[..m] == b[..m]
    ensures a[..lo] == b[..lo]
    ensures forall k :: 0 <= k < m ==> a[k] == b[k]
  {
    assert a[..lo] == a[..m][..lo] && b[..lo] == b[..m][..lo];
    forall k | 0 <= k < m ensures a[k] == b[k] {
      assert a[..m][k] == b[..m][k];
    }
  }

  /** Two sequences of one length that share a suffix share every shorter
      suffix, and agree at each position of it. */
  lemma SuffixAgree<T>(a: seq<T>, b: seq<T>, m: nat, hi: nat)
    requires m <= hi <= |a| == |b| && a[m..] == b[m..]
    ensures a[hi..] == b[hi..]
    ensures forall k :: m <= k < |a| ==> a[k] == b[k]
  {
    assert a[hi..] == a[m..][hi - m..] && b[hi..] == b[m..][hi - m..];
    forall k | m <= k < |a| ensures a[k] == b[k] {
      assert a[m..][k - m] == b[m..][k - m];
    }
  }

  /** A shared suffix from i gives the element at i and the suffix from
      i + 1. */
  lemma SuffixStep<T>(a: seq<T>, b: seq<T>, i: nat)
    requires i < |a| == |b| && a[i..] == b[i..]
    ensures a[i] == b[i] && a[i + 1..] == b[i + 1..]
  {
    assert a[i..][0] == b[i..][0];
    assert a[i + 1..] == a[i..][1..] && b[i + 1..] == b[i..][1..];
  }

  /** A non-empty sequence is its front followed by its last element. */
  lemma LastSplit<T>(s: seq<T>)
    requires |s| > 0
    ensures s == s[..|s| - 1] + [s[|s| - 1]]
  {
  }
}

=== FILE: tracking_sorter.dfy ===
/** The `trackingSorter` of ArrayFuncs.cpp: sorts an array of floats and
    mirrors every move on a second array of original positions.

    The two arrays `sorted` and `permuted` always move in lock-step, so the
    model keeps them as one sequence of entries (value, original index); every
    paired `std::swap` of the source is one swap of entries here.  `Sorted`
    and `Permuted` project the two arrays back out.  Float comparisons are
    modelled as comparisons of reals (no NaN). */
module TrackingSorter {
  import opened Seqs

  datatype Entry = Entry(value: real, index: int)

  /** The `sorted` array. */
  function Sorted(s: seq<Entry>): (v: seq<real>)
    ensures |v| == |s| && forall i :: 0 <= i < |s| ==> v[i] == s[i].value
  {
    seq(|s|, i requires 0 <= i < |s| => s[i].value)
  }

  /** The `permuted` array. */
  function Permuted(s: seq<Entry>): (p: seq<int>)
    ensures |p| == |s| && forall i :: 0 <= i < |s| ==> p[i] == s[i].index
  {
    seq(|s|, i requires 0 <= i < |s| => s[i].index)
  }

  /** [0, 1, ..., n-1] */
  function Range(n: nat): (r: seq<int>)
    ensures |r| == n && forall i :: 0 <= i < n ==> r[i] == i
  {
    seq(n, i => i)
  }

  /** `p` lists every position of [0, n) exactly once. */
  predicate IsPermutation(p: seq<int>, n: nat) {
    && |p| == n
    && (forall i :: 0 <= i < n ==> 0 <= p[i] < n)
    && (forall i, j :: 0 <= i < j < n ==> p[i] != p[j])
  }

  /** The distinct entries of a sequence are as many as its length. */
  lemma {:induction false} DistinctCard(p: seq<int>)
    requires forall i, j :: 0 <= i < j < |p| ==> p[i] != p[j]
    ensures |set x | x in p| == |p|
  {
    if |p| > 0 {
      var q := p[..|p| - 1];
      DistinctCard(q);
      assert (set x | x in p) == (set x | x in q) + {p[|p| - 1]};
    }
  }

  lemma SubsetCard(a: set<int>, b: set<int>)
    requires a <= b
    ensures |a| <= |b|
  {
    assert b * a == a;
    assert |b - a| == |b| - |a|;
  }

  /** A permutation of [0, n) reaches every position. */
  lemma PermutationOnto(p: seq<int>, n: nat, v: int)
    requires IsPermutation(p, n) && 0 <= v < n
    ensures exists i :: 0 <= i < n && p[i] == v
  {
    if v !in p {
      var all := Range(n);
      DistinctCard(p);
      DistinctCard(all);
      assert all[v] == v;
      forall x | x in p
        ensures x in all
      {
        assert all[x] == x;
      }
      SubsetCard(set x | x in p, (set x | x in all) - {v});
    }
  }

  /** `set(arr)`: the state right after loading `arr`. */
  function Load(arr: seq<real>): (s: seq<Entry>)
    ensures Sorted(s) == arr && Permuted(s) == Range(|arr|)
  {
    seq(|arr|, i requires 0 <= i < |arr| => Entry(arr[i], i))
  }

  /** The tracking invariant: the state is a rearrangement of the entries
      `set(orig)` created, so each `sorted[i]` is `orig[permuted[i]]`. */
  predicate Tracks(orig: seq<real>, s: seq<Entry>) {
    multiset(s) == multiset(Load(orig))
  }

  predicate Ascending(s: seq<Entry>) {
    forall i, j :: 0 <= i < j < |s| ==> s[i].value <= s[j].value
  }

  /** Right after `set`, the state tracks the loaded array. */
  lemma LoadTracks(arr: seq<real>)
    ensures Tracks(arr, Load(arr))
  {
  }

  // ---------------------------------------------------------------------
  // What the tracking invariant means

  predicate DistinctIndices(s: seq<Entry>) {
    forall i, j :: 0 <= i < j < |s| ==> s[i].index != s[j].index
  }

  lemma {:induction false} DistinctIndicesOnce(s: seq<Entry>, e: Entry)
    requires DistinctIndices(s)
    ensures multiset(s)[e] <= 1
  {
    if |s| > 0 {
      var t := s[..|s| - 1];
      assert s == t + [s[|s| - 1]];
      DistinctIndicesOnce(t, e);
      if e == s[|s| - 1] {
        forall k | 0 <= k < |t|
          ensures t[k] != e
        {
          assert s[k].index != s[|s| - 1].index;
        }
        assert e !in t;
      }
    }
  }

  lemma TwiceInSeq(s: seq<Entry>, i: int, j: int)
    requires 0 <= i < j < |s| && s[i] == s[j]
    ensures multiset(s)[s[i]] >= 2
  {
    assert s == s[..j] + s[j..];
    assert s[..j][i] == s[i];
    assert s[j..][0] == s[i];
    assert multiset(s[..j])[s[i]] >= 1;
    assert multiset(s[j..])[s[i]] >= 1;
  }

  /** The tracking invariant gives back the source's promise
      `sorted[i] == orig[permuted[i]]`, with `permuted` a permutation. */
  lemma TracksMeaning(orig: seq<real>, s: seq<Entry>)
    requires Tracks(orig, s)
    ensures |s| == |orig|
    ensures forall i :: 0 <= i < |s| ==> 0 <= s[i].index < |orig| && s[i].value == orig[s[i].index]
    ensures IsPermutation(Permuted(s), |orig|)
  {
    var l := Load(orig);
    assert |multiset(s)| == |multiset(l)|;
    forall i | 0 <= i < |s|
      ensures 0 <= s[i].index < |orig| && s[i].value == orig[s[i].index]
    {
      assert s[i] in multiset(l);
      var k :| 0 <= k < |l| && l[k] == s[i];
    }
    forall i, j | 0 <= i < j < |s|
      ensures s[i].index != s[j].index
    {
      if s[i].index == s[j].index {
        assert s[i] == s[j];
        TwiceInSeq(s, i, j);
        DistinctIndicesOnce(l, s[i]);
        assert false;
      }
    }
  }

  /** Rearranging entries keeps the tracking invariant. */
  lemma TracksRearranged(orig: seq<real>, s: seq<Entry>, t: seq<Entry>)
    requires Tracks(orig, s) && multiset(t) == multiset(s)
    ensures Tracks(orig, t)
  {
  }

  // ---------------------------------------------------------------------
  // Swapping two entries: the paired std::swap of both arrays

  function Swap(s: seq<Entry>, i: int, j: int): (r: seq<Entry>)
    requires 0 <= i < |s| && 0 <= j < |s|
    ensures |r| == |s| && r[i] == s[j] && r[j] == s[i]
    ensures forall k :: 0 <= k < |s| && k != i && k != j ==> r[k] == s[k]
    ensures multiset(r) == multiset(s)
  {
    s[i := s[j]][j := s[i]]
  }

  // ---------------------------------------------------------------------
  // Insertion sort: the reference meaning of `stableSort`

  /** Every entry of `p` from position `lo` on is greater than `x`. */
  predicate GreaterFrom(p: seq<Entry>, lo: int, x: Entry) {
    forall k :: 0 <= k < |p| && lo <= k ==> p[k].value > x.value
  }

  /** Where the shifting loop of `stableSort` stops: behind the last entry
      whose value is not greater than `x`'s, past the run of greater entries
      at the end of `p`. */
  function InsertPos(p: seq<Entry>, x: Entry): (k: nat)
    ensures k <= |p|
    ensures GreaterFrom(p, k, x)
    ensures k > 0 ==> p[k - 1].value <= x.value
  {
    if |p| == 0 || p[|p| - 1].value <= x.value then |p|
    else InsertPos(p[..|p| - 1], x)
  }

  /** `x` placed at its insertion position; the entries behind it move one
      place right. */
  function Insert(p: seq<Entry>, x: Entry): (r: seq<Entry>)
    ensures |r| == |p| + 1
  {
    var k := InsertPos(p, x);
    p[..k] + [x] + p[k..]
  }

  lemma InsertPermutes(p: seq<Entry>, x: Entry)
    ensures multiset(Insert(p, x)) == multiset(p) + multiset{x}
  {
    var k := InsertPos(p, x);
    assert p == p[..k] + p[k..];
  }

  function InsertionSort(s: seq<Entry>): (r: seq<Entry>)
    ensures |r| == |s|
  {
    if |s| == 0 then [] else Insert(InsertionSort(s[..|s| - 1]), s[|s| - 1])
  }

  /** Sorting one more entry inserts it into the sorted prefix. */
  lemma InsertionSortSnoc(p: seq<Entry>, x: Entry)
    ensures InsertionSort(p + [x]) == Insert(InsertionSort(p), x)
  {
    assert (p + [x])[..|p|] == p;
  }

  lemma {:induction false} InsertionSortPermutes(s: seq<Entry>)
    ensures multiset(InsertionSort(s)) == multiset(s)
  {
    if |s| > 0 {
      var k: nat := |s| - 1;
      var q := s[..k];
      InsertionSortPermutes(q);
      InsertPermutes(InsertionSort(q), s[k]);
      LastSplit(s);
    }
  }

  lemma InsertAscending(p: seq<Entry>, x: Entry)
    requires Ascending(p)
    ensures Ascending(Insert(p, x))
  {
    var k := InsertPos(p, x);
    var r := Insert(p, x);
    forall a, b | 0 <= a < b < |r|
      ensures r[a].value <= r[b].value
    {
      if b < k {
        assert r[a] == p[a] && r[b] == p[b];
      } else if b == k {
        assert r[a] == p[a];
        assert p[a].value <= p[k - 1].value;
      } else if a < k {
        assert r[a] == p[a] && r[b] == p[b - 1];
      } else if a == k {
        assert r[b] == p[b - 1];
      } else {
        assert r[a] == p[a - 1] && r[b] == p[b - 1];
      }
    }
  }

  lemma {:induction false} InsertionSortAscending(s: seq<Entry>)
    ensures Ascending(InsertionSort(s))
  {
    if |s| > 0 {
      var k: nat := |s| - 1;
      var q := s[..k];
      InsertionSortAscending(q);
      InsertAscending(InsertionSort(q), s[k]);
    }
  }

  /** The entries whose value is `v`, in their order in `s`. */
  function Filter(s: seq<Entry>, v: real): seq<Entry> {
    if |s| == 0 then []
    else Filter(s[..|s| - 1], v) + (if s[|s| - 1].value == v then [s[|s| - 1]] else [])
  }

  lemma {:induction false} FilterAppend(a: seq<Entry>, b: seq<Entry>, v: real)
    ensures Filter(a + b, v) == Filter(a, v) + Filter(b, v)
  {
    if |b| > 0 {
      var b' := b[..|b| - 1];
      assert (a + b)[..|a + b| - 1] == a + b';
      FilterAppend(a, b', v);
    } else {
      assert a + b == a;
    }
  }

  lemma {:induction false} FilterNone(a: seq<Entry>, v: real)
    requires forall k :: 0 <= k < |a| ==> a[k].value != v
    ensures Filter(a, v) == []
  {
    if |a| > 0 {
      FilterNone(a[..|a| - 1], v);
    }
  }

  lemma FilterSingle(x: Entry, v: real)
    ensures Filter([x], v) == if x.value == v then [x] else []
  {
    assert [x][..0] == [];
  }

  lemma InsertStable(p: seq<Entry>, x: Entry, v: real)
    ensures Filter(Insert(p, x), v) == Filter(p, v) + (if x.value == v then [x] else [])
  {
    var k := InsertPos(p, x);
    var a, b := p[..k], p[k..];
    FilterSingle(x, v);
    assert p == a + b;
    assert Insert(p, x) == (a + [x]) + b;
    FilterAppend(a, b, v);
    FilterAppend(a + [x], b, v);
    FilterAppend(a, [x], v);
    var fa, fb := Filter(a, v), Filter(b, v);
    if x.value == v {
      FilterNone(b, v);
      calc {
        Filter(Insert(p, x), v);
        Filter(a + [x], v) + fb;
        fa + [x] + [];
        { assert fa + [x] + [] == fa + [x]; }
        (fa + []) + [x];
        { assert fa + [] == fa + fb; }
        Filter(p, v) + [x];
      }
    } else {
      calc {
        Filter(Insert(p, x), v);
        Filter(a + [x], v) + fb;
        (fa + []) + fb;
        { assert fa + [] == fa; }
        Filter(p, v);
        { assert Filter(p, v) + [] == Filter(p, v); }
        Filter(p, v) + [];
      }
    }
  }

  /** Insertion sort is stable: the entries of any one value keep their
      relative order. */
  lemma {:induction false} InsertionSortStable(s: seq<Entry>, v: real)
    ensures Filter(InsertionSort(s), v) == Filter(s, v)
  {
    if |s| > 0 {
      var q := s[..|s| - 1];
      InsertionSortStable(q, v);
      InsertStable(InsertionSort(q), s[|s| - 1], v);
    }
  }

  /** Insertion sort orders by value, rearranges, and is stable. */
  lemma InsertionSortSorts(s: seq<Entry>)
    ensures Ascending(InsertionSort(s))
    ensures multiset(InsertionSort(s)) == multiset(s)
    ensures forall v :: Filter(InsertionSort(s), v) == Filter(s, v)
  {
    InsertionSortAscending(s);
    InsertionSortPermutes(s);
    forall v ensures Filter(InsertionSort(s), v) == Filter(s, v) {
      InsertionSortStable(s, v);
    }
  }

  /** The insertion position is the one the shifting loop finds: behind
      entry `j` when entry `j` is not greater and everything after it is. */
  lemma InsertPosAt(p: seq<Entry>, x: Entry, j: int)
    requires -1 <= j < |p|
    requires j >= 0 ==> p[j].value <= x.value
    requires GreaterFrom(p, j + 1, x)
    ensures InsertPos(p, x) == j + 1
  {
  }

  /** One pass of the outer loop of `stableSort`: entry `i` moves left past
      every greater entry of the prefix before it. */
  method InsertStep(a0: seq<Entry>, i: int) returns (a: seq<Entry>)
    requires 0 <= i < |a0|
    ensures |a| == |a0|
    ensures a[..i + 1] == Insert(a0[..i], a0[i])
    ensures a[i + 1..] == a0[i + 1..]
  {
    a := a0;
    var x := a[i];
    var j := i - 1;
    ghost var p := a0[..i];
    while j >= 0 && a[j].value > x.value
      invariant -1 <= j <= i - 1
      invariant |a| == |a0|
      invariant a[..j + 1] == p[..j + 1]
      invariant a[j + 2..i + 1] == p[j + 1..]
      invariant GreaterFrom(p, j + 1, x)
      invariant a[i + 1..] == a0[i + 1..]
    {
      ShiftOne(a, p, i, j);
      a := a[j + 1 := a[j]];
      j := j - 1;
    }
    ShiftedIsInsert(a, p, x, j);
    a := a[j + 1 := x];
  }

  /** Copying entry `j` one place right keeps the shape of the loop state. */
  lemma ShiftOne(a: seq<Entry>, p: seq<Entry>, i: int, j: int)
    requires 0 <= j < i < |a| && |p| == i
    requires a[..j + 1] == p[..j + 1]
    requires a[j + 2..i + 1] == p[j + 1..]
    ensures a[j + 1 := a[j]][..j] == p[..j]
    ensures a[j + 1 := a[j]][j + 1..i + 1] == p[j..]
    ensures a[j + 1 := a[j]][i + 1..] == a[i + 1..]
  {
    var b := a[j + 1 := a[j]];
    assert a[j] == p[j] by {
      assert a[..j + 1][j] == p[..j + 1][j];
    }
    assert b[..j] == a[..j + 1][..j];
    assert b[j + 1..i + 1] == [a[j]] + a[j + 2..i + 1];
    assert p[j..] == [p[j]] + p[j + 1..];
  }

  /** Once the loop stops at `j`, writing `x` into the gap at `j + 1` yields
      the insertion of `x` into the prefix `p`. */
  lemma ShiftedIsInsert(a: seq<Entry>, p: seq<Entry>, x: Entry, j: int)
    requires -1 <= j < |p| < |a|
    requires j >= 0 ==> a[j].value <= x.value
    requires GreaterFrom(p, j + 1, x)
    requires a[..j + 1] == p[..j + 1]
    requires a[j + 2..|p| + 1] == p[j + 1..]
    ensures a[j + 1 := x][..|p| + 1] == Insert(p, x)
    ensures a[j + 1 := x][|p| + 1..] == a[|p| + 1..]
  {
    assert j >= 0 ==> a[j] == p[j] by {
      if j >= 0 {
        assert a[..j + 1][j] == p[..j + 1][j];
      }
    }
    InsertPosAt(p, x, j);
    var b := a[j + 1 := x];
    assert b[..|p| + 1] == b[..j + 1] + [x] + b[j + 2..|p| + 1];
    assert b[..j + 1] == a[..j + 1];
    assert b[j + 2..|p| + 1] == a[j + 2..|p| + 1];
  }

  /** `stableSort`: insertion sort that shifts greater entries right. */
  method StableSort(s: seq<Entry>) returns (a: seq<Entry>)
    ensures a == InsertionSort(s)
    ensures Ascending(a) && multiset(a) == multiset(s)
    ensures forall v :: Filter(a, v) == Filter(s, v)
  {
    a := s;
    var i := 0;
    while i < |a|
      invariant 0 <= i <= |a| == |s|
      invariant a[..i] == InsertionSort(s[..i])
      invariant a[i..] == s[i..]
    {
      SuffixStep(a, s, i);
      PrefixSnoc(s, i);
      InsertionSortSnoc(s[..i], s[i]);
      a := InsertStep(a, i);
      i := i + 1;
    }
    assert a == a[..i] && s == s[..i];
    InsertionSortSorts(s);
  }

  // ---------------------------------------------------------------------
  // Heapsort: `generateMaxHeap`, `versenke` (sift down) and `sort`

  /** Node `k` of the heap on the first `n` entries is not smaller than its
      children 2k+1 and 2k+2 inside the heap. */
  predicate NodeOk(a: seq<Entry>, n: int, k: int)
    requires 0 <= k && n <= |a|
  {
    && (2 * k + 1 < n ==> a[k].value >= a[2 * k + 1].value)
    && (2 * k + 2 < n ==> a[k].value >= a[2 * k + 2].value)
  }

  /** Every node from `lo` on of the heap on the first `n` entries is ok. */
  predicate HeapFrom(a: seq<Entry>, n: int, lo: int)
    requires 0 <= lo && n <= |a|
  {
    forall k :: lo <= k < n ==> NodeOk(a, n, k)
  }

  /** The first `n` entries form a max-heap. */
  predicate IsMaxHeap(a: seq<Entry>, n: int)
    requires n <= |a|
  {
    HeapFrom(a, n, 0)
  }

  /** The root of a max-heap is a largest entry of it. */
  lemma {:induction false} HeapRootMax(a: seq<Entry>, n: int, k: int)
    requires 0 <= k < n <= |a| && IsMaxHeap(a, n)
    ensures a[0].value >= a[k].value
  {
    if k > 0 {
      var parent := (k - 1) / 2;
      assert NodeOk(a, n, parent);
      HeapRootMax(a, n, parent);
    }
  }

  /** The parent of `c` dominates the children of `c`. */
  predicate ParentDominates(a: seq<Entry>, n: int, c: int)
    requires 1 <= c && n <= |a|
  {
    && (2 * c + 1 < n ==> a[(c - 1) / 2].value >= a[2 * c + 1].value)
    && (2 * c + 2 < n ==> a[(c - 1) / 2].value >= a[2 * c + 2].value)
  }

  /** One swap of `versenke`: the larger child `ki` of `c` moves up. */
  lemma SiftSwap(a: seq<Entry>, n: int, i0: int, c: int, ki: int)
    requires 0 <= i0 <= c && n <= |a|
    requires ki < n
    requires ki == 2 * c + 1 || (ki == 2 * c + 2 && a[2 * c + 1].value < a[ki].value)
    requires ki == 2 * c + 1 ==> (2 * c + 2 < n ==> a[2 * c + 2].value <= a[ki].value)
    requires a[c].value < a[ki].value
    requires forall k :: i0 <= k < n && k != c ==> NodeOk(a, n, k)
    requires c > i0 ==> i0 <= (c - 1) / 2 && ParentDominates(a, n, c)
    ensures forall k :: i0 <= k < n && k != ki ==> NodeOk(Swap(a, c, ki), n, k)
    ensures ParentDominates(Swap(a, c, ki), n, ki) && i0 <= (ki - 1) / 2
  {
    var b := Swap(a, c, ki);
    assert NodeOk(a, n, ki);
    assert NodeOk(b, n, c);
    forall k | i0 <= k < n && k != ki
      ensures NodeOk(b, n, k)
    {
      if k != c && (c == i0 || k != (c - 1) / 2) {
        assert NodeOk(a, n, k);
        assert 2 * k + 1 != c && 2 * k + 2 != c;
        assert 2 * k + 1 != ki && 2 * k + 2 != ki;
      } else if k != c {
        assert NodeOk(a, n, k);
      }
    }
  }

  /** While entry `i0` sinks, it sits at `c`: every other node from `i0` on
      is ok, and the parent of `c` dominates the children of `c`. */
  predicate Sinking(a: seq<Entry>, n: int, i0: int, c: int) {
    && 0 <= i0 <= c < n <= |a|
    && (forall k :: i0 <= k < n && k != c ==> NodeOk(a, n, k))
    && (c > i0 ==> i0 <= (c - 1) / 2 && ParentDominates(a, n, c))
  }

  /** One round of the `versenke` loop: pick the larger child `ki` of `c`;
      if it is larger than the entry at `c`, swap them and continue at `ki`,
      otherwise stop. */
  method SinkStep(a: seq<Entry>, n: int, i0: int, c: int) returns (b: seq<Entry>, next: int, done: bool)
    requires Sinking(a, n, i0, c) && c <= n / 2 - 1
    ensures |b| == |a| && multiset(b) == multiset(a)
    ensures b[..i0] == a[..i0] && b[n..] == a[n..]
    ensures done ==> b == a && next == c && NodeOk(a, n, c)
    ensures !done ==> c < next && Sinking(b, n, i0, next)
  {
    var ki := 2 * (c + 1) - 1;
    if ki + 1 <= n - 1 {
      if a[ki].value < a[ki + 1].value {
        ki := ki + 1;
      }
    }
    if a[c].value < a[ki].value {
      SiftSwap(a, n, i0, c, ki);
      b := Swap(a, c, ki);
      assert b[..i0] == a[..i0] && b[n..] == a[n..];
      next, done := ki, false;
    } else {
      b, next, done := a, c, true;
    }
  }

  /** `versenke(i, n)`: sinks entry `i0` into the heap below it. */
  method Versenke(a0: seq<Entry>, i0: int, n: int) returns (a: seq<Entry>)
    requires 0 <= i0 < n <= |a0|
    requires HeapFrom(a0, n, i0 + 1)
    ensures |a| == |a0| && multiset(a) == multiset(a0)
    ensures HeapFrom(a, n, i0)
    ensures a[..i0] == a0[..i0] && a[n..] == a0[n..]
  {
    a := a0;
    var c := i0;
    while c <= n / 2 - 1
      invariant Sinking(a, n, i0, c)
      invariant |a| == |a0| && multiset(a) == multiset(a0)
      invariant a[..i0] == a0[..i0] && a[n..] == a0[n..]
      decreases n - c
    {
      var b, next, done := SinkStep(a, n, i0, c);
      if done {
        break;
      }
      a, c := b, next;
    }
    assert NodeOk(a, n, c);
  }

  /** `generateMaxHeap`: sinks every inner node, last to first. */
  method GenerateMaxHeap(a0: seq<Entry>) returns (a: seq<Entry>)
    ensures |a| == |a0| && multiset(a) == multiset(a0)
    ensures IsMaxHeap(a, |a|)
  {
    a := a0;
    var n := |a|;
    var i := n / 2 - 1;
    while i >= 0
      invariant -1 <= i <= n / 2 - 1
      invariant |a| == n && multiset(a) == multiset(a0)
      invariant HeapFrom(a, n, i + 1)
    {
      a := Versenke(a, i, n);
      i := i - 1;
    }
  }

  /** All entries in positions lo..hi have a value of at most `v`. */
  predicate AllAtMost(a: seq<Entry>, lo: int, hi: int, v: real) {
    forall k :: 0 <= k < |a| && lo <= k <= hi ==> a[k].value <= v
  }

  /** All entries in positions lo..hi have a value of at least `v`. */
  predicate AllAtLeast(a: seq<Entry>, lo: int, hi: int, v: real) {
    forall k :: 0 <= k < |a| && lo <= k <= hi ==> a[k].value >= v
  }

  /** Rearranging the entries in lo..hi keeps any bound on them. */
  lemma RearrangedBounds(a: seq<Entry>, b: seq<Entry>, lo: int, hi: int, v: real)
    requires 0 <= lo <= hi + 1 <= |a| && hi < |b|
    requires multiset(a[lo..hi + 1]) == multiset(b[lo..hi + 1])
    ensures AllAtMost(b, lo, hi, v) ==> AllAtMost(a, lo, hi, v)
    ensures AllAtLeast(b, lo, hi, v) ==> AllAtLeast(a, lo, hi, v)
  {
    forall k | lo <= k <= hi
      ensures exists m :: lo <= m <= hi && b[m] == a[k]
    {
      assert a[lo..hi + 1][k - lo] == a[k];
      assert a[k] in multiset(b[lo..hi + 1]);
      var m :| 0 <= m < hi + 1 - lo && b[lo..hi + 1][m] == a[k];
      assert b[lo + m] == a[k];
    }
  }

  /** A segment's entries, when everything outside it stayed in place. */
  lemma SegmentMultiset(a: seq<Entry>, b: seq<Entry>, lo: int, hi: int)
    requires 0 <= lo <= hi + 1 <= |a| == |b|
    requires multiset(a) == multiset(b)
    requires a[..lo] == b[..lo] && a[hi + 1..] == b[hi + 1..]
    ensures multiset(a[lo..hi + 1]) == multiset(b[lo..hi + 1])
  {
    assert a == a[..lo] + a[lo..hi + 1] + a[hi + 1..];
    assert b == b[..lo] + b[lo..hi + 1] + b[hi + 1..];
    assert multiset(a) == multiset(a[..lo]) + multiset(a[lo..hi + 1]) + multiset(a[hi + 1..]);
    assert multiset(b) == multiset(b[..lo]) + multiset(b[lo..hi + 1]) + multiset(b[hi + 1..]);
    var ma, mb := multiset(a[lo..hi + 1]), multiset(b[lo..hi + 1]);
    forall e ensures ma[e] == mb[e] {
      assert multiset(a)[e] == multiset(b)[e];
    }
  }

  /** The state of `sort()`'s loop: a max-heap on 0..i, below an
      ascending tail that holds the largest entries. */
  predicate HeapSortState(a: seq<Entry>, i: int)
    requires -1 <= i < |a|
  {
    && IsMaxHeap(a, i + 1)
    && (forall x, y :: i < x < y < |a| ==> a[x].value <= a[y].value)
    && (forall x, y :: 0 <= x <= i < y < |a| ==> a[x].value <= a[y].value)
  }

  /** Swapping the root of the heap on 0..i with entry i: the heap on 0..i-1
      is intact below its new root, every entry there is at most the old
      root, and the tail from i on is ascending. */
  lemma SwapRoot(a0: seq<Entry>, i: int)
    requires 0 < i < |a0| && HeapSortState(a0, i)
    ensures var b := Swap(a0, i, 0);
      && HeapFrom(b, i, 1)
      && AllAtMost(b, 0, i - 1, b[i].value)
      && (forall x, y :: i <= x < y < |b| ==> b[x].value <= b[y].value)
  {
    var b := Swap(a0, i, 0);
    forall k | 0 <= k <= i ensures a0[k].value <= a0[0].value {
      HeapRootMax(a0, i + 1, k);
    }
    forall k | 1 <= k < i ensures NodeOk(b, i, k) {
      assert NodeOk(a0, i + 1, k);
    }
  }

  /** After the sink, the entries 0..i-1 are a rearranged heap of values at
      most entry i, and the tail is untouched: the state of the next round. */
  lemma AfterSink(a: seq<Entry>, b: seq<Entry>, i: int)
    requires 0 < i < |b| == |a| && multiset(a) == multiset(b)
    requires a[i..] == b[i..] && IsMaxHeap(a, i)
    requires AllAtMost(b, 0, i - 1, b[i].value)
    requires forall x, y :: i <= x < y < |b| ==> b[x].value <= b[y].value
    ensures HeapSortState(a, i - 1)
  {
    SegmentMultiset(a, b, 0, i - 1);
    RearrangedBounds(a, b, 0, i - 1, b[i].value);
    SuffixAgree(a, b, i, i);
  }

  /** One round of `sort()`: swap the root behind the heap, then sink the
      new root into the shrunken heap. */
  method HeapSortStep(a0: seq<Entry>, i: int) returns (a: seq<Entry>)
    requires 0 < i < |a0| && HeapSortState(a0, i)
    ensures |a| == |a0| && multiset(a) == multiset(a0)
    ensures HeapSortState(a, i - 1)
  {
    SwapRoot(a0, i);
    var b := Swap(a0, i, 0);
    a := Versenke(b, 0, i);
    AfterSink(a, b, i);
  }

  /** `sort()`: build a max-heap, then repeatedly move its root behind it. */
  method HeapSort(a0: seq<Entry>) returns (a: seq<Entry>)
    ensures |a| == |a0| && multiset(a) == multiset(a0)
    ensures Ascending(a)
  {
    a := GenerateMaxHeap(a0);
    var i := |a| - 1;
    while i > 0
      invariant |a| == |a0| && multiset(a) == multiset(a0)
      invariant -1 <= i < |a| && (|a| > 0 ==> i >= 0)
      invariant HeapSortState(a, i)
    {
      a := HeapSortStep(a, i);
      i := i - 1;
    }
    if |a| > 0 {
      assert NodeOk(a, 1, 0);
    }
  }

  // ---------------------------------------------------------------------
  // Hoare quicksort: `partition`, `quicksort`, `partialQuicksort`

  /** The state of `partition`'s outer loop.  Before the first round the
      cursors sit outside the segment; afterwards each sits on an entry on
      its own side of the pivot.  Entries lo..i are at most the pivot and
      entries j..hi at least it. */
  predicate Split(a: seq<Entry>, lo: int, hi: int, piv: real, i: int, j: int, first: bool) {
    && 0 <= lo < hi < |a|
    && (first ==> i == lo - 1 && j == hi + 1 && a[lo].value == piv)
    && (!first ==> lo <= i < j <= hi && a[i].value <= piv && a[j].value >= piv)
    && AllAtMost(a, lo, i, piv) && AllAtLeast(a, j, hi, piv)
  }

  /** The two inner loops of `partition`: i moves right past entries below
      the pivot, j moves left past entries above it.  Each stops at the
      latest at the entry the other cursor last stood on (the pivot itself
      in the first round). */
  method Scan(a: seq<Entry>, lo: int, hi: int, piv: real, i0: int, j0: int, ghost first: bool) returns (i: int, j: int)
    requires Split(a, lo, hi, piv, i0, j0, first)
    ensures i0 < i <= (if first then lo else j0) && a[i].value >= piv
    ensures AllAtMost(a, lo, i - 1, piv)
    ensures (if first then lo else i0) <= j < j0 && a[j].value <= piv
    ensures AllAtLeast(a, j + 1, hi, piv)
  {
    ghost var sentI := if first then lo else j0;
    ghost var sentJ := if first then lo else i0;
    i := i0 + 1;
    while a[i].value < piv
      invariant i0 < i <= sentI
      invariant AllAtMost(a, lo, i - 1, piv)
      decreases sentI - i
    {
      i := i + 1;
    }
    j := j0 - 1;
    while a[j].value > piv
      invariant sentJ <= j < j0
      invariant AllAtLeast(a, j + 1, hi, piv)
      decreases j - sentJ
    {
      j := j - 1;
    }
  }

  /** Swapping the two stuck entries puts each on its own side. */
  lemma SwapSplit(a: seq<Entry>, lo: int, hi: int, piv: real, i: int, j: int)
    requires 0 <= lo <= i < j <= hi < |a|
    requires a[i].value >= piv && a[j].value <= piv
    requires AllAtMost(a, lo, i - 1, piv) && AllAtLeast(a, j + 1, hi, piv)
    ensures Split(Swap(a, i, j), lo, hi, piv, i, j, false)
  {
  }

  /** `partition(lo, hi)`: Hoare's scheme with the first entry's value as
      pivot.  Returns `p` with lo <= p < hi; entries lo..p are at most the
      pivot and entries p+1..hi at least it. */
  method Partition(a0: seq<Entry>, lo: int, hi: int) returns (a: seq<Entry>, p: int)
    requires 0 <= lo < hi < |a0|
    ensures lo <= p < hi
    ensures |a| == |a0| && multiset(a) == multiset(a0)
    ensures a[..lo] == a0[..lo] && a[hi + 1..] == a0[hi + 1..]
    ensures AllAtMost(a, lo, p, a0[lo].value) && AllAtLeast(a, p + 1, hi, a0[lo].value)
  {
    a := a0;
    var piv := a[lo].value;
    var i := lo - 1;
    var j := hi + 1;
    ghost var first := true;
    while true
      invariant |a| == |a0| && multiset(a) == multiset(a0)
      invariant a[..lo] == a0[..lo] && a[hi + 1..] == a0[hi + 1..]
      invariant Split(a, lo, hi, piv, i, j, first)
      decreases j - i
    {
      i, j := Scan(a, lo, hi, piv, i, j, first);
      if i >= j {
        p := j;
        return;
      }
      SwapSplit(a, lo, hi, piv, i, j);
      a := Swap(a, i, j);
      first := false;
    }
  }

  /** Entries lo..hi are in ascending order. */
  predicate SortedBetween(a: seq<Entry>, lo: int, hi: int) {
    forall x, y :: 0 <= x < y < |a| && lo <= x && y <= hi ==> a[x].value <= a[y].value
  }

  /** Entries lo..hi: each one before position `n` is at most every entry
      after it; so positions lo..n-1 hold the smallest entries, in order. */
  predicate PartiallySorted(a: seq<Entry>, lo: int, hi: int, n: int) {
    forall x, y :: 0 <= x < y < |a| && lo <= x && y <= hi && x < n ==> a[x].value <= a[y].value
  }

  /** `quicksort(lo, hi)`. */
  method Quicksort(a0: seq<Entry>, lo: int, hi: int) returns (a: seq<Entry>)
    requires 0 <= lo && hi < |a0|
    ensures |a| == |a0| && multiset(a) == multiset(a0)
    ensures lo <= hi ==> a[..lo] == a0[..lo] && a[hi + 1..] == a0[hi + 1..]
    ensures lo > hi ==> a == a0
    ensures SortedBetween(a, lo, hi)
    decreases hi - lo
  {
    a := a0;
    if lo < hi {
      var a1, p := Partition(a0, lo, hi);
      var a2 := Quicksort(a1, lo, p);
      a := Quicksort(a2, p + 1, hi);
      JoinHalves(a0, a1, a2, a, lo, p, hi, hi + 1);
    }
  }

  /** `partialQuicksort(lo, hi, size)`: like `quicksort`, but skips the right
      part of a partition that lies wholly at or beyond position size-1. */
  method PartialQuicksort(a0: seq<Entry>, lo: int, hi: int, n: int) returns (a: seq<Entry>)
    requires 0 <= lo && hi < |a0|
    ensures |a| == |a0| && multiset(a) == multiset(a0)
    ensures lo <= hi ==> a[..lo] == a0[..lo] && a[hi + 1..] == a0[hi + 1..]
    ensures lo > hi ==> a == a0
    ensures PartiallySorted(a, lo, hi, n)
    decreases hi - lo
  {
    a := a0;
    if lo < hi {
      var a1, p := Partition(a0, lo, hi);
      var a2 := PartialQuicksort(a1, lo, p, n);
      if p < n - 1 {
        a := PartialQuicksort(a2, p + 1, hi, n);
      } else {
        a := a2;
      }
      JoinHalves(a0, a1, a2, a, lo, p, hi, n);
    }
  }

  /** The recursion step shared by `quicksort` and `partialQuicksort`: after
      partitioning at `p` and treating both sides, the segment is sorted up
      to position `n`. */
  lemma JoinHalves(a0: seq<Entry>, a1: seq<Entry>, a2: seq<Entry>, a3: seq<Entry>,
                   lo: int, p: int, hi: int, n: int)
    requires 0 <= lo <= p < hi < |a0| == |a1| == |a2| == |a3|
    requires multiset(a1) == multiset(a0) && multiset(a2) == multiset(a1) && multiset(a3) == multiset(a2)
    requires a1[..lo] == a0[..lo] && a1[hi + 1..] == a0[hi + 1..]
    requires AllAtMost(a1, lo, p, a0[lo].value) && AllAtLeast(a1, p + 1, hi, a0[lo].value)
    requires a2[..lo] == a1[..lo] && a2[p + 1..] == a1[p + 1..]
    requires PartiallySorted(a2, lo, p, n)
    requires a3[..p + 1] == a2[..p + 1] && a3[hi + 1..] == a2[hi + 1..]
    requires p < n - 1 ==> PartiallySorted(a3, p + 1, hi, n)
    requires p >= n - 1 ==> a3 == a2
    ensures a3[..lo] == a0[..lo] && a3[hi + 1..] == a0[hi + 1..]
    ensures PartiallySorted(a3, lo, hi, n)
  {
    var piv := a0[lo].value;
    SegmentMultiset(a2, a1, lo, p);
    RearrangedBounds(a2, a1, lo, p, piv);
    SuffixAgree(a2, a1, p + 1, hi + 1);
    assert AllAtLeast(a2, p + 1, hi, piv);
    SegmentMultiset(a3, a2, p + 1, hi);
    RearrangedBounds(a3, a2, p + 1, hi, piv);
    PrefixAgree(a3, a2, p + 1, lo);
    assert AllAtMost(a3, lo, p, piv) && PartiallySorted(a3, lo, p, n);
    SortedJoin(a3, lo, p, hi, n, piv);
  }

  /** Two partially sorted sides around a pivot value make a partially
      sorted whole; when the right side was skipped, only positions before
      n - 1 <= p are asked for, and those are all on the left. */
  lemma SortedJoin(a: seq<Entry>, lo: int, p: int, hi: int, n: int, piv: real)
    requires AllAtMost(a, lo, p, piv) && AllAtLeast(a, p + 1, hi, piv)
    requires PartiallySorted(a, lo, p, n)
    requires p < n - 1 ==> PartiallySorted(a, p + 1, hi, n)
    ensures PartiallySorted(a, lo, hi, n)
  {
  }

  // ---------------------------------------------------------------------
  // Stability in terms of original positions

  /** Original positions increase along `t`. */
  predicate IndexOrdered(t: seq<Entry>) {
    forall x, y :: 0 <= x < y < |t| ==> t[x].index < t[y].index
  }

  lemma {:induction false} FilterMembers(s: seq<Entry>, v: real, e: Entry)
    ensures e in Filter(s, v) <==> e in s && e.value == v
  {
    if |s| > 0 {
      var q := s[..|s| - 1];
      FilterMembers(q, v, e);
      assert s == q + [s[|s| - 1]];
    }
  }

  /** Filtering an index-ordered sequence keeps it index-ordered. */
  lemma {:induction false} FilterIndexOrdered(s: seq<Entry>, v: real)
    requires IndexOrdered(s)
    ensures IndexOrdered(Filter(s, v))
  {
    if |s| > 0 {
      var q := s[..|s| - 1];
      var last := s[|s| - 1];
      FilterIndexOrdered(q, v);
      if last.value == v {
        var f := Filter(q, v);
        forall x | 0 <= x < |f| ensures f[x].index < last.index {
          FilterMembers(q, v, f[x]);
          var m :| 0 <= m < |q| && q[m] == f[x];
        }
      }
    }
  }

  /** If every run of equal values is index-ordered, so is every pair of
      equal entries. */
  lemma {:induction false} EqualValuesIndexOrdered(s: seq<Entry>)
    requires forall v :: IndexOrdered(Filter(s, v))
    ensures forall i, j :: 0 <= i < j < |s| && s[i].value == s[j].value ==> s[i].index < s[j].index
  {
    if |s| > 0 {
      var q := s[..|s| - 1];
      var last := s[|s| - 1];
      forall v ensures IndexOrdered(Filter(q, v)) {
        var f, g := Filter(s, v), Filter(q, v);
        if last.value == v {
          assert f == g + [last];
          forall x, y | 0 <= x < y < |g| ensures g[x].index < g[y].index {
            assert g[x] == f[x] && g[y] == f[y];
          }
        } else {
          assert f == g;
        }
      }
      EqualValuesIndexOrdered(q);
      forall i | 0 <= i < |q| && q[i].value == last.value
        ensures q[i].index < last.index
      {
        var v := last.value;
        FilterMembers(q, v, q[i]);
        var f := Filter(q, v);
        var m :| 0 <= m < |f| && f[m] == q[i];
        assert Filter(s, v) == f + [last];
        assert (f + [last])[m] == q[i] && (f + [last])[|f|] == last;
      }
    }
  }

  lemma LoadIndexOrdered(arr: seq<real>)
    ensures IndexOrdered(Load(arr))
  {
  }

  // ---------------------------------------------------------------------
  // The sorter's public operations on a tracking state

  /** `sort()` on a state made by `set(orig)` and earlier sorts. */
  method Sort(orig: seq<real>, s0: seq<Entry>) returns (s: seq<Entry>)
    requires Tracks(orig, s0)
    ensures Tracks(orig, s) && Ascending(s)
    ensures IsPermutation(Permuted(s), |orig|)
    ensures forall i :: 0 <= i < |s| ==> Sorted(s)[i] == orig[Permuted(s)[i]]
  {
    s := HeapSort(s0);
    TracksMeaning(orig, s);
  }

  /** `stableSort()` right after `set(orig)`: ascending, and entries of equal
      value keep their original relative order. */
  method StableSortFresh(orig: seq<real>) returns (s: seq<Entry>)
    ensures Tracks(orig, s) && Ascending(s)
    ensures IsPermutation(Permuted(s), |orig|)
    ensures forall i :: 0 <= i < |s| ==> Sorted(s)[i] == orig[Permuted(s)[i]]
    ensures forall i, j :: 0 <= i < j < |s| && Sorted(s)[i] == Sorted(s)[j] ==> Permuted(s)[i] < Permuted(s)[j]
  {
    var s0 := Load(orig);
    s := StableSort(s0);
    TracksMeaning(orig, s);
    forall v ensures IndexOrdered(Filter(s, v)) {
      LoadIndexOrdered(orig);
      FilterIndexOrdered(s0, v);
    }
    EqualValuesIndexOrdered(s);
  }

  /** `partialSort(n)`: positions 0..n-1 end up holding the n smallest
      values, in ascending order. */
  method PartialSort(orig: seq<real>, s0: seq<Entry>, n: int) returns (s: seq<Entry>)
    requires Tracks(orig, s0)
    ensures Tracks(orig, s) && PartiallySorted(s, 0, |s| - 1, n)
    ensures IsPermutation(Permuted(s), |orig|)
    ensures forall i :: 0 <= i < |s| ==> Sorted(s)[i] == orig[Permuted(s)[i]]
  {
    s := PartialQuicksort(s0, 0, |s0| - 1, n);
    TracksMeaning(orig, s);
  }
}
